=== FILE: README.md ===
# Film-industry JDBC ingestion, modelled in Dafny

This project models the ingestion pipeline of a small Java/SQLite film database. The pipeline has five parts:

- **Schema bootstrap** (`InitialiseDB`, `DDLTester`). A store that already has tables is cleared with a deletion script, but only when that script's lines, with every `;` removed, equal the twelve expected `DROP TABLE IF EXISTS` statements. A DDL script is then accepted only if its lines, concatenated and split on `;`, equal the twelve expected `CREATE TABLE IF NOT EXISTS` statements.
- **Parsing** (`Parsers`, `JSONTester`, `Actors`, `Movies`, `Director`). This is not a JSON parser. It keeps the lines that start with six spaces and `"key": `, strips punctuation, and zips the per-key lists by index into records. It checks the whole file against a reference copy and splits relationship fields into ID lists. Records take their IDs from per-class counters.
- **Population** (`PopulateDB`). There are two gates: the store must have tables, and the Actors table must be empty. After that, six steps each insert entity rows and then junction-table rows. Awards, Directors, Genres, Ratings, Movies and Actors go in that order. The first failure stops the run and maps to a message, or escapes.
- **Querying** (`QueryDB`). The same gates apply, then the selector is parsed, then each selector's argument count is checked. `printer` prints the result with entries numbered from 1.

Each module follows one Java class:

| file | module | models |
|---|---|---|
| `wrappers.dfy` | `Wrappers` | `Option` / `Result` with `:-` support |
| `faults.dfy` | `Faults` | the exceptions as values; a text file as `Option<seq<string>>` of lines |
| `java_text.dfy` | `JavaText` | `String.split`, `replaceAll`, `Integer.parseInt`, `Integer.toString` |
| `entities.dfy` | `Entities` | `Actors`, `Movies`, `Director` (constructor ID allocation) and the value records |
| `json_tester.dfy` | `JsonTester` | the six `JSON*Comparer` methods |
| `extractor.dfy` | `Extractor` | `defaultStringParser`, `defaultIDParser`, `defaultIntParser` |
| `parsers.dfy` | `Parsers` | the six file parsers and the relationship-field rule |
| `database.dfy` | `Database` | the store, `preparation`, `emptyDBChecker`, `resultSetChecker`, `populatedTableChecker` |
| `junctions.dfy` | `Junctions` | the junction-row loops of the population steps |
| `populate_db.dfy` | `PopulateDb` | `population` and the six `populate*` steps |
| `population_order.dfy` | `PopulationOrder` | the population order set against the schema's foreign keys |
| `ddl_tester.dfy` | `DdlTester` | `tester()` and `deletionTester()` |
| `initialise_db.dfy` | `InitialiseDb` | `initialiseDB` and `deleteDB` |
| `query_db.dfy` | `QueryDb` | `querying`, the six queries' bindings, `printer` |

The store is a map from table name to the rows inserted so far, and the meaning of SQL text is not modelled. An `Env` says three things: whether the SQLite driver class loads, whether a connection succeeds, and which tables the database file holds. Files are sequences of lines, or `None` when they cannot be opened. Printed output is returned as a list of lines. Thrown exceptions are returned as `Fault` values. The messages each class returns or prints are datatype values, and a `Text` function gives each one's exact wording. The twelve CREATE TABLE statements are rendered from per-table structure (column definitions, foreign keys, spacing) to the exact text `tester()` holds.

## Model

| member | source | states |
|---|---|---|
| JavaText.RemoveAll | src/Parsers.java:189 | `replaceAll` of the key prefix: never longer than the input; a string without the prefix is unchanged |
| JavaText.Without | src/Parsers.java:190 | deleting a character class: no deleted character remains, and a string with none of them is unchanged |
| JavaText.WithoutAppend | src/InitialiseDB.java:167 | character deletion works line by line: deleting from a concatenation equals concatenating the deletions |
| JavaText.SplitAll | src/Parsers.java:56 | the fields of a split contain no delimiter and join back to the input |
| JavaText.SplitJoin | src/Parsers.java:56 | splitting delimiter-free fields joined by the delimiter gives the fields back |
| JavaText.JavaSplit | src/InitialiseDB.java:100-101 | `String.split`: no delimiter gives the input alone; otherwise the fields are delimiter-free, form the full split with its trailing empty fields dropped (every field cut off is empty) and the last field kept is non-empty |
| JavaText.JavaSplitJoin | src/InitialiseDB.java:100-101 | fields joined with the delimiter, with or without a final delimiter, split back into the same fields when the last is non-empty |
| JavaText.ConcatTerminated | src/InitialiseDB.java:92-101 | lines that each end in `;` and are concatenated equal the statements joined by `;` with one final `;` |
| JavaText.NatToString | src/QueryDB.java:142 | the decimal text of a count is a non-empty digit string whose value is the count, starting with `0` exactly when the count is 0 (no leading zeros) |
| JavaText.ParseInt | src/Parsers.java:172 | `Integer.parseInt`: success only on an optional sign followed by digits with a value in the 32-bit range, and conversely every such string parses to its value (with `-2147483648` allowed) |
| JavaText.ParseIntOfDecimal | src/Parsers.java:172 | printing a non-negative int and parsing it back, bare or signed, gives the int |
| JavaText.ParseIntRejects | src/Parsers.java:172 | the empty string, a lone sign and 2147483648 are rejected |
| Entities.NewActor | src/Actors.java:31-39 | a new actor takes the counter as its ID, advances the counter by one, keeps its fields, and starts with empty award and movie lists |
| Entities.NewMovie | src/Movies.java:36-48 | a new movie takes the counter as its ID, advances it, keeps its fields, and starts with empty award, rating and genre lists |
| Entities.NewDirector | src/Director.java:28-34 | a new director takes the counter as its ID, advances it, keeps its fields, and starts with an empty award list |
| JsonTester.Compare | src/JSONTester.java:18-34 | passes (with `true`) exactly when both files open and have equal line lists; either file failing to open is an IO failure; unequal lists throw the schema exception naming the candidate; never `false` |
| Extractor.ExtractEmpty | src/Parsers.java:185-192 | the extraction is empty exactly when no line carries the key |
| Extractor.ExtractFromTagged | src/Parsers.java:185-192 | each extracted value is the residual of some tagged line |
| Extractor.ExtractAppend | src/Parsers.java:185-192 | extraction is line-wise: the values of a concatenation are the values of each part, in file order |
| Extractor.ExtractOne | src/Parsers.java:188-189 | one line gives its residual when tagged and nothing otherwise |
| Extractor.KeyIsExact | src/Parsers.java:188 | a line tagged with two keys was tagged with the same key |
| Extractor.RatingIsNotRatings | src/Parsers.java:385 | a `"Ratings"` line is not picked up by the `"Rating"` key |
| Extractor.ResidualIsRest | src/Parsers.java:189 | deleting the prefix from a tagged line whose rest does not contain the prefix again leaves exactly that rest |
| Extractor.ParseAll | src/Parsers.java:58-60 | parsing every token succeeds exactly when each token is a valid int, giving each token's value in order; otherwise a format exception |
| Extractor.StringValues | src/Parsers.java:185-192 | one value per tagged line, in order: value `j` is the residual of the `j`-th tagged line with every `,` and `"` deleted |
| Extractor.IdValues | src/Parsers.java:149-156 | one value per tagged line, in order: value `j` is the residual of the `j`-th tagged line with every `"` deleted, commas kept |
| Extractor.IntValues | src/Parsers.java:166-175 | succeeds exactly when the comma-free residual of every tagged line parses as an int; then value `j` is the parse of the `j`-th residual; otherwise a format exception |
| Extractor.StringFieldValue | src/Parsers.java:185-192 | a line `"key": "v"` with an optional trailing `,` yields exactly `v` when `v` has no `,` or `"` |
| Extractor.QuotedHasNoPrefix | src/Parsers.java:189 | the key prefix cannot recur inside a quoted value with a quote-free tail, so `replaceAll` deletes only the leading one |
| Extractor.IdFieldValue | src/Parsers.java:149-156 | a line `"key": "v"` with an optional trailing `,` yields `v` with that comma kept, for any quote-free `v` |
| Extractor.IntFieldValue | src/Parsers.java:166-175 | a line `"key": n,` yields the int `n` |
| Parsers.RelationIds | src/Parsers.java:55-65 | with the delimiter, every split token is parsed (zeros and negatives kept) and any bad token throws; without it, the one number is kept only when positive |
| Parsers.DelimitedKeepsEveryToken | src/Parsers.java:55-60 | the joined numerals of any ID list, with or without a trailing delimiter, parse back to that exact list |
| Parsers.UndelimitedPositivity | src/Parsers.java:61-65 | a lone numeral gives `[n]` when positive and `[]` for 0 or a negative |
| Parsers.ZeroWithDelimiterExample | src/Parsers.java:325-330 | `"0,"` yields `[0]`: the zero is filtered only when no delimiter is present |
| Parsers.LeadingEmptyTokenFails | src/Parsers.java:349-354 | a leading delimiter (for genres, a minus sign) gives an empty token that throws |
| Parsers.TrailingCommaKeepsZero | src/Parsers.java:149-156 | a movie award field `0,` (a non-last JSON member) keeps its comma and yields `[0]` |
| Parsers.LastMemberZeroDropped | src/Parsers.java:331-335 | a movie award field `0` (the last member) yields no ID |
| Parsers.ParseRelations | src/Parsers.java:55-77 | one ID-list result per field, and the only failures are format exceptions |
| Parsers.ActorFieldsOf | src/Parsers.java:29-47 | the five per-key lists; fails exactly when an age does not parse |
| Parsers.ActorAt | src/Parsers.java:52-77 | record `i` is built exactly when every list has an entry `i` and both ID fields parse; it takes the counter as ID and keeps its fields |
| Parsers.BuildActors | src/Parsers.java:50-80 | all records from `i` on, IDs consecutive from the counter, each built from its index; the first bad record's fault otherwise |
| Parsers.ActorParser | src/Parsers.java:29-85 | IO failure when unreadable; extraction, then the schema gate, then the record loop; on success one actor per name with consecutive IDs and the counter advanced by the count |
| Parsers.AwardsParser | src/Parsers.java:97-118 | institution and motive zipped by index after the schema gate; a short motive list throws an index exception |
| Parsers.GenreParser | src/Parsers.java:251-269 | one genre per tagged line, failing exactly when the file is unreadable or differs from the reference |
| Parsers.RatingsParser | src/Parsers.java:379-401 | critic source and rating zipped by index after the schema gate; a short rating list throws an index exception |
| Parsers.DirectorFieldsOf | src/Parsers.java:204-214 | the three per-key lists; fails exactly when a movie count does not parse |
| Parsers.DirectorAt | src/Parsers.java:218-231 | record `i` is built exactly when its entries exist and its award field parses |
| Parsers.BuildDirectors | src/Parsers.java:215-234 | all records from `i` on, IDs consecutive from the counter, each built from its index |
| Parsers.DirectorsParser | src/Parsers.java:204-239 | as for actors: IO failure, schema gate, one director per name with consecutive IDs |
| Parsers.MovieFieldsOf | src/Parsers.java:281-311 | the eight per-key lists; fails exactly when a director ID does not parse |
| Parsers.MovieAt | src/Parsers.java:316-359 | record `i` is built exactly when its entries exist and its award, rating and genre fields parse |
| Parsers.BuildMovies | src/Parsers.java:313-362 | all records from `i` on, IDs consecutive from the counter, each built from its index |
| Parsers.MoviesParser | src/Parsers.java:281-367 | as for actors: IO failure, schema gate, one movie per title with consecutive IDs |
| Database.Preparation | src/InitialiseDB.java:143-147 | succeeds exactly when the driver loads and the connection opens; the driver failure comes first |
| Database.ResultSetCheckerMeaning | src/QueryDB.java:293-295 | on a fresh result the check is true exactly when there is a row, and false once the cursor has moved |
| Database.EmptyDbChecker | src/InitialiseDB.java:28-39 | true exactly when the driver or the connection fails or the store lists no tables |
| Database.PopulatedTableChecker | src/QueryDB.java:317-328 | succeeds exactly when connected and an Actors table exists, answering whether it has rows; otherwise the driver or SQL failure |
| Database.PopulatedCheckReadsOnlyActors | src/QueryDB.java:320 | two stores that agree on the Actors table get the same answer |
| Junctions.LoopRows | src/PopulateDB.java:75-79 | the index loop from `i` writes one link per remaining ID, in order |
| Junctions.JunctionRows | src/PopulateDB.java:68-82 | the empty/one-element/loop branches together write exactly one link per ID, in list order |
| Junctions.MovieAwardRows | src/PopulateDB.java:249-263 | the movie-award branches, with the `!= 0` guard, still write exactly one link per ID |
| Junctions.ZeroAwardStillLinked | src/PopulateDB.java:251-260 | a movie whose award list is `[0]` still gets the row `(movie, 0)` |
| Junctions.AllLinksCount | src/PopulateDB.java:68-82 | a junction table gets as many rows as all its records' lists hold |
| Junctions.AllLinksSound | src/PopulateDB.java:68-82 | every link written pairs some record's ID with one of that record's IDs |
| Junctions.AllLinksComplete | src/PopulateDB.java:68-82 | every ID of every record has its link |
| Junctions.LinksSoundRecords | src/PopulateDB.java:68-82 | with record IDs counting from `first`, every link written belongs to the record at index `owner - first`, and that record lists the link's related ID |
| Junctions.LinksCompleteRecords | src/PopulateDB.java:68-82 | with record IDs counting from `first`, every ID the record at index `k` lists is linked to the owner `first + k` |
| Junctions.AllMovieAwardLinks | src/PopulateDB.java:249-263 | the awardWinningMovie rows equal the unguarded rows |
| PopulateDb.Open | src/PopulateDB.java:49-51 | preparing a statement succeeds exactly when the driver loads, the connection opens and the table exists |
| PopulateDb.Write | src/PopulateDB.java:63-82 | a junction table either gets all its rows appended and is recorded as written, or the preparation's fault stops the run with nothing changed |
| PopulateDb.WriteEach | src/PopulateDB.java:244-309 | the step's tables are written in order, a prefix of them before any failure, all of them otherwise; other tables are untouched |
| PopulateDb.WriteEachFault | src/PopulateDB.java:244-309 | the junction writes stop only with the driver failure when the driver is missing, or an SQL failure when the connection fails or one of their tables is missing; they complete only with both there |
| PopulateDb.AwardsStep | src/PopulateDB.java:120-135 | appends one Awards row per parsed award |
| PopulateDb.AwardsStepFault | src/PopulateDB.java:120-135 | the step stops with the driver failure only when the driver is missing, with an SQL failure only when the connection fails or one of its own tables is missing, and with its parser's failure only once the driver and the connection are there; a step that completes had both |
| PopulateDb.DirectorsStep | src/PopulateDB.java:148-186 | appends the Director rows, then one awardWinningDirector link per award ID, and advances only the director counter |
| PopulateDb.DirectorsStepFault | src/PopulateDB.java:148-186 | the step stops with the driver failure only when the driver is missing, with an SQL failure only when the connection fails or one of its own tables is missing, and with its parser's failure only once the driver and the connection are there; a step that completes had both |
| PopulateDb.GenresStep | src/PopulateDB.java:198-212 | appends one Genres row per parsed genre |
| PopulateDb.GenresStepFault | src/PopulateDB.java:198-212 | the step stops with the driver failure only when the driver is missing, with an SQL failure only when the connection fails or one of its own tables is missing, and with its parser's failure only once the driver and the connection are there; a step that completes had both |
| PopulateDb.RatingsStep | src/PopulateDB.java:324-340 | appends one Ratings row per parsed rating |
| PopulateDb.RatingsStepFault | src/PopulateDB.java:324-340 | the step stops with the driver failure only when the driver is missing, with an SQL failure only when the connection fails or one of its own tables is missing, and with its parser's failure only once the driver and the connection are there; a step that completes had both |
| PopulateDb.MoviesStep | src/PopulateDB.java:225-312 | appends the Movies rows, then the award, rating and genre links, and advances only the movie counter |
| PopulateDb.MoviesStepFault | src/PopulateDB.java:225-312 | the step stops with the driver failure only when the driver is missing, with an SQL failure only when the connection fails or one of its own tables is missing, and with its parser's failure only once the driver and the connection are there; a step that completes had both |
| PopulateDb.ActorsStep | src/PopulateDB.java:47-108 | appends the Actors rows, then the award and Cast links, and advances only the actor counter |
| PopulateDb.ActorsStepFault | src/PopulateDB.java:47-108 | the step stops with the driver failure only when the driver is missing, with an SQL failure only when the connection fails or one of its own tables is missing, and with its parser's failure only once the driver and the connection are there; a step that completes had both |
| PopulateDb.CountersSeenByParsers | src/PopulateDB.java:371-376 | each parser sees its counter as the run began, because only its own step moves it |
| PopulateDb.Caught | src/PopulateDB.java:380-386 | driver, SQL and IO failures become three distinct messages (driver, SQL, JSON); every other exception escapes unchanged |
| PopulateDb.Population | src/PopulateDB.java:357-391 | "not created" exactly when `emptyDBChecker` is true; "already populated" exactly when the Actors table has rows; a failing Actors check gives that fault's outcome and changes nothing; otherwise the six steps run and their end decides the outcome; the table set never changes |
| PopulateDb.Finish | src/PopulateDB.java:371-387 | "populated" exactly when no step faulted; a fault becomes its caught message or escapes; the store holds what the steps wrote |
| PopulateDb.StepProgress | src/PopulateDB.java:371-376 | a step extends the written prefix by its own tables |
| PopulateDb.RunProgress | src/PopulateDB.java:371-376 | the six steps write a prefix of the fixed table order, all of it when none fails |
| PopulateDb.PopulationWritesInOrder | src/PopulateDB.java:366-391 | a population writes a prefix of the table order, all of it when it reports success |
| PopulateDb.RunCompletes | src/PopulateDB.java:371-376 | with the driver and the connection there, every table of the write order present and every parse successful, the six steps complete without a fault |
| PopulateDb.RunNeeds | src/PopulateDB.java:371-376 | conversely, six steps that complete had the driver, the connection, every table of the write order and six successful parses |
| PopulateDb.PopulatedExactly | src/PopulateDB.java:368-388 | "The tables have been populated" is returned exactly when the store has tables, the Actors table is empty, all six parses succeed and every table the run writes exists |
| PopulateDb.ParsersNeverDriverFault | src/Parsers.java:29-85 | no parser fails with the driver failure |
| PopulateDb.RunKeepsDriver | src/PopulateDB.java:371-376 | with the driver loaded, no step fails for want of it |
| PopulateDb.DriverMessageNeedsDriverFault | src/PopulateDB.java:368-381 | when no parse failed with the driver failure, the driver message is never returned, because a missing driver stops the run at the first gate |
| PopulateDb.DriverMessageUnreachable | src/PopulateDB.java:368-381 | on the six parsed files the driver message is never returned |
| PopulateDb.ParsedIdsFromFirst | src/Actors.java:14 | from the initial counters, every parsed record's ID counts from 1 |
| PopulateDb.PopulationWiresRecords | src/PopulateDB.java:366-391 | when every parsed ID counts from 1, a successful population of an empty store leaves each entity table holding one row per record in order, and each junction table holding exactly the links from those rows' IDs to the IDs their records list, both ways |
| PopulateDb.FreshPopulationWiresRecords | src/PopulateDB.java:366-391 | the same for a population of an empty store from the initial counters |
| PopulateDb.RunWiresRecords | src/PopulateDB.java:371-376 | a fault-free run of the six steps on empty tables wires every junction table to the records it was parsed from |
| PopulateDb.ActorsWired | src/PopulateDB.java:50-103 | on empty tables the Actors step writes one Actors row per actor, and awardWinningActor and Cast rows that pair actor `k`'s row ID with exactly the award and movie IDs actor `k` lists |
| PopulateDb.ActorTablesWired | src/PopulateDB.java:68-103 | tables holding the actors' rows and links tie each link to the actor whose row it names, both ways |
| PopulateDb.MoviesWired | src/PopulateDB.java:229-309 | on empty tables the Movies step writes one Movies row per movie, and award, rating and genre links that pair movie `k`'s row ID with exactly the IDs movie `k` lists |
| PopulateDb.MovieTablesWired | src/PopulateDB.java:249-309 | tables holding the movies' rows and links tie each link to the movie whose row it names, both ways |
| PopulateDb.DirectorsWired | src/PopulateDB.java:151-182 | on empty tables the Directors step writes one Director row per director, and awardWinningDirector rows that pair director `k`'s row ID with exactly the award IDs director `k` lists |
| PopulateDb.StepKeepsEmpty | src/PopulateDB.java:371-376 | a step leaves empty the empty tables outside its own |
| PopulateDb.WiredKept | src/PopulateDB.java:371-376 | a step that writes neither a junction table nor its entity table keeps them wired |
| PopulateDb.ActorsKeep | src/PopulateDB.java:371-376 | the Actors step keeps the director and movie links wired |
| PopulationOrder.WriteOrderCoversSchema | src/PopulateDB.java:371-376 | the population writes each of the twelve schema tables once, at a fixed position |
| PopulationOrder.ParentsWrittenFirst | src/PopulateDB.java:371-376 | every table a foreign key references is filled before the table that references it |
| DdlTester.Tester | src/DDLTester.java:21-50 | twelve statements, the `i`-th being the CREATE TABLE text of the `i`-th table of the creation order |
| DdlTester.DeletionTester | src/DDLTester.java:63-81 | twelve statements, the `i`-th dropping the `i`-th table of the drop order |
| DdlTester.EachTableOnce | src/DDLTester.java:21-81 | every table is created exactly once and dropped exactly once: its position is the only index where it occurs in either order |
| DdlTester.PositionsInverse | src/DDLTester.java:21-81 | both orders hold twelve statements, and each position holds the table whose position it is |
| DdlTester.ParentsCreatedFirst | src/DDLTester.java:21-50 | every table a foreign key references is created before the table that references it |
| DdlTester.ChildrenDroppedFirst | src/DDLTester.java:63-81 | every referencing table is dropped before the table it references |
| InitialiseDb.SchemaNameSet | src/DDLTester.java:63-81 | holds the name of every schema table |
| InitialiseDb.Dropped | src/InitialiseDB.java:168-173 | after the drops no schema table remains and every other table is kept |
| InitialiseDb.Created | src/InitialiseDB.java:111-113 | after the creates every schema table exists; existing tables keep their rows; new ones are empty |
| InitialiseDb.DeleteDb | src/InitialiseDB.java:160-186 | fails only when the driver or connection fails; a matching script drops the schema silently; a mismatch prints one line and changes nothing |
| InitialiseDb.RunDdl | src/InitialiseDB.java:88-127 | an unreadable or absent script returns "The DDL Script cannot be read or it cannot be detected", wrong commands "not validated", a missing driver or failed connection their messages; "OK" exactly when the script is readable, its commands equal `tester()` and the connection opens; then the tables are created, otherwise nothing changes |
| InitialiseDb.InitialiseDb | src/InitialiseDB.java:68-129 | a store without tables (`emptyDBChecker` true) goes straight to the DDL run; otherwise a missing deletion script returns "cannot be found" and changes nothing, a successful deletion is followed by the DDL run on the cleared store with its printed lines kept, and a deletion fault returns the driver or deletion-SQL message and changes nothing |
| InitialiseDb.OkExactly | src/InitialiseDB.java:68-129 | "OK" exactly when any needed deletion script is readable, the DDL commands are the expected ones and the connection opens |
| InitialiseDb.DeletionFailuresUnreachable | src/InitialiseDB.java:72-82 | the deletion's driver and syntax messages are never returned, because a store with tables is always reachable |
| InitialiseDb.OkStartsFromScratch | src/InitialiseDB.java:72-116 | after "OK" every schema table exists; if nothing was printed they are all empty; non-schema tables are kept |
| InitialiseDb.MismatchedDeletionKeepsRows | src/InitialiseDB.java:167-179 | a mismatched deletion script still ends in "OK", with every old row in place |
| InitialiseDb.InitialisedIsPopulatable | src/QueryDB.java:317-328 | after a clean "OK" both population gates let a run through |
| QueryDb.Blocks | src/QueryDB.java:141-149 | the printed blocks contain only entry and field lines |
| QueryDb.PrinterNumbering | src/QueryDB.java:137-153 | an empty result prints the no-matches line alone; otherwise row `k` gets `Entry k+1` followed by its `column: value` lines, and nothing else is printed |
| QueryDb.Printer | src/QueryDB.java:137-153 | the cursor loop prints the reference output: no matches for an empty result, otherwise entries numbered 1, 2, 3, … |
| QueryDb.Arity | src/QueryDB.java:179-278 | a selector has an argument count exactly when it is 1 to 6 |
| QueryDb.QueryFor | src/QueryDB.java:179-275 | selector `n` runs query `n` with the arguments after the selector bound in order; query 5 binds "Rotten Tomatoes" first |
| QueryDb.Execute | src/QueryDB.java:105-115 | the driver failure exactly when the driver is missing; the query's result exactly when connected and the statement succeeds; otherwise an SQL failure |
| QueryDb.Dispatch | src/QueryDB.java:179-279 | a query runs exactly when the selector's argument count matches; the gate and no-arguments lines are never printed by it |
| QueryDb.Querying | src/QueryDB.java:163-283 | "not populated" exactly when a gate says so; throws exactly on a gate failure or a non-int selector; no arguments print two lines; a query runs exactly when the gates pass and the count matches |
| QueryDb.SelectorDecides | src/QueryDB.java:179-278 | an unknown selector and a wrong count print one line and run nothing; otherwise the selected query runs with its bindings and its outcome is printed |
| QueryDb.NoDriverErrorAfterGate | src/QueryDB.java:166-192 | once the gates pass no driver line is printed, and a query the store answers prints no SQL line |

## Left out

- JDBC, SQLite and the meaning of SQL text. Joins, AUTOINCREMENT, CHECK and foreign-key enforcement, and `ROUND(AVG(...))` are not modelled. The store is a table→rows map, and a query's result is a parameter (`Answers`).
- An entity row's AUTOINCREMENT key is modelled as its 1-based position in a table that started empty. The link-ownership lemmas are stated for a population of an empty store from the initial counters.
- `defaultDoubleParser`, the `double` rating and the `ratingNumber` FLOAT check, because they are floating point. A rating is kept as opaque text.
- Parsers.RatingsParser: its failures are those of the model, not all of the source's. `Double.parseDouble` throws a `NumberFormatException` on any rating text it rejects, such as one ending in `,` (Parsers.java:134). That happens while the ratings are read, before the schema gate (Parsers.java:385). `population` does not catch it, so it escapes. The model keeps a rating as opaque text and never raises this exception.
- The regular-expression reading of `replaceAll`. The keys contain no metacharacters, so a literal prefix is deleted.
- Unicode digits accepted by `Integer.parseInt`. Only ASCII digits are modelled.
- The static `int` counters of `Actors`, `Movies` and `Director` are unbounded here. 32-bit wrap-around would need more than 2^31 records.
- Population: the model takes each parse result as it would be with the run's starting counters. After a parse that throws partway through its loop, Java's counter has moved by the records built so far. The model does not track that counter, because the run has already ended with the exception.
- Population and querying: `emptyDBChecker`'s diagnostic prints, and SQLite creating the database file on connect. A missing file is seen as a store with no tables.
- The database-file existence test of `population` (`db.exists()`) is folded into `EmptyDbChecker`: a store without tables is never populated either way.
- InitialiseDb.InitialiseDb: it does not model an IOException while reading the DDL script after it was opened (InitialiseDB.java:96-98), nor one while reading the deletion script inside `deleteDB`. Files are read whole or not at all.
- DdlTester.Tester: the column texts are copied from the source character for character. No lemma states that the rendered statements equal the source's literals, or that the canonical scripts are accepted.
- Statement and connection closing, resource leaks, and the `main` methods of `PopulateDB`, `InitialiseDB`, `QueryDB` and `Movies`.
- QueryDb.Printer: an SQLException raised while reading a result set is not modelled, and neither is `null` column values.
- The `NumberFormatException` handler of query 5 (QueryDB.java:256-257) is never reached, because nothing in that branch parses a number.
- Relationship fields: a field without the delimiter is kept only when its number is positive (Parsers.java:61-65, 73-77); a delimited field keeps every token, zeros and negatives included (Parsers.java:55-60, 67-72), and those become junction rows.

=== FILE: database.dfy ===
/**
 * The SQLite store as the ingestion pipeline sees it: a map from table name
 * to the rows inserted so far, reached through a connection that needs the
 * driver class and a working connection. The meaning of the SQL text is not
 * modelled. Also here are the three checks the command-line programs share:
 * `InitialiseDB.emptyDBChecker`, `QueryDB.resultSetChecker` and
 * `QueryDB.populatedTableChecker`.
 */
module Database {
  import opened Wrappers
  import opened Faults

  /** One inserted row: an entity row of one of the six entity tables, or a junction-table pair. */
  datatype Row =
    | ActorRow(name: string, age: int, birthday: string)
    | AwardRow(institution: string, motive: string)
    | DirectorRow(name: string, movieCount: int)
    | GenreRow(genreName: string)
    | RatingRow(criticSource: string, rating: string)
    | MovieRow(name: string, releaseDate: string, plot: string, runningTime: string, directorId: int)
    | Link(owner: int, related: int)

  /** The tables that exist, each with its rows in insertion order. */
  type Tables = map<string, seq<Row>>

  /**
   * What a connection attempt meets: whether `Class.forName` finds the
   * SQLite driver, whether `DriverManager.getConnection` succeeds, and the
   * database file's tables (`None` when the file does not exist).
   */
  datatype Env = Env(driverLoaded: bool, connects: bool, db: Option<Tables>)

  /** The tables a connection sees; connecting to a missing file sees none. */
  function Contents(env: Env): Tables {
    if env.db.Some? then env.db.value else map[]
  }

  /**
   * `InitialiseDB.preparation`: load the driver, then connect. The driver
   * failure comes first.
   */
  function Preparation(env: Env): (r: Result<Tables, Fault>)
    ensures r.Success? <==> env.driverLoaded && env.connects
    ensures !env.driverLoaded ==> r == Failure(DriverFault)
    ensures env.driverLoaded && !env.connects ==> r == Failure(SqlFault)
    ensures r.Success? ==> r.value == Contents(env)
  {
    if !env.driverLoaded then Failure(DriverFault)
    else if !env.connects then Failure(SqlFault)
    else Success(Contents(env))
  }

  /**
   * A result-set cursor over `rowCount` rows. `position` is 0 before the
   * first row, `k` on row `k`, and `rowCount + 1` after the last.
   */
  datatype Cursor = Cursor(rowCount: nat, position: nat)

  /** The cursor a query returns: positioned before its first row. */
  function Opened(rowCount: nat): Cursor {
    Cursor(rowCount, 0)
  }

  /** `ResultSet.next`: moves one row on and tells whether it is on a row. */
  function Next(c: Cursor): (Cursor, bool) {
    if c.position <= c.rowCount then
      var moved := Cursor(c.rowCount, c.position + 1);
      (moved, moved.position <= c.rowCount)
    else (c, false)
  }

  /** `ResultSet.isBeforeFirst`: false for a result without rows. */
  predicate IsBeforeFirst(c: Cursor) {
    c.rowCount > 0 && c.position == 0
  }

  /** `ResultSet.getRow`: the current row number, 0 when not on a row. */
  function GetRow(c: Cursor): nat {
    if 1 <= c.position <= c.rowCount then c.position else 0
  }

  /** `resultSetChecker`: the cursor is before the first row and reports row 0. */
  predicate ResultSetChecker(c: Cursor) {
    IsBeforeFirst(c) && GetRow(c) == 0
  }

  /**
   * On a freshly returned result, `resultSetChecker` is true exactly when
   * there is at least one row; once the cursor has moved it is false.
   */
  lemma ResultSetCheckerMeaning(n: nat, c: Cursor)
    ensures ResultSetChecker(Opened(n)) <==> n > 0
    ensures c.position > 0 ==> !ResultSetChecker(c)
    ensures n > 0 ==> !ResultSetChecker(Next(Opened(n)).0)
  {
  }

  /**
   * `emptyDBChecker`: true when the database lists no tables, and also when
   * the driver or the connection fails (the exception is caught and the
   * method falls through to `true`).
   */
  function EmptyDbChecker(env: Env): (r: bool)
    ensures r <==> !env.driverLoaded || !env.connects || |Contents(env)| == 0
    ensures !r ==> Preparation(env).Success? && env.db.Some?
  {
    match Preparation(env)
    case Failure(_) => true
    case Success(tables) => !ResultSetChecker(Opened(|tables|))
  }

  /**
   * `populatedTableChecker`: `SELECT * FROM Actors` and `resultSetChecker`
   * on the result. The driver and connection failures propagate, and a
   * missing Actors table is an SQLException.
   */
  function PopulatedTableChecker(env: Env): (r: Result<bool, Fault>)
    ensures r.Failure? ==> r.error == DriverFault || r.error == SqlFault
    ensures r.Success? <==> env.driverLoaded && env.connects && "Actors" in Contents(env)
    ensures r.Success? ==> (r.value <==> |Contents(env)["Actors"]| > 0)
  {
    var tables :- Preparation(env);
    if "Actors" !in tables then Failure(SqlFault)
    else Success(ResultSetChecker(Opened(|tables["Actors"]|)))
  }

  /**
   * The populated check looks at the Actors table alone: two stores that
   * agree on it, reached the same way, get the same answer whatever their
   * other tables hold.
   */
  lemma PopulatedCheckReadsOnlyActors(a: Env, b: Env)
    requires a.driverLoaded == b.driverLoaded && a.connects == b.connects
    requires ("Actors" in Contents(a)) == ("Actors" in Contents(b))
    requires "Actors" in Contents(a) ==> Contents(a)["Actors"] == Contents(b)["Actors"]
    ensures PopulatedTableChecker(a) == PopulatedTableChecker(b)
  {
  }
}

=== FILE: ddl_tester.dfy ===
/**
 * DDLTester: the twelve CREATE TABLE statements an accepted DDL script must
 * split into, and the twelve DROP TABLE statements an accepted deletion
 * script must hold. The statements are kept here as structured tables
 * (name, column text, foreign keys) and rendered to the exact text the
 * program compares against, so that the order constraints between tables
 * can be stated on the structure.
 */
module DdlTester {
  import opened JavaText

  /** The twelve tables of the schema. */
  datatype Table =
    | Actors | Director | Movies | Awards | Cast | AwardWinningActor | AwardWinningMovie
    | AwardWinningDirector | Ratings | MoviesWithRatings | Genres | MoviesWithGenres

  /** The table's name in SQL. */
  function Name(t: Table): string {
    match t
    case Actors => "Actors"
    case Director => "Director"
    case Movies => "Movies"
    case Awards => "Awards"
    case Cast => "Cast"
    case AwardWinningActor => "awardWinningActor"
    case AwardWinningMovie => "awardWinningMovie"
    case AwardWinningDirector => "awardWinningDirector"
    case Ratings => "Ratings"
    case MoviesWithRatings => "MoviesWithRatings"
    case Genres => "Genres"
    case MoviesWithGenres => "MoviesWithGenres"
  }

  /** `FOREIGN KEY (column) REFERENCES parent(parentColumn)`. */
  datatype ForeignKey = ForeignKey(column: string, parent: Table, parentColumn: string)

  /**
   * One CREATE TABLE statement: its foreign keys, the spaces before each
   * column and key clause, and the spaces after `REFERENCES` (the scripts
   * are not uniform in either). The column definitions are `Columns(table)`.
   */
  datatype TableDdl = TableDdl(table: Table, keys: seq<ForeignKey>, indent: string, gap: string)

  function KeyClause(k: ForeignKey, gap: string): string {
    "FOREIGN KEY (" + k.column + ") REFERENCES" + gap + Name(k.parent) + "(" + k.parentColumn + ")"
  }

  function KeyClauses(keys: seq<ForeignKey>, gap: string): (r: seq<string>)
    ensures |r| == |keys|
  {
    seq(|keys|, i requires 0 <= i < |keys| => KeyClause(keys[i], gap))
  }

  /** The clauses, each after `indent`, separated by commas. */
  function Clauses(items: seq<string>, indent: string): string {
    if |items| == 0 then ""
    else if |items| == 1 then indent + items[0]
    else indent + items[0] + "," + Clauses(items[1..], indent)
  }

  /** The statement text of a table. */
  function CreateText(t: TableDdl): string {
    "CREATE TABLE IF NOT EXISTS " + Name(t.table) + "(" + Clauses(Columns(t.table) + KeyClauses(t.keys, t.gap), t.indent) + ")"
  }

  const Four := "    "
  const Eight := "        "

  /** The tables in the order of `tester`. */
  const CreateOrder: seq<Table> := [
    Actors, Director, Movies, Awards, Cast, AwardWinningActor, AwardWinningMovie,
    AwardWinningDirector, Ratings, MoviesWithRatings, Genres, MoviesWithGenres
  ]

  /** The column definitions of each table, as `tester` writes them. */
  function Columns(t: Table): seq<string> {
    match t
    case Actors => ["actorID INTEGER PRIMARY KEY AUTOINCREMENT", "name VARCHAR(80) NOT NULL", "age INTEGER NOT NULL", "birthday DATE NOT NULL"]
    case Director => ["directorID INTEGER PRIMARY KEY AUTOINCREMENT", "name VARCHAR (100) NOT NULL", "movieCount INTEGER CHECK (movieCount >=1 )"]
    case Movies => ["movieID INTEGER PRIMARY KEY AUTOINCREMENT", "name VARCHAR(200) NOT NULL", "releaseDate DATE NOT NULL", "plot VARCHAR(500) NOT NULL", "runningTime VARCHAR(8) NOT NULL", "directorID INTEGER NOT NULL"]
    case Awards => ["awardID INTEGER PRIMARY KEY AUTOINCREMENT", "awardInstitution VARCHAR(20)", "motive VARCHAR(100)"]
    case Cast => ["actorID INTEGER NOT NULL", "movieID INTEGER NOT NULL"]
    case AwardWinningActor => ["actorID INTEGER NOT NULL", "awardID INTEGER NOT NULL"]
    case AwardWinningMovie => ["movieID INTEGER NOT NULL", "awardID INTEGER NOT NULL"]
    case AwardWinningDirector => ["directorID NOT NULL", "awardID INTEGER NOT NULL"]
    case Ratings => ["criticID INTEGER PRIMARY KEY AUTOINCREMENT", "criticSource VARCHAR (100)", "ratingNumber FLOAT CHECK (ratingNumber < 5.0)"]
    case MoviesWithRatings => ["movieID INTEGER NOT NULL", "criticID INTEGER"]
    case Genres => ["genreID INTEGER PRIMARY KEY AUTOINCREMENT", "GenreName VARCHAR (100)"]
    case MoviesWithGenres => ["movieID INTEGER NOT NULL", "genreID INTEGER NOT NULL"]
  }

  /** The CREATE TABLE statement `tester` holds for each table. */
  function Ddl(t: Table): (r: TableDdl)
    ensures r.table == t
  {
    match t
    case Actors => TableDdl(Actors, [], Four, " ")
    case Director => TableDdl(Director, [], Four, " ")
    case Movies => TableDdl(Movies, [ForeignKey("directorID", Director, "directorID")], Four, " ")
    case Awards => TableDdl(Awards, [], Four, " ")
    case Cast => TableDdl(Cast, [ForeignKey("actorID", Actors, "actorID"), ForeignKey("movieID", Movies, "movieID")], Four, "  ")
    case AwardWinningActor => TableDdl(AwardWinningActor, [ForeignKey("actorID", Actors, "actorID"), ForeignKey("awardID", Awards, "awardID")], Four, " ")
    case AwardWinningMovie => TableDdl(AwardWinningMovie, [ForeignKey("movieID", Movies, "movieID"), ForeignKey("awardID", Awards, "awardID")], Four, " ")
    case AwardWinningDirector => TableDdl(AwardWinningDirector, [ForeignKey("directorID", Director, "directorID"), ForeignKey("awardID", Awards, "awardID")], Four, " ")
    case Ratings => TableDdl(Ratings, [], Four, " ")
    case MoviesWithRatings => TableDdl(MoviesWithRatings, [ForeignKey("movieID", Movies, "movieID"), ForeignKey("criticID", Ratings, "criticID")], Eight, " ")
    case Genres => TableDdl(Genres, [], Four, " ")
    case MoviesWithGenres => TableDdl(MoviesWithGenres, [ForeignKey("movieID", Movies, "movieID"), ForeignKey("genreID", Genres, "genreID")], Four, " ")
  }

  /** `tester`: the statement of each table, in creation order. */
  function Tester(): (r: seq<string>)
    ensures |r| == |CreateOrder|
    ensures forall i | 0 <= i < |r| :: r[i] == CreateText(Ddl(CreateOrder[i]))
  {
    seq(|CreateOrder|, i requires 0 <= i < |CreateOrder| => CreateText(Ddl(CreateOrder[i])))
  }

  /** The tables `deletionTester` drops, in its order: junction tables first. */
  const DropOrder: seq<Table> := [
    AwardWinningActor, AwardWinningDirector, AwardWinningMovie, Cast, MoviesWithGenres,
    MoviesWithRatings, Actors, Awards, Movies, Director, Genres, Ratings
  ]

  /** `deletionTester`. */
  function DeletionTester(): (r: seq<string>)
    ensures |r| == |DropOrder|
    ensures forall i | 0 <= i < |r| :: r[i] == "DROP TABLE IF EXISTS " + Name(DropOrder[i])
  {
    seq(|DropOrder|, i requires 0 <= i < |DropOrder| => "DROP TABLE IF EXISTS " + Name(DropOrder[i]))
  }

  /** Where each table is created. */
  function CreatedAt(t: Table): nat {
    match t
    case Actors => 0
    case Director => 1
    case Movies => 2
    case Awards => 3
    case Cast => 4
    case AwardWinningActor => 5
    case AwardWinningMovie => 6
    case AwardWinningDirector => 7
    case Ratings => 8
    case MoviesWithRatings => 9
    case Genres => 10
    case MoviesWithGenres => 11
  }

  /** Where each table is dropped. */
  function DroppedAt(t: Table): nat {
    match t
    case AwardWinningActor => 0
    case AwardWinningDirector => 1
    case AwardWinningMovie => 2
    case Cast => 3
    case MoviesWithGenres => 4
    case MoviesWithRatings => 5
    case Actors => 6
    case Awards => 7
    case Movies => 8
    case Director => 9
    case Genres => 10
    case Ratings => 11
  }

  /** The statements' indices, one by one. */
  lemma Indices(i: int)
    requires 0 <= i < 12
    ensures i == 0 || i == 1 || i == 2 || i == 3 || i == 4 || i == 5 ||
            i == 6 || i == 7 || i == 8 || i == 9 || i == 10 || i == 11
  {
  }

  /** Each of the twelve positions holds the table whose position it is, in both orders. */
  lemma PositionsInverse()
    ensures |CreateOrder| == |DropOrder| == 12
    ensures forall i | 0 <= i < 12 :: CreatedAt(CreateOrder[i]) == i && DroppedAt(DropOrder[i]) == i
  {
    forall i | 0 <= i < 12
      ensures CreatedAt(CreateOrder[i]) == i && DroppedAt(DropOrder[i]) == i
    {
      Indices(i);
    }
  }

  /**
   * Each table is created exactly once and dropped exactly once: the
   * positions above are the only places it occurs in either order.
   */
  lemma EachTableOnce(t: Table)
    ensures CreatedAt(t) < |CreateOrder| && CreateOrder[CreatedAt(t)] == t
    ensures DroppedAt(t) < |DropOrder| && DropOrder[DroppedAt(t)] == t
    ensures forall i | 0 <= i < |CreateOrder| :: CreateOrder[i] == t <==> i == CreatedAt(t)
    ensures forall i | 0 <= i < |DropOrder| :: DropOrder[i] == t <==> i == DroppedAt(t)
  {
    PositionsInverse();
  }

  /** Every table a foreign key references is created before the table that references it. */
  lemma ParentsCreatedFirst(t: Table, k: nat)
    requires k < |Ddl(t).keys|
    ensures CreatedAt(Ddl(t).keys[k].parent) < CreatedAt(t)
  {
  }

  /** Every table that references another is dropped before the table it references. */
  lemma ChildrenDroppedFirst(t: Table, k: nat)
    requires k < |Ddl(t).keys|
    ensures DroppedAt(t) < DroppedAt(Ddl(t).keys[k].parent)
  {
  }

  /** Distinct tables have distinct SQL names. */
  lemma NamesDistinct(a: Table, b: Table)
    ensures Name(a) == Name(b) ==> a == b
  {
  }
}

=== FILE: entities.dfy ===
/**
 * The in-memory records the parsers build (Actors, Movies, Director, and
 * the value carriers Awards, Genre and Ratings), and the per-kind ID
 * counters. In the Java classes each counter is a static field that starts
 * at 1 and that every constructor call reads and then increments; here the
 * counter is an explicit value passed in and handed back.
 */
module Entities {

  /** The value every per-kind counter holds before the first construction. */
  const FirstId: int := 1

  /** The three static counters: `Actors.amountOfActors`, `Movies.count`, `Director.count`. */
  datatype Counters = Counters(actor: int, movie: int, director: int)

  const InitialCounters: Counters := Counters(FirstId, FirstId, FirstId)

  datatype Actor = Actor(
    id: int,
    name: string,
    age: int,
    birthday: string,
    awardIds: seq<int>,
    movieIds: seq<int>)

  datatype Movie = Movie(
    id: int,
    title: string,
    releaseDate: string,
    runningTime: string,
    plotSummary: string,
    directorId: int,
    awardIds: seq<int>,
    ratingIds: seq<int>,
    genreIds: seq<int>)

  datatype Director = Director(id: int, name: string, movieCount: int, awardIds: seq<int>)

  datatype Award = Award(institution: string, motive: string)

  datatype Genre = Genre(genreName: string)

  /** The rating score is a Java `double`; it is kept as the text it was read from. */
  datatype Rating = Rating(criticSource: string, rating: string)

  /** `new Actors(name, age, birthday)` with the counter at `next`: the record and the counter after it. */
  function NewActor(next: int, name: string, age: int, birthday: string): (r: (Actor, int))
    ensures r.0.id == next && r.1 == next + 1
    ensures r.0.awardIds == [] && r.0.movieIds == []
    ensures r.0.name == name && r.0.age == age && r.0.birthday == birthday
  {
    (Actor(next, name, age, birthday, [], []), next + 1)
  }

  /** `new Movies(title, releaseDate, runningTime, plotSummary, director)` with the counter at `next`. */
  function NewMovie(next: int, title: string, releaseDate: string, runningTime: string,
                    plotSummary: string, director: int): (r: (Movie, int))
    ensures r.0.id == next && r.1 == next + 1
    ensures r.0.awardIds == [] && r.0.ratingIds == [] && r.0.genreIds == []
    ensures r.0.title == title && r.0.releaseDate == releaseDate && r.0.runningTime == runningTime
    ensures r.0.plotSummary == plotSummary && r.0.directorId == director
  {
    (Movie(next, title, releaseDate, runningTime, plotSummary, director, [], [], []), next + 1)
  }

  /** `new Director(name, movieCount)` with the counter at `next`. */
  function NewDirector(next: int, name: string, movieCount: int): (r: (Director, int))
    ensures r.0.id == next && r.1 == next + 1
    ensures r.0.awardIds == []
    ensures r.0.name == name && r.0.movieCount == movieCount
  {
    (Director(next, name, movieCount, []), next + 1)
  }

  /** IDs of a run of records are consecutive from `first`. */
  predicate ActorIdsFrom(actors: seq<Actor>, first: int) {
    forall i | 0 <= i < |actors| :: actors[i].id == first + i
  }

  predicate MovieIdsFrom(movies: seq<Movie>, first: int) {
    forall i | 0 <= i < |movies| :: movies[i].id == first + i
  }

  predicate DirectorIdsFrom(directors: seq<Director>, first: int) {
    forall i | 0 <= i < |directors| :: directors[i].id == first + i
  }
}

=== FILE: extractor.dfy ===
/**
 * The line-based field extractor of Parsers (`defaultStringParser`,
 * `defaultIDParser`, `defaultIntParser`). It is not a JSON parser: it keeps
 * the lines that begin with six spaces followed by `"key": `, deletes that
 * prefix, then deletes formatting punctuation, one value per kept line in
 * file order.
 */
module Extractor {
  import opened Wrappers
  import opened Faults
  import opened JavaText

  /** Six spaces, the key in double quotes, a colon and a space. */
  function Prefix(key: string): (p: string)
    ensures |p| == |key| + 10
    ensures p[6] == '"' && p[|key| + 7] == '"'
  {
    "      \"" + key + "\": "
  }

  /** The stream filter `line.startsWith(prefix)`. */
  predicate Tagged(line: string, key: string) {
    StartsWith(line, Prefix(key))
  }

  /** `line.replaceAll(prefix, "")`: every occurrence of the prefix is deleted, not only the leading one. */
  function Residual(line: string, key: string): string {
    RemoveAll(line, Prefix(key))
  }

  /**
   * The lines tagged with `key`, in file order, each reduced to its
   * residual text. Untagged lines contribute nothing.
   */
  function Extract(lines: seq<string>, key: string): (r: seq<string>)
    ensures |r| <= |lines|
  {
    if |lines| == 0 then [] else Kept(lines[0], key) + Extract(lines[1..], key)
  }

  /** What one line contributes to the extraction. */
  function Kept(line: string, key: string): (r: seq<string>)
    ensures |r| <= 1
  {
    if Tagged(line, key) then [Residual(line, key)] else []
  }

  /** No tagged line gives the empty list rather than an error, and only then. */
  lemma {:induction false} ExtractEmpty(lines: seq<string>, key: string)
    ensures Extract(lines, key) == [] <==> forall i | 0 <= i < |lines| :: !Tagged(lines[i], key)
  {
    if |lines| > 0 {
      ExtractEmpty(lines[1..], key);
      assert Extract(lines, key) == Kept(lines[0], key) + Extract(lines[1..], key);
      assert forall i | 0 <= i < |lines[1..]| :: lines[1..][i] == lines[i + 1];
    }
  }

  /** `v` is the residual of some line tagged with `key`. */
  predicate FromTaggedLine(lines: seq<string>, key: string, v: string) {
    exists i | 0 <= i < |lines| :: Tagged(lines[i], key) && v == Residual(lines[i], key)
  }

  /** Every value is the residual of some tagged line. */
  lemma {:induction false} ExtractFromTagged(lines: seq<string>, key: string)
    ensures forall j | 0 <= j < |Extract(lines, key)| :: FromTaggedLine(lines, key, Extract(lines, key)[j])
  {
    if |lines| > 0 {
      ExtractFromTagged(lines[1..], key);
      var rest := Extract(lines[1..], key);
      var head := Kept(lines[0], key);
      var r := Extract(lines, key);
      assert r == head + rest;
      forall j | 0 <= j < |r| ensures FromTaggedLine(lines, key, r[j]) {
        if j < |head| {
          assert Tagged(lines[0], key) && head == [Residual(lines[0], key)];
          assert r[j] == Residual(lines[0], key);
        } else {
          assert FromTaggedLine(lines[1..], key, rest[j - |head|]);
          var i :| 0 <= i < |lines[1..]| && Tagged(lines[1..][i], key) && rest[j - |head|] == Residual(lines[1..][i], key);
          assert lines[i + 1] == lines[1..][i] && r[j] == rest[j - |head|];
          assert Tagged(lines[i + 1], key) && r[j] == Residual(lines[i + 1], key);
        }
      }
    }
  }

  /** Extraction of a concatenation is the concatenation of the extractions: file order is kept. */
  lemma {:induction false} ExtractAppend(a: seq<string>, b: seq<string>, key: string)
    ensures Extract(a + b, key) == Extract(a, key) + Extract(b, key)
    decreases |a|
  {
    if |a| == 0 {
      assert a + b == b;
    } else {
      assert (a + b)[0] == a[0] && (a + b)[1..] == a[1..] + b;
      ExtractAppend(a[1..], b, key);
    }
  }

  /** A single line gives its residual when it is tagged and nothing otherwise. */
  lemma ExtractOne(line: string, key: string)
    ensures Extract([line], key) == if Tagged(line, key) then [Residual(line, key)] else []
  {
    assert [line][1..] == [];
  }

  /**
   * Key matching is exact: the prefix ends with the closing quote, so two
   * keys without a double quote in them that tag the same line are equal.
   * In particular `Rating` never matches a `"Ratings": ` line.
   */
  lemma KeyIsExact(line: string, k1: string, k2: string)
    requires '"' !in k1 && '"' !in k2
    requires Tagged(line, k1) && Tagged(line, k2)
    ensures k1 == k2
  {
    var p1, p2 := Prefix(k1), Prefix(k2);
    if |k1| != |k2| {
      assert false;
    }
    assert p1 == line[..|p1|] == p2;
    assert k1 == p1[7..7 + |k1|];
    assert k2 == p2[7..7 + |k2|];
  }

  lemma RatingIsNotRatings(line: string)
    requires Tagged(line, "Ratings")
    ensures !Tagged(line, "Rating")
  {
    if Tagged(line, "Rating") {
      KeyIsExact(line, "Rating", "Ratings");
    }
  }

  /**
   * For a tagged line in whose remaining text the prefix does not occur
   * again, the residual is exactly that text.
   */
  lemma ResidualIsRest(key: string, rest: string)
    requires !Occurs(rest, Prefix(key))
    ensures Residual(Prefix(key) + rest, key) == rest
  {
    var p := Prefix(key);
    var line := p + rest;
    assert line[..|p|] == p;
    assert line[|p|..] == rest;
  }

  /**
   * The prefix holds two double quotes, six or more characters apart from
   * the start, so it cannot occur in `"v"` followed by a quote-free tail
   * when `v` is quote-free: that text has only one quote after its start.
   */
  lemma QuotedHasNoPrefix(key: string, v: string, tail: string)
    requires '"' !in v && '"' !in tail
    ensures !Occurs("\"" + v + "\"" + tail, Prefix(key))
  {
    var s := "\"" + v + "\"" + tail;
    var p := Prefix(key);
    QuotePositions(v, tail);
    forall i: nat | i <= |s| ensures !OccursAt(s, p, i) {
      if i + |p| <= |s| {
        assert s[i..i + |p|][6] == s[i + 6];
        assert s[i..i + |p|][|key| + 7] == s[i + |key| + 7];
      }
    }
  }

  /** The only double quotes of `"v"tail` are its first character and the one after `v`. */
  lemma QuotePositions(v: string, tail: string)
    requires '"' !in v && '"' !in tail
    ensures forall j | 0 <= j < |"\"" + v + "\"" + tail| && ("\"" + v + "\"" + tail)[j] == '"' :: j == 0 || j == |v| + 1
  {
  }

  /** `NumberFormatException.forInputString(s)`. */
  function ForInputString(s: string): string {
    "For input string: \"" + s + "\""
  }

  /** `Integer.parseInt` applied to each token in order; the first failure throws. */
  function ParseAll(tokens: seq<string>): (r: Result<seq<int>, Fault>)
    ensures r.Success? <==> forall i | 0 <= i < |tokens| :: ParseInt(tokens[i]).Some?
    ensures r.Success? ==> |r.value| == |tokens|
    ensures r.Success? ==> forall i | 0 <= i < |tokens| :: ParseInt(tokens[i]) == Some(r.value[i])
    ensures r.Failure? ==> r.error.NumberFormat?
  {
    if |tokens| == 0 then Success([])
    else
      match ParseInt(tokens[0])
      case None => Failure(NumberFormat(ForInputString(tokens[0])))
      case Some(n) =>
        var rest :- ParseAll(tokens[1..]);
        assert forall i | 1 <= i < |tokens| :: tokens[i] == tokens[1..][i - 1];
        Success([n] + rest)
  }

  /** `defaultStringParser`: the residuals with every `,` and `"` deleted. */
  function StringValues(lines: seq<string>, key: string): (r: seq<string>)
    ensures |r| == |Extract(lines, key)|
    ensures forall j | 0 <= j < |r| :: r[j] == Without(Extract(lines, key)[j], {',', '"'})
    ensures forall j | 0 <= j < |r| :: ',' !in r[j] && '"' !in r[j]
  {
    var e := Extract(lines, key);
    seq(|e|, j requires 0 <= j < |e| => Without(e[j], {',', '"'}))
  }

  /** `defaultIDParser`: the residuals with every `"` deleted; commas stay. */
  function IdValues(lines: seq<string>, key: string): (r: seq<string>)
    ensures |r| == |Extract(lines, key)|
    ensures forall j | 0 <= j < |r| :: r[j] == Without(Extract(lines, key)[j], {'"'})
    ensures forall j | 0 <= j < |r| :: '"' !in r[j]
  {
    var e := Extract(lines, key);
    seq(|e|, j requires 0 <= j < |e| => Without(e[j], {'"'}))
  }

  /** `defaultIntParser`: the residuals with every `,` deleted, each parsed; a bad numeral throws. */
  function IntValues(lines: seq<string>, key: string): (r: Result<seq<int>, Fault>)
    ensures r.Success? <==>
              forall j | 0 <= j < |Extract(lines, key)| :: ParseInt(Without(Extract(lines, key)[j], {','})).Some?
    ensures r.Success? ==> |r.value| == |Extract(lines, key)|
    ensures r.Success? ==>
              forall j | 0 <= j < |r.value| :: ParseInt(Without(Extract(lines, key)[j], {','})) == Some(r.value[j])
    ensures r.Success? ==> forall j | 0 <= j < |r.value| :: MinInt <= r.value[j] <= MaxInt
    ensures r.Failure? ==> r.error.NumberFormat?
  {
    var e := Extract(lines, key);
    var tokens := seq(|e|, j requires 0 <= j < |e| => Without(e[j], {','}));
    TokensParse(e, tokens);
    ParseAll(tokens)
  }

  /** The tokens parse exactly when every value with its commas deleted parses. */
  lemma TokensParse(e: seq<string>, tokens: seq<string>)
    requires |tokens| == |e| && forall j | 0 <= j < |e| :: tokens[j] == Without(e[j], {','})
    ensures ParseAll(tokens).Success? <==> forall j | 0 <= j < |e| :: ParseInt(Without(e[j], {','})).Some?
  {
    if !ParseAll(tokens).Success? {
      var i :| 0 <= i < |tokens| && ParseInt(tokens[i]).None?;
      assert ParseInt(Without(e[i], {','})).None?;
    }
  }

  /** Deleting a set that holds `"` strips the quotes around `v` and leaves `v`. */
  lemma WithoutQuotes(v: string, tail: string, cs: set<char>)
    requires '"' in cs
    requires forall i | 0 <= i < |v| :: v[i] !in cs
    ensures Without("\"" + v + "\"" + tail, cs) == v + Without(tail, cs)
  {
    var s := "\"" + v + "\"" + tail;
    var rest := "\"" + tail;
    assert s[0] == '"' && s[1..] == v + rest;
    WithoutAppend(v, rest, cs);
    assert rest[0] == '"' && rest[1..] == tail;
  }

  lemma WithoutQuoted(v: string, tail: string, cs: set<char>)
    requires '"' in cs
    requires forall i | 0 <= i < |v| :: v[i] !in cs
    requires forall i | 0 <= i < |tail| :: tail[i] in cs
    ensures Without("\"" + v + "\"" + tail, cs) == v
  {
    WithoutQuotes(v, tail, cs);
    WithoutAllDeleted(tail, cs);
    assert v + "" == v;
  }

  lemma {:induction false} WithoutAllDeleted(s: string, cs: set<char>)
    requires forall i | 0 <= i < |s| :: s[i] in cs
    ensures Without(s, cs) == ""
    decreases |s|
  {
    if |s| > 0 {
      WithoutAllDeleted(s[1..], cs);
    }
  }

  /**
   * A string field written as `"key": "v"` or `"key": "v",` yields exactly
   * `v` when `v` holds no comma or double quote.
   */
  lemma StringFieldValue(key: string, v: string, tail: string)
    requires ',' !in v && '"' !in v
    requires tail == "" || tail == ","
    ensures StringValues([Prefix(key) + "\"" + v + "\"" + tail], key) == [v]
  {
    var rest := "\"" + v + "\"" + tail;
    assert Prefix(key) + rest == Prefix(key) + "\"" + v + "\"" + tail;
    QuotedHasNoPrefix(key, v, tail);
    ResidualIsRest(key, rest);
    assert Tagged(Prefix(key) + rest, key);
    ExtractOne(Prefix(key) + rest, key);
    WithoutQuoted(v, tail, {',', '"'});
  }

  /**
   * The ID extractor keeps commas: `"key": "v",` yields `v,` with its
   * trailing comma, which the relation split later reads as a delimiter.
   */
  lemma IdFieldValue(key: string, v: string, tail: string)
    requires '"' !in v
    requires tail == "" || tail == ","
    ensures IdValues([Prefix(key) + "\"" + v + "\"" + tail], key) == [v + tail]
  {
    var rest := "\"" + v + "\"" + tail;
    var line := Prefix(key) + rest;
    assert line == Prefix(key) + "\"" + v + "\"" + tail;
    QuotedHasNoPrefix(key, v, tail);
    ResidualIsRest(key, rest);
    assert Tagged(line, key);
    ExtractOne(line, key);
    WithoutQuotes(v, tail, {'"'});
  }

  lemma ParseAllOne(t: string, n: int)
    requires ParseInt(t) == Some(n)
    ensures ParseAll([t]) == Success([n])
  {
    var r := ParseAll([t]);
    assert forall i | 0 <= i < |[t]| :: ParseInt([t][i]).Some?;
    assert ParseInt([t][0]) == Some(r.value[0]);
    assert r.value == [n];
  }

  /** The int extractor on one tagged line parses that line's residual with commas deleted. */
  lemma IntValuesOne(line: string, key: string)
    requires Tagged(line, key)
    ensures IntValues([line], key) == ParseAll([Without(Residual(line, key), {','})])
  {
    ExtractOne(line, key);
    var e := Extract([line], key);
    assert e == [Residual(line, key)];
    assert seq(|e|, j requires 0 <= j < |e| => Without(e[j], {','})) == [Without(Residual(line, key), {','})];
  }

  lemma DecimalLine(key: string, n: nat, tail: string)
    requires tail == "" || tail == ","
    ensures Tagged(Prefix(key) + NatToString(n) + tail, key)
    ensures Residual(Prefix(key) + NatToString(n) + tail, key) == NatToString(n) + tail
  {
    var digits := NatToString(n);
    var rest := digits + tail;
    assert Prefix(key) + digits + tail == Prefix(key) + rest;
    assert '"' !in rest by {
      assert forall i | 0 <= i < |rest| :: rest[i] == ',' || IsDigit(rest[i]);
    }
    AbsentCharPreventsOccurrence(rest, Prefix(key), 6);
    ResidualIsRest(key, rest);
    assert (Prefix(key) + rest)[..|Prefix(key)|] == Prefix(key);
  }

  lemma DecimalWithoutComma(n: nat, tail: string)
    requires tail == "" || tail == ","
    ensures Without(NatToString(n) + tail, {','}) == NatToString(n)
  {
    var digits := NatToString(n);
    WithoutAppend(digits, tail, {','});
    WithoutAllDeleted(tail, {','});
    assert forall i | 0 <= i < |digits| :: IsDigit(digits[i]);
  }

  /** An integer field `"key": n` or `"key": n,` yields `n`. */
  lemma IntFieldValue(key: string, n: nat, tail: string)
    requires n <= MaxInt
    requires tail == "" || tail == ","
    ensures IntValues([Prefix(key) + NatToString(n) + tail], key) == Success([n])
  {
    DecimalLine(key, n, tail);
    IntValuesOne(Prefix(key) + NatToString(n) + tail, key);
    DecimalWithoutComma(n, tail);
    ParseIntOfDecimal(n);
    ParseAllOne(NatToString(n), n);
  }
}

=== FILE: faults.dfy ===
/**
 * The Java exceptions the ingestion pipeline raises or catches, and the
 * text files it reads. Reading a file is not modelled as I/O: a file is the
 * sequence of its lines, or `None` when it cannot be opened.
 */
module Faults {
  import opened Wrappers

  datatype Fault =
    | IoFault                       // java.io.IOException (missing or unreadable file)
    | SqlFault                      // java.sql.SQLException
    | DriverFault                   // ClassNotFoundException for the SQLite driver
    | SchemaFault(message: string)  // JSONSchemaException
    | NumberFormat(message: string) // NumberFormatException
    | IndexOutOfBounds              // IndexOutOfBoundsException from List.get

  /** A text file: its name (as `File.getName` returns it) and its lines. */
  datatype TextFile = TextFile(name: string, lines: Option<seq<string>>)
}

=== FILE: initialise_db.dfy ===
/**
 * InitialiseDB: clear a database that already has tables (when the
 * deletion script is the expected one), then run the DDL script when its
 * statements are exactly those of `tester`.
 */
module InitialiseDb {
  import opened Wrappers
  import opened Faults
  import opened JavaText
  import opened Database
  import opened DdlTester

  /** The lines `initialiseDB` returns or prints; `Text` gives each one's wording. */
  datatype Message =
    | DeletionMissing | Driver | DeletionSql | DeletionIo | DdlSql | NotValidated | DdlMissing | Ok
    | Mismatch

  function Text(m: Message): string {
    match m
    case DeletionMissing => "The tables were already initialised and therefore the program tried to clear the database. However, the SQL Deletion Script cannot be found. Please try again"
    case Driver => "The drivers for SQLite could not be loaded"
    case DeletionSql => "There is a problem with the syntax of the SQL Deletion Script. Please check your SQL Code"
    case DeletionIo => "The SQL Deletion script cannot be read or it cannot be detected. Please try again"
    case DdlSql => "There is a problem with the syntax of the DDL Script. Please check your SQL Code"
    case NotValidated => "The DDL Script schema has not been validated. Therefore, the table was not created"
    case DdlMissing => "The DDL Script cannot be read or it cannot be detected. Please check the DDL Script"
    case Ok => "OK"
    case Mismatch => "The passed SQL Deletion Script does not meet the schema. Please try again"
  }

  /** The SQL names of the schema's tables. */
  function SchemaNameSet(): (r: set<string>)
    ensures forall t: Table :: Name(t) in r
  {
    EachTableOnceForAll();
    set t: Table | t in DropOrder :: Name(t)
  }

  lemma EachTableOnceForAll()
    ensures forall t: Table :: t in DropOrder
  {
    forall t: Table ensures t in DropOrder {
      EachTableOnce(t);
    }
  }

  /** The store after the twelve DROP TABLE IF EXISTS statements. */
  function Dropped(tables: Tables): (r: Tables)
    ensures forall t: Table :: Name(t) !in r
    ensures forall n | n in tables && n !in SchemaNameSet() :: n in r && r[n] == tables[n]
    ensures r.Keys <= tables.Keys
  {
    map n | n in tables && n !in SchemaNameSet() :: tables[n]
  }

  /** The store after the twelve CREATE TABLE IF NOT EXISTS statements: missing tables are added empty. */
  function Created(tables: Tables): (r: Tables)
    ensures forall t: Table :: Name(t) in r
    ensures forall n | n in tables :: n in r && r[n] == tables[n]
    ensures forall n | n in r && n !in tables :: n in SchemaNameSet() && r[n] == []
  {
    map n | n in tables.Keys + SchemaNameSet() :: if n in tables then tables[n] else []
  }

  /** What `deleteDB` leaves: the store and the lines it printed. */
  datatype Deletion = Deletion(env: Env, printed: seq<Message>)

  /**
   * `deleteDB`: connect, then compare the script's lines, each with every
   * `;` deleted, against `deletionTester`. A match drops the tables; a
   * mismatch only prints a line.
   */
  function DeleteDb(env: Env, script: seq<string>): (r: Result<Deletion, Fault>)
    ensures r.Failure? <==> !env.driverLoaded || !env.connects
    ensures r.Failure? ==> r.error == DriverFault || r.error == SqlFault
    ensures r.Success? ==>
              r.value.env.driverLoaded == env.driverLoaded && r.value.env.connects == env.connects
    ensures r.Success? && CleanScript(script) ==>
              r.value.printed == [] && r.value.env.db == Some(Dropped(Contents(env)))
    ensures r.Success? && !CleanScript(script) ==>
              r.value.printed == [Mismatch] && r.value.env == env
  {
    var tables :- Preparation(env);
    if CleanScript(script) then Success(Deletion(env.(db := Some(Dropped(tables))), []))
    else Success(Deletion(env, [Mismatch]))
  }

  /** The deletion script's lines, each with every `;` deleted, are those of `deletionTester`. */
  predicate CleanScript(script: seq<string>) {
    |script| == |DeletionTester()| &&
    forall i | 0 <= i < |script| :: Without(script[i], {';'}) == DeletionTester()[i]
  }

  /** `commands`: the DDL script's lines joined without separators, split on `;`. */
  function Commands(lines: seq<string>): seq<string> {
    JavaSplit(Concat(lines), ';')
  }

  /** The returned message, the store afterwards and the lines printed on the way. */
  datatype Initialisation = Initialisation(message: Message, env: Env, printed: seq<Message>)

  /** The DDL half of `initialiseDB`, after any clearing. */
  function RunDdl(env: Env, ddl: TextFile, printed: seq<Message>): (r: Initialisation)
    ensures r.printed == printed
    ensures r.message == Ok <==>
              ddl.lines.Some? && Commands(ddl.lines.value) == Tester() && env.driverLoaded && env.connects
    ensures r.message == Ok ==> r.env == env.(db := Some(Created(Contents(env))))
    ensures r.message != Ok ==> r.env == env
    ensures ddl.lines.None? ==> r.message == DdlMissing
    ensures ddl.lines.Some? && Commands(ddl.lines.value) != Tester() ==> r.message == NotValidated
    ensures ddl.lines.Some? && Commands(ddl.lines.value) == Tester() && !env.driverLoaded ==> r.message == Driver
    ensures ddl.lines.Some? && Commands(ddl.lines.value) == Tester() && env.driverLoaded && !env.connects ==>
              r.message == DdlSql
  {
    if ddl.lines.None? then Initialisation(DdlMissing, env, printed)
    else if Commands(ddl.lines.value) != Tester() then Initialisation(NotValidated, env, printed)
    else if !env.driverLoaded then Initialisation(Driver, env, printed)
    else if !env.connects then Initialisation(DdlSql, env, printed)
    else Initialisation(Ok, env.(db := Some(Created(Contents(env)))), printed)
  }

  /**
   * `initialiseDB`. A store that already has tables is cleared first; an
   * unreadable deletion script stops the run. Then the DDL script runs.
   */
  function InitialiseDb(env: Env, ddl: TextFile, deletion: TextFile): (r: Initialisation)
    ensures r.env.driverLoaded == env.driverLoaded && r.env.connects == env.connects
    ensures EmptyDbChecker(env) ==> r == RunDdl(env, ddl, [])
    ensures !EmptyDbChecker(env) && deletion.lines.None? ==>
              r == Initialisation(DeletionMissing, env, [])
    ensures !EmptyDbChecker(env) && deletion.lines.Some? && DeleteDb(env, deletion.lines.value).Success? ==>
              var d := DeleteDb(env, deletion.lines.value).value;
              r == RunDdl(d.env, ddl, d.printed)
    ensures !EmptyDbChecker(env) && deletion.lines.Some? && DeleteDb(env, deletion.lines.value).Failure? ==>
              var e := DeleteDb(env, deletion.lines.value).error;
              r.env == env && r.printed == [] &&
              (e == DriverFault ==> r.message == Driver) && (e == SqlFault ==> r.message == DeletionSql)
  {
    if !EmptyDbChecker(env) then
      if deletion.lines.None? then Initialisation(DeletionMissing, env, [])
      else
        match DeleteDb(env, deletion.lines.value)
        case Failure(e) =>
          var message := if e == DriverFault then Driver else if e == SqlFault then DeletionSql else DeletionIo;
          Initialisation(message, env, [])
        case Success(d) => RunDdl(d.env, ddl, d.printed)
    else RunDdl(env, ddl, [])
  }

  /** "OK" comes back exactly when the deletion step (if any) could start and the DDL script is the expected one. */
  lemma OkExactly(env: Env, ddl: TextFile, deletion: TextFile)
    ensures InitialiseDb(env, ddl, deletion).message == Ok <==>
              (EmptyDbChecker(env) || deletion.lines.Some?) &&
              ddl.lines.Some? && Commands(ddl.lines.value) == Tester() &&
              env.driverLoaded && env.connects
  {
  }

  /**
   * A store that already has tables can always be connected to, so
   * `deleteDB` never fails inside `initialiseDB`: its driver and syntax
   * messages cannot be returned.
   */
  lemma DeletionFailuresUnreachable(env: Env, ddl: TextFile, deletion: TextFile)
    ensures InitialiseDb(env, ddl, deletion).message != DeletionSql
    ensures InitialiseDb(env, ddl, deletion).message != DeletionIo
    ensures !EmptyDbChecker(env) && deletion.lines.Some? ==> DeleteDb(env, deletion.lines.value).Success?
  {
  }

  /**
   * After "OK" every table of the schema exists; a run that printed
   * nothing starts from scratch: every schema table is empty, and tables
   * outside the schema are kept.
   */
  lemma OkStartsFromScratch(env: Env, ddl: TextFile, deletion: TextFile)
    requires InitialiseDb(env, ddl, deletion).message == Ok
    ensures var r := InitialiseDb(env, ddl, deletion);
            r.env.db.Some? && (forall t: Table :: Name(t) in r.env.db.value) &&
            (r.printed == [] ==> forall t: Table :: r.env.db.value[Name(t)] == []) &&
            (forall n | n in Contents(env) && n !in SchemaNameSet() :: n in r.env.db.value && r.env.db.value[n] == Contents(env)[n])
  {
    var r := InitialiseDb(env, ddl, deletion);
    if r.printed == [] {
      forall t: Table ensures r.env.db.value[Name(t)] == [] {
        if !EmptyDbChecker(env) {
          assert Name(t) !in Dropped(Contents(env));
        } else {
          assert |Contents(env)| == 0;
        }
      }
    }
  }

  /**
   * A deletion script that does not match only prints a line: the DDL then
   * runs over the old tables, `CREATE TABLE IF NOT EXISTS` keeps them, and
   * the run still answers "OK" with every existing row in place.
   */
  lemma MismatchedDeletionKeepsRows(env: Env, ddl: TextFile, deletion: TextFile)
    requires !EmptyDbChecker(env) && deletion.lines.Some? && !CleanScript(deletion.lines.value)
    requires ddl.lines.Some? && Commands(ddl.lines.value) == Tester()
    ensures var r := InitialiseDb(env, ddl, deletion);
            r.message == Ok && r.printed == [Mismatch] && r.env.db.Some? &&
            forall n | n in Contents(env) :: n in r.env.db.value && r.env.db.value[n] == Contents(env)[n]
  {
  }

  /** After a run that printed nothing and answered "OK", the population gates let it through. */
  lemma InitialisedIsPopulatable(env: Env, ddl: TextFile, deletion: TextFile)
    requires InitialiseDb(env, ddl, deletion).message == Ok
    requires InitialiseDb(env, ddl, deletion).printed == []
    ensures var r := InitialiseDb(env, ddl, deletion);
            !EmptyDbChecker(r.env) && PopulatedTableChecker(r.env) == Success(false)
  {
    var r := InitialiseDb(env, ddl, deletion);
    OkStartsFromScratch(env, ddl, deletion);
    assert Name(Actors) in r.env.db.value && r.env.db.value[Name(Actors)] == [];
    assert |Contents(r.env)| > 0 by {
      assert Name(Actors) in Contents(r.env);
    }
  }
}

=== FILE: java_text.dfy ===
/**
 * The handful of `java.lang.String` and `java.lang.Integer` operations the
 * pipeline relies on, with their Java edge cases written out: `replaceAll`
 * with a literal pattern, `split` dropping trailing empty strings, and the
 * partial `Integer.parseInt` with its 32-bit range.
 */
module JavaText {
  import opened Wrappers

  const MinInt: int := -0x8000_0000
  const MaxInt: int := 0x7fff_ffff

  predicate StartsWith(s: string, p: string) {
    |p| <= |s| && s[..|p|] == p
  }

  predicate OccursAt(s: string, p: string, i: nat) {
    i + |p| <= |s| && s[i..i + |p|] == p
  }

  /** `s.contains(p)`. */
  predicate Occurs(s: string, p: string) {
    exists i: nat | i <= |s| :: OccursAt(s, p, i)
  }

  /** If one character of `p` never appears in `s`, `p` cannot occur in `s`. */
  lemma AbsentCharPreventsOccurrence(s: string, p: string, k: nat)
    requires k < |p|
    requires p[k] !in s
    ensures !Occurs(s, p)
  {
  }

  /**
   * `s.replaceAll(p, "")` for a pattern `p` without regular-expression
   * metacharacters: the leftmost occurrence is deleted, the scan resumes
   * after it, and so on, so occurrences never overlap.
   */
  function RemoveAll(s: string, p: string): (r: string)
    requires |p| > 0
    ensures |r| <= |s|
    ensures !Occurs(s, p) ==> r == s
    decreases |s|
  {
    if |s| < |p| then s
    else if s[..|p|] == p then
      assert OccursAt(s, p, 0);
      RemoveAll(s[|p|..], p)
    else
      assert !Occurs(s, p) ==> !Occurs(s[1..], p) by {
        forall i: nat | OccursAt(s[1..], p, i)
          ensures OccursAt(s, p, i + 1)
        {
          assert s[1..][i..i + |p|] == s[i + 1..i + 1 + |p|];
        }
      }
      [s[0]] + RemoveAll(s[1..], p)
  }

  /** `s.replaceAll("[...]", "")` for a character class: every character of `cs` is deleted. */
  function Without(s: string, cs: set<char>): (r: string)
    ensures forall i | 0 <= i < |r| :: r[i] !in cs
    ensures |r| <= |s|
    ensures (forall i | 0 <= i < |s| :: s[i] !in cs) ==> r == s
    decreases |s|
  {
    if |s| == 0 then ""
    else if s[0] in cs then Without(s[1..], cs)
    else [s[0]] + Without(s[1..], cs)
  }

  /** Deleting characters distributes over concatenation. */
  lemma {:induction false} WithoutAppend(a: string, b: string, cs: set<char>)
    ensures Without(a + b, cs) == Without(a, cs) + Without(b, cs)
    decreases |a|
  {
    if |a| == 0 {
      assert a + b == b;
    } else {
      assert (a + b)[1..] == a[1..] + b;
      WithoutAppend(a[1..], b, cs);
    }
  }

  /** Every field of `s` between occurrences of `d`, empty fields included. */
  function SplitAll(s: string, d: char): (r: seq<string>)
    ensures |r| >= 1
    ensures forall i | 0 <= i < |r| :: d !in r[i]
    ensures Join(r, d) == s
    decreases |s|
  {
    if |s| == 0 then [""]
    else
      var rest := SplitAll(s[1..], d);
      if s[0] == d then
        var r := [""] + rest;
        assert r[1..] == rest;
        r
      else
        var r := [[s[0]] + rest[0]] + rest[1..];
        assert |rest| > 1 ==> r[1..] == rest[1..];
        r
  }

  /** The fields of `ts` with one `d` between neighbours. */
  function Join(ts: seq<string>, d: char): string
    requires |ts| >= 1
  {
    if |ts| == 1 then ts[0] else ts[0] + [d] + Join(ts[1..], d)
  }

  /** `ts` without its run of trailing empty strings. */
  function DropTrailingEmpty(ts: seq<string>): (r: seq<string>)
    ensures r <= ts
    ensures |r| > 0 ==> r[|r| - 1] != ""
    ensures forall i | |r| <= i < |ts| :: ts[i] == ""
  {
    if |ts| == 0 then []
    else if ts[|ts| - 1] == "" then DropTrailingEmpty(ts[..|ts| - 1])
    else ts
  }

  /**
   * `s.split(d)` for a single-character delimiter that is not a
   * regular-expression metacharacter: when `d` does not occur the result is
   * `[s]` (even for the empty string); otherwise every field, with trailing
   * empty fields removed. Leading and inner empty fields are kept.
   */
  function JavaSplit(s: string, d: char): (r: seq<string>)
    ensures d !in s ==> r == [s]
    ensures forall i | 0 <= i < |r| :: d !in r[i]
    ensures d in s ==> r <= SplitAll(s, d)
    ensures d in s && |r| > 0 ==> r[|r| - 1] != ""
    ensures d in s ==> forall i | |r| <= i < |SplitAll(s, d)| :: SplitAll(s, d)[i] == ""
  {
    if d !in s then [s] else DropTrailingEmpty(SplitAll(s, d))
  }

  lemma {:induction false} SplitNoDelimiter(a: string, d: char)
    requires d !in a
    ensures SplitAll(a, d) == [a]
    decreases |a|
  {
    if |a| > 0 {
      SplitNoDelimiter(a[1..], d);
      assert [a[0]] + a[1..] == a;
    }
  }

  lemma {:induction false} SplitFirstField(a: string, b: string, d: char)
    requires d !in a
    ensures SplitAll(a + [d] + b, d) == [a] + SplitAll(b, d)
    decreases |a|
  {
    var s := a + [d] + b;
    if |a| == 0 {
      assert s[1..] == b;
    } else {
      assert s[1..] == a[1..] + [d] + b;
      SplitFirstField(a[1..], b, d);
      assert [a[0]] + a[1..] == a;
    }
  }

  /** Splitting a joined list of delimiter-free fields gives the fields back. */
  lemma {:induction false} SplitJoin(ts: seq<string>, d: char)
    requires |ts| >= 1
    requires forall i | 0 <= i < |ts| :: d !in ts[i]
    ensures SplitAll(Join(ts, d), d) == ts
    decreases |ts|
  {
    if |ts| == 1 {
      SplitNoDelimiter(ts[0], d);
    } else {
      SplitJoin(ts[1..], d);
      SplitFirstField(ts[0], Join(ts[1..], d), d);
      assert [ts[0]] + ts[1..] == ts;
    }
  }

  lemma JoinHasDelimiter(ts: seq<string>, d: char)
    requires |ts| >= 2
    ensures d in Join(ts, d)
  {
    assert Join(ts, d)[|ts[0]|] == d;
  }

  /** A trailing delimiter is the same as a trailing empty field. */
  lemma {:induction false} JoinTrailingEmpty(ts: seq<string>, d: char)
    requires |ts| >= 1
    ensures Join(ts + [""], d) == Join(ts, d) + [d]
    decreases |ts|
  {
    if |ts| == 1 {
      assert ts + [""] == [ts[0], ""];
    } else {
      assert (ts + [""])[1..] == ts[1..] + [""];
      JoinTrailingEmpty(ts[1..], d);
    }
  }

  /**
   * `String.split` inverts joining when the fields are delimiter-free and
   * the last one is non-empty; a single trailing delimiter makes no
   * difference because its empty field is dropped.
   */
  lemma JavaSplitJoin(ts: seq<string>, d: char)
    requires |ts| >= 2
    requires forall i | 0 <= i < |ts| :: d !in ts[i]
    requires ts[|ts| - 1] != ""
    ensures JavaSplit(Join(ts, d), d) == ts
    ensures JavaSplit(Join(ts, d) + [d], d) == ts
  {
    JoinHasDelimiter(ts, d);
    SplitJoin(ts, d);
    JoinTrailingEmpty(ts, d);
    var ext := ts + [""];
    assert forall i | 0 <= i < |ext| :: d !in ext[i];
    SplitJoin(ext, d);
    assert ext[..|ext| - 1] == ts;
    assert d in Join(ts, d) + [d];
  }

  /** `BufferedReader` lines appended to a `StringBuilder`, without separators. */
  function Concat(lines: seq<string>): string {
    if |lines| == 0 then "" else lines[0] + Concat(lines[1..])
  }

  lemma {:induction false} ConcatTerminated(ts: seq<string>, d: char)
    requires |ts| >= 1
    ensures Concat(seq(|ts|, i requires 0 <= i < |ts| => ts[i] + [d])) == Join(ts, d) + [d]
    decreases |ts|
  {
    var lines := seq(|ts|, i requires 0 <= i < |ts| => ts[i] + [d]);
    if |ts| > 1 {
      ConcatTerminated(ts[1..], d);
      assert lines[1..] == seq(|ts[1..]|, i requires 0 <= i < |ts[1..]| => ts[1..][i] + [d]);
    }
  }

  predicate IsDigit(c: char) {
    '0' <= c <= '9'
  }

  predicate AllDigits(s: string) {
    forall i | 0 <= i < |s| :: IsDigit(s[i])
  }

  function DigitValue(c: char): nat
    requires IsDigit(c)
  {
    (c as int) - ('0' as int)
  }

  function DigitChar(d: nat): char
    requires d < 10
  {
    (('0' as int) + d) as char
  }

  /** The value of a decimal numeral, most significant digit first. */
  function DigitsValue(s: string): nat
    requires AllDigits(s)
  {
    if |s| == 0 then 0 else DigitsValue(s[..|s| - 1]) * 10 + DigitValue(s[|s| - 1])
  }

  /** `Integer.toString(n)` for a non-negative `n`, as string concatenation prints it. */
  function NatToString(n: nat): (r: string)
    ensures |r| > 0 && AllDigits(r)
    ensures DigitsValue(r) == n
    ensures r[0] == '0' <==> n == 0
    ensures |r| > 1 ==> r[0] != '0'
    decreases n
  {
    if n < 10 then [DigitChar(n)]
    else
      var r := NatToString(n / 10) + [DigitChar(n % 10)];
      assert r[..|r| - 1] == NatToString(n / 10);
      r
  }

  /**
   * `Integer.parseInt(s)`: an optional `-` or `+`, then at least one decimal
   * digit, and a value inside the 32-bit range; anything else throws
   * NumberFormatException, modelled as `None`.
   */
  function ParseInt(s: string): (r: Option<int>)
    ensures r.Some? ==> MinInt <= r.value <= MaxInt
    ensures r.Some? ==> |s| > 0 && AllDigits(s[1..]) && (IsDigit(s[0]) || s[0] == '-' || s[0] == '+')
    ensures r.Some? && |s| > 0 && IsDigit(s[0]) ==> r.value >= 0
    ensures |s| > 0 && AllDigits(s) ==>
              r == if DigitsValue(s) <= MaxInt then Some(DigitsValue(s)) else None
    ensures |s| > 1 && s[0] == '+' && AllDigits(s[1..]) ==>
              r == if DigitsValue(s[1..]) <= MaxInt then Some(DigitsValue(s[1..])) else None
    ensures |s| > 1 && s[0] == '-' && AllDigits(s[1..]) ==>
              r == if DigitsValue(s[1..]) <= MaxInt + 1 then Some(-(DigitsValue(s[1..]) as int)) else None
  {
    if |s| == 0 then None
    else if s[0] == '-' || s[0] == '+' then
      var body := s[1..];
      if |body| == 0 || !AllDigits(body) then None
      else
        var v := if s[0] == '-' then -(DigitsValue(body) as int) else DigitsValue(body);
        if MinInt <= v <= MaxInt then Some(v) else None
    else if !AllDigits(s) then None
    else if DigitsValue(s) <= MaxInt then Some(DigitsValue(s))
    else None
  }

  /** Printing a 32-bit non-negative int and parsing it back gives the int. */
  lemma ParseIntOfDecimal(n: nat)
    requires n <= MaxInt
    ensures ParseInt(NatToString(n)) == Some(n)
    ensures ParseInt("-" + NatToString(n)) == Some(-(n as int))
    ensures ParseInt("+" + NatToString(n)) == Some(n)
  {
    var t := NatToString(n);
    assert IsDigit(t[0]);
    assert ("-" + t)[1..] == t;
    assert ("+" + t)[1..] == t;
  }

  /** The empty string, a lone sign and a numeral one past the range are rejected. */
  lemma ParseIntRejects()
    ensures ParseInt("") == None
    ensures ParseInt("-") == None && ParseInt("+") == None
    ensures ParseInt("2147483648") == None
  {
    var big := "2147483648";
    assert AllDigits(big);
    assert big[..|big| - 1] == "214748364";
    assert DigitsValue(big) > MaxInt by {
      DigitsValueLowerBound(big);
    }
  }

  /** A numeral of ten digits starting with 2 and then 1 is at least 2.1e9. */
  lemma DigitsValueLowerBound(s: string)
    requires |s| == 10 && AllDigits(s) && s[0] == '2' && s[1] == '1' && s[2] == '4' && s[3] == '7'
    requires s[4] == '4' && s[5] == '8' && s[6] == '3' && s[7] == '6' && s[8] == '4' && s[9] == '8'
    ensures DigitsValue(s) == 2147483648
  {
    assert s[..1] == "2";
    assert s[..2][..1] == s[..1];
    assert s[..3][..2] == s[..2];
    assert s[..4][..3] == s[..3];
    assert s[..5][..4] == s[..4];
    assert s[..6][..5] == s[..5];
    assert s[..7][..6] == s[..6];
    assert s[..8][..7] == s[..7];
    assert s[..9][..8] == s[..8];
    assert s[..9] == s[..|s| - 1];
    assert DigitsValue(s[..1]) == 2;
    assert DigitsValue(s[..2]) == 21;
    assert DigitsValue(s[..3]) == 214;
    assert DigitsValue(s[..4]) == 2147;
    assert DigitsValue(s[..5]) == 21474;
    assert DigitsValue(s[..6]) == 214748;
    assert DigitsValue(s[..7]) == 2147483;
    assert DigitsValue(s[..8]) == 21474836;
    assert DigitsValue(s[..9]) == 214748364;
  }
}

=== FILE: json_tester.dfy ===
/**
 * The schema gate of JSONTester: a candidate file passes only when its
 * line list equals the line list of the reference file for its kind. The
 * six Java comparers differ only in which reference they read, so one
 * comparison function serves all six; `JsonFiles` holds the six files.
 */
module JsonTester {
  import opened Wrappers
  import opened Faults

  /** One file per entity kind, as PopulateDB names them. */
  datatype JsonFiles = JsonFiles(
    actors: TextFile,
    awards: TextFile,
    movies: TextFile,
    directors: TextFile,
    ratings: TextFile,
    genres: TextFile)

  /** The JSONSchemaException message; note the missing space before "does". */
  function SchemaMessage(name: string): string {
    "The file " + name + "does not meet the schema requirements"
  }

  /**
   * `JSON*Comparer(candidate)` against `reference`: `true` when the two line
   * lists are equal; otherwise JSONSchemaException naming the candidate. It
   * never returns `false`. Either file failing to open is an IOException.
   */
  function Compare(reference: TextFile, candidate: TextFile): (r: Result<bool, Fault>)
    ensures r.Success? ==> r.value
    ensures reference.lines.None? || candidate.lines.None? ==> r == Failure(IoFault)
    ensures r.Success? <==> reference.lines.Some? && candidate.lines.Some? && reference.lines == candidate.lines
    ensures r.Failure? ==> r.error == IoFault || r.error == SchemaFault(SchemaMessage(candidate.name))
    ensures reference.lines.Some? && candidate.lines.Some? && reference.lines != candidate.lines ==>
              r == Failure(SchemaFault(SchemaMessage(candidate.name)))
  {
    if reference.lines.None? || candidate.lines.None? then Failure(IoFault)
    else if reference.lines.value == candidate.lines.value then Success(true)
    else Failure(SchemaFault(SchemaMessage(candidate.name)))
  }
}

=== FILE: junctions.dfy ===
/**
 * The junction-table rows the population steps write: for each record,
 * one `(record id, related id)` pair per element of one of its ID lists.
 * The code writes a list of one element through a separate branch and
 * longer lists through a loop; both give the same rows. The movie-award
 * step guards its one-element branch with `get(0) != 0`, which changes
 * nothing either: a list `[0]` falls through to the loop and still writes
 * `(movie id, 0)`.
 */
module Junctions {
  import opened Database

  /** One record's ID and one of its relationship lists. */
  datatype Relation = Relation(owner: int, ids: seq<int>)

  /** The reference meaning: one link per list element, in list order. */
  function Links(rel: Relation): (r: seq<Row>)
    ensures |r| == |rel.ids|
    ensures forall j | 0 <= j < |r| :: r[j] == Link(rel.owner, rel.ids[j])
  {
    seq(|rel.ids|, j requires 0 <= j < |rel.ids| => Link(rel.owner, rel.ids[j]))
  }

  /** The `for (int i = 0; i < size; i++)` loop from index `i` on. */
  function LoopRows(owner: int, ids: seq<int>, i: nat): (r: seq<Row>)
    requires i <= |ids|
    ensures r == Links(Relation(owner, ids[i..]))
    decreases |ids| - i
  {
    if i == |ids| then []
    else [Link(owner, ids[i])] + LoopRows(owner, ids, i + 1)
  }

  /**
   * The rows written for one record: nothing for an empty list, a single
   * insert for a one-element list, the loop otherwise.
   */
  function JunctionRows(rel: Relation): (r: seq<Row>)
    ensures r == Links(rel)
  {
    if |rel.ids| == 0 then []
    else if |rel.ids| == 1 then [Link(rel.owner, rel.ids[0])]
    else
      assert rel.ids[0..] == rel.ids;
      LoopRows(rel.owner, rel.ids, 0)
  }

  /** The movie-award variant, whose one-element branch also requires the ID to be non-zero. */
  function MovieAwardRows(rel: Relation): (r: seq<Row>)
    ensures r == Links(rel)
  {
    if |rel.ids| == 0 then []
    else if |rel.ids| == 1 && rel.ids[0] != 0 then [Link(rel.owner, rel.ids[0])]
    else
      assert rel.ids[0..] == rel.ids;
      LoopRows(rel.owner, rel.ids, 0)
  }

  /** The guard does not suppress the row of a lone zero award. */
  lemma ZeroAwardStillLinked(movie: int)
    ensures MovieAwardRows(Relation(movie, [0])) == [Link(movie, 0)]
  {
  }

  /** The rows of a whole junction table: each record's rows, records in order. */
  function AllLinks(rels: seq<Relation>): seq<Row> {
    if |rels| == 0 then [] else JunctionRows(rels[0]) + AllLinks(rels[1..])
  }

  function LinkCount(rels: seq<Relation>): nat {
    if |rels| == 0 then 0 else |rels[0].ids| + LinkCount(rels[1..])
  }

  /** A junction table gets as many rows as all its records' lists hold. */
  lemma {:induction false} AllLinksCount(rels: seq<Relation>)
    ensures |AllLinks(rels)| == LinkCount(rels)
  {
    if |rels| > 0 {
      AllLinksCount(rels[1..]);
    }
  }

  /** Every link written comes from some record and one of that record's IDs. */
  lemma {:induction false} AllLinksSound(rels: seq<Relation>, row: Row)
    requires row in AllLinks(rels)
    ensures row.Link?
    ensures exists i | 0 <= i < |rels| :: rels[i].owner == row.owner && row.related in rels[i].ids
    decreases |rels|
  {
    assert |rels| > 0;
    var head := JunctionRows(rels[0]);
    assert AllLinks(rels) == head + AllLinks(rels[1..]);
    if row in head {
      var j :| 0 <= j < |head| && head[j] == row;
      assert row == Link(rels[0].owner, rels[0].ids[j]);
      assert rels[0].ids[j] in rels[0].ids;
      assert rels[0].owner == row.owner && row.related in rels[0].ids;
    } else {
      AllLinksSound(rels[1..], row);
      var i :| 0 <= i < |rels[1..]| && rels[1..][i].owner == row.owner && row.related in rels[1..][i].ids;
      assert rels[i + 1] == rels[1..][i];
      assert rels[i + 1].owner == row.owner && row.related in rels[i + 1].ids;
    }
  }

  /** Every ID of every record has its link, owned by that record's ID. */
  lemma {:induction false} AllLinksComplete(rels: seq<Relation>, i: nat, j: nat, owner: int)
    requires i < |rels| && j < |rels[i].ids| && rels[i].owner == owner
    ensures Link(owner, rels[i].ids[j]) in AllLinks(rels)
    decreases i
  {
    if i == 0 {
      assert JunctionRows(rels[0])[j] == Link(rels[0].owner, rels[0].ids[j]);
    } else {
      assert rels[1..][i - 1] == rels[i];
      AllLinksComplete(rels[1..], i - 1, j, owner);
    }
  }

  /**
   * Every link's owner is `first` plus the index of a record of `rels` that
   * lists the link's related ID: with record IDs counting from `first`,
   * the link belongs to that record.
   */
  predicate LinksSound(links: seq<Row>, rels: seq<Relation>, first: int) {
    forall row | row in links ::
      row.Link? && exists i | 0 <= i < |rels| :: row.owner == first + i && row.related in rels[i].ids
  }

  /** Every ID a record of `rels` lists has its link, owned by `first` plus the record's index. */
  predicate LinksComplete(links: seq<Row>, rels: seq<Relation>, first: int) {
    forall i, j | 0 <= i < |rels| && 0 <= j < |rels[i].ids| :: Link(first + i, rels[i].ids[j]) in links
  }

  /** With consecutive record IDs, every row of a junction table belongs to the record that lists it. */
  lemma {:induction false} LinksSoundRecords(rels: seq<Relation>, first: int)
    requires forall i | 0 <= i < |rels| :: rels[i].owner == first + i
    ensures LinksSound(AllLinks(rels), rels, first)
  {
    forall row | row in AllLinks(rels)
      ensures row.Link? && exists i | 0 <= i < |rels| :: row.owner == first + i && row.related in rels[i].ids
    {
      LinkOwnerListsIt(rels, first, row);
    }
  }

  /** With consecutive record IDs, every ID each record lists is linked to that record. */
  lemma {:induction false} LinksCompleteRecords(rels: seq<Relation>, first: int)
    requires forall i | 0 <= i < |rels| :: rels[i].owner == first + i
    ensures LinksComplete(AllLinks(rels), rels, first)
  {
    forall i, j | 0 <= i < |rels| && 0 <= j < |rels[i].ids|
      ensures Link(first + i, rels[i].ids[j]) in AllLinks(rels)
    {
      AllLinksComplete(rels, i, j, first + i);
    }
  }

  lemma {:induction false} LinkOwnerListsIt(rels: seq<Relation>, first: int, row: Row)
    requires forall i | 0 <= i < |rels| :: rels[i].owner == first + i
    requires row in AllLinks(rels)
    ensures row.Link? && exists i | 0 <= i < |rels| :: row.owner == first + i && row.related in rels[i].ids
  {
    AllLinksSound(rels, row);
    var i :| 0 <= i < |rels| && rels[i].owner == row.owner && row.related in rels[i].ids;
    assert rels[i].owner == first + i;
  }

  /** The awardWinningMovie table's rows, written through the guarded branch. */
  function AllMovieAwardLinks(rels: seq<Relation>): (r: seq<Row>)
    ensures r == AllLinks(rels)
  {
    if |rels| == 0 then [] else MovieAwardRows(rels[0]) + AllMovieAwardLinks(rels[1..])
  }
}

=== FILE: parsers.dfy ===
/**
 * The six record parsers of Parsers. Each one reads the file once per key
 * with the line extractor, then has the file checked against its reference
 * by the JSON tester, then zips the parallel value lists by index into
 * records. Relationship fields become ID lists: a field holding the
 * field's delimiter is split and every token parsed; a field without it is
 * parsed as one number that is kept only when positive.
 */
module Parsers {
  import opened Wrappers
  import opened Faults
  import opened JavaText
  import opened Extractor
  import opened Entities
  import opened JsonTester

  /** Delimiters of the relationship fields. */
  const ActorAwardDelimiter: char := ';'
  const ActorMovieDelimiter: char := ','
  const DirectorAwardDelimiter: char := ','
  const MovieAwardDelimiter: char := ','
  const MovieRatingDelimiter: char := ';'
  const MovieGenreDelimiter: char := '-'

  /**
   * The ID list of one relationship field. With the delimiter present every
   * token of `split` is parsed, zeros and negatives included; without it
   * the field is one number, kept only when it is positive. A token that is
   * not a numeral (the empty token before a leading delimiter, say) throws.
   */
  function RelationIds(field: string, delim: char): (r: Result<seq<int>, Fault>)
    ensures r.Failure? ==> r.error.NumberFormat?
    ensures delim !in field ==> (r.Success? <==> ParseInt(field).Some?)
    ensures delim !in field && r.Success? ==>
              r.value == if ParseInt(field).value > 0 then [ParseInt(field).value] else []
    ensures delim in field ==>
              var tokens := JavaSplit(field, delim);
              (r.Success? <==> forall j | 0 <= j < |tokens| :: ParseInt(tokens[j]).Some?)
    ensures delim in field && r.Success? ==>
              var tokens := JavaSplit(field, delim);
              |r.value| == |tokens| && forall j | 0 <= j < |r.value| :: ParseInt(tokens[j]) == Some(r.value[j])
  {
    if delim in field then ParseAll(JavaSplit(field, delim))
    else
      match ParseInt(field)
      case None => Failure(NumberFormat(ForInputString(field)))
      case Some(n) => Success(if n > 0 then [n] else [])
  }

  /** The decimal numerals of a list of IDs. */
  function Numerals(ids: seq<nat>): (r: seq<string>)
    ensures |r| == |ids|
  {
    seq(|ids|, i requires 0 <= i < |ids| => NatToString(ids[i]))
  }

  lemma NumeralLacks(n: nat, d: char)
    requires !IsDigit(d)
    ensures d !in NatToString(n)
  {
    var s := NatToString(n);
    assert forall i | 0 <= i < |s| :: IsDigit(s[i]);
  }

  /**
   * Round trip of a delimited field: two or more IDs written as numerals
   * and joined by the delimiter (with or without a trailing delimiter,
   * which `split` drops) come back as exactly those IDs in order, zeros
   * included, since the positivity filter applies only to undelimited
   * fields.
   */
  lemma DelimitedKeepsEveryToken(ids: seq<nat>, d: char)
    requires |ids| >= 2
    requires !IsDigit(d)
    requires forall i | 0 <= i < |ids| :: ids[i] <= MaxInt
    ensures RelationIds(Join(Numerals(ids), d), d) == Success(ids)
    ensures RelationIds(Join(Numerals(ids), d) + [d], d) == Success(ids)
  {
    var ts := Numerals(ids);
    forall i | 0 <= i < |ts|
      ensures d !in ts[i] && ParseInt(ts[i]) == Some(ids[i] as int)
    {
      NumeralLacks(ids[i], d);
      ParseIntOfDecimal(ids[i]);
    }
    JavaSplitJoin(ts, d);
    JoinHasDelimiter(ts, d);
    var f := Join(ts, d);
    assert d in f + [d];
    TokensParsed(f, d, ts, ids);
    TokensParsed(f + [d], d, ts, ids);
  }

  /** A delimited field whose tokens are the numerals of `ids` gives `ids`. */
  lemma TokensParsed(field: string, d: char, ts: seq<string>, ids: seq<nat>)
    requires d in field && JavaSplit(field, d) == ts && |ts| == |ids|
    requires forall i | 0 <= i < |ts| :: ParseInt(ts[i]) == Some(ids[i] as int)
    ensures RelationIds(field, d) == Success(ids)
  {
    var r := RelationIds(field, d);
    assert r.Success? && |r.value| == |ids|;
    assert forall j | 0 <= j < |ids| :: r.value[j] == ids[j];
    assert r.value == ids;
  }

  /** An undelimited numeral gives a one-element list when positive and nothing otherwise. */
  lemma UndelimitedPositivity(n: nat, d: char)
    requires n <= MaxInt
    requires !IsDigit(d) && d != '-'
    ensures RelationIds(NatToString(n), d) == Success(if n > 0 then [n] else [])
    ensures n > 0 ==> RelationIds("-" + NatToString(n), d) == Success([])
  {
    NumeralLacks(n, d);
    ParseIntOfDecimal(n);
    assert "-" + NatToString(n) == ['-'] + NatToString(n);
  }

  lemma SmallNumerals()
    ensures NatToString(0) == "0" && NatToString(3) == "3" && NatToString(5) == "5" && NatToString(7) == "7"
  {
  }

  /** A delimited field of two positive IDs: `"3;7"` read with `;`. */
  lemma TwoIdsExample()
    ensures RelationIds("3;7", ';') == Success([3, 7])
  {
    var ids: seq<nat> := [3, 7];
    SmallNumerals();
    assert Numerals(ids) == ["3", "7"];
    assert Join(["7"], ';') == "7";
    assert Join(["3", "7"], ';') == "3" + [';'] + "7" == "3;7";
    DelimitedKeepsEveryToken(ids, ';');
  }

  /** An undelimited zero contributes no ID. */
  lemma ZeroExample()
    ensures RelationIds("0", ',') == Success([])
  {
    SmallNumerals();
    UndelimitedPositivity(0, ',');
  }

  /** A zero followed by the delimiter takes the split branch and is kept. */
  lemma ZeroWithDelimiterExample()
    ensures RelationIds("0,", ',') == Success([0])
  {
    SmallNumerals();
    SplitFirstField("0", "", ',');
    assert "0" + [','] + "" == "0,";
    assert SplitAll("", ',') == [""];
    assert SplitAll("0,", ',') == ["0", ""];
    assert DropTrailingEmpty(["0", ""]) == DropTrailingEmpty(["0"]);
    assert JavaSplit("0,", ',') == ["0"];
    ParseIntOfDecimal(0);
    ParseAllOne("0", 0);
  }

  /**
   * A leading delimiter yields an empty first token, which does not parse:
   * the whole field throws instead of skipping it. With the genre delimiter
   * `-`, a negative number reads as such a field.
   */
  lemma LeadingEmptyTokenFails()
    ensures RelationIds(";5", ';').Failure?
    ensures RelationIds("-3", '-').Failure?
  {
    SmallNumerals();
    SplitFirstField("", "5", ';');
    SplitNoDelimiter("5", ';');
    assert "" + [';'] + "5" == ";5";
    assert JavaSplit(";5", ';') == ["", "5"];
    SplitFirstField("", "3", '-');
    SplitNoDelimiter("3", '-');
    assert "" + ['-'] + "3" == "-3";
    assert JavaSplit("-3", '-') == ["", "3"];
    ParseIntRejects();
  }

  /**
   * The ID extractor keeps the comma that ends a JSON member, so a
   * relationship written `"Awards": "0",` reaches the split branch and
   * yields the ID 0, while the same member written last, without its comma,
   * yields nothing.
   */
  lemma TrailingCommaKeepsZero(line: string)
    requires line == Prefix("Awards") + "\"0\","
    ensures IdValues([line], "Awards") == ["0,"]
    ensures RelationIds(IdValues([line], "Awards")[0], MovieAwardDelimiter) == Success([0])
  {
    IdFieldValue("Awards", "0", ",");
    assert "0" + "," == "0,";
    assert Prefix("Awards") + "\"" + "0" + "\"" + "," == line;
    ZeroWithDelimiterExample();
  }

  lemma LastMemberZeroDropped(line: string)
    requires line == Prefix("Awards") + "\"0\""
    ensures IdValues([line], "Awards") == ["0"]
    ensures RelationIds(IdValues([line], "Awards")[0], MovieAwardDelimiter) == Success([])
  {
    IdFieldValue("Awards", "0", "");
    assert "0" + "" == "0";
    assert Prefix("Awards") + "\"" + "0" + "\"" + "" == line;
    ZeroExample();
  }

  /** Element `k` of `[x] + xs` is element `k - 1` of `xs`. */
  lemma ConsIndex<T>(x: T, xs: seq<T>)
    ensures forall k | 1 <= k < 1 + |xs| :: ([x] + xs)[k] == xs[k - 1]
  {
  }

  /**
   * The outcome of reading each relationship field of a list. Reading is a
   * pure function of the text, so the record loops below take these
   * outcomes precomputed and consult each one at the point where the code
   * parses that field: an earlier failure in the loop still comes first.
   */
  function ParseRelations(fields: seq<string>, delim: char): (r: seq<Result<seq<int>, Fault>>)
    ensures |r| == |fields|
    ensures FormatFaultsOnly(r)
  {
    seq(|fields|, k requires 0 <= k < |fields| => RelationIds(fields[k], delim))
  }

  /** Every failed read in `rs` is a NumberFormatException. */
  predicate FormatFaultsOnly(rs: seq<Result<seq<int>, Fault>>) {
    forall k | 0 <= k < |rs| :: rs[k].Failure? ==> rs[k].error.NumberFormat?
  }

  // ----- Actors -----

  /**
   * The parallel lists `actorParser` extracts, in extraction order, with the
   * two relationship lists already read as ID lists.
   */
  datatype ActorFields = ActorFields(
    names: seq<string>,
    ages: seq<int>,
    birthdays: seq<string>,
    awards: seq<Result<seq<int>, Fault>>,
    movies: seq<Result<seq<int>, Fault>>)

  /** The five extractions of `actorParser`; only the `Age` one can throw. */
  function ActorFieldsOf(lines: seq<string>): (r: Result<ActorFields, Fault>)
    ensures r.Success? <==> IntValues(lines, "Age").Success?
    ensures r.Success? ==>
              r.value.names == StringValues(lines, "Full Name") &&
              r.value.ages == IntValues(lines, "Age").value &&
              r.value.birthdays == StringValues(lines, "Birthday") &&
              r.value.awards == ParseRelations(StringValues(lines, "Awards"), ActorAwardDelimiter) &&
              r.value.movies == ParseRelations(IdValues(lines, "Movies"), ActorMovieDelimiter)
    ensures r.Failure? ==> r.error.NumberFormat?
  {
    var names := StringValues(lines, "Full Name");
    var ages :- IntValues(lines, "Age");
    Success(ActorFields(names, ages, StringValues(lines, "Birthday"),
                        ParseRelations(StringValues(lines, "Awards"), ActorAwardDelimiter),
                        ParseRelations(IdValues(lines, "Movies"), ActorMovieDelimiter)))
  }

  /** Row `k` has every field and both relationship fields parse. */
  predicate ActorFieldsOk(f: ActorFields, k: nat) {
    k < |f.names| && k < |f.ages| && k < |f.birthdays| &&
    k < |f.awards| && f.awards[k].Success? &&
    k < |f.movies| && f.movies[k].Success?
  }

  /** Row `k` is complete and actor `a` holds element `k` of every list. */
  predicate ActorBuiltFrom(a: Actor, f: ActorFields, k: nat) {
    ActorFieldsOk(f, k) &&
    a.name == f.names[k] && a.age == f.ages[k] && a.birthday == f.birthdays[k] &&
    a.awardIds == f.awards[k].value && a.movieIds == f.movies[k].value
  }

  /**
   * Iteration `i` of the record loop of `actorParser`: the constructor reads
   * name, age and birthday, then the award field and the movie field are
   * read, each read throwing IndexOutOfBounds past the end of its list.
   */
  function ActorAt(f: ActorFields, i: nat, next: int): (r: Result<Actor, Fault>)
    requires i < |f.names|
    ensures r.Success? <==> ActorFieldsOk(f, i)
    ensures r.Success? ==> r.value.id == next && ActorBuiltFrom(r.value, f, i)
    ensures r.Failure? ==>
              r.error == IndexOutOfBounds ||
              (i < |f.awards| && f.awards[i] == Failure(r.error)) ||
              (i < |f.movies| && f.movies[i] == Failure(r.error))
  {
    if i >= |f.ages| || i >= |f.birthdays| then Failure(IndexOutOfBounds)
    else
      var (actor, _) := NewActor(next, f.names[i], f.ages[i], f.birthdays[i]);
      if i >= |f.awards| then Failure(IndexOutOfBounds)
      else
        var awardIds :- f.awards[i];
        if i >= |f.movies| then Failure(IndexOutOfBounds)
        else
          var movieIds :- f.movies[i];
          Success(actor.(awardIds := awardIds, movieIds := movieIds))
  }

  /**
   * The record loop of `actorParser` from index `i`, with the actor counter
   * at `next`: one actor per name, IDs taken from the counter in turn. A
   * shorter list throws IndexOutOfBounds, a bad ID token NumberFormat.
   */
  function BuildActors(f: ActorFields, i: nat, next: int): (r: Result<(seq<Actor>, int), Fault>)
    requires i <= |f.names|
    ensures r.Success? <==> forall k | i <= k < |f.names| :: ActorFieldsOk(f, k)
    ensures r.Success? ==> |r.value.0| == |f.names| - i && r.value.1 == next + |r.value.0|
    ensures r.Success? ==> ActorIdsFrom(r.value.0, next)
    ensures r.Success? ==> forall k | 0 <= k < |r.value.0| :: ActorBuiltFrom(r.value.0[k], f, i + k)
    ensures r.Failure? && FormatFaultsOnly(f.awards) && FormatFaultsOnly(f.movies) ==>
              r.error == IndexOutOfBounds || r.error.NumberFormat?
    decreases |f.names| - i
  {
    if i == |f.names| then Success(([], next))
    else
      match ActorAt(f, i, next)
      case Failure(e) => Failure(e)
      case Success(built) =>
        match BuildActors(f, i + 1, next + 1)
        case Failure(e) => Failure(e)
        case Success(rest) =>
          var records := [built] + rest.0;
          ConsIndex(built, rest.0);
          Success((records, rest.1))
  }

  /**
   * `actorParser`: an unreadable file is an IOException; otherwise the
   * extraction runs first, then the schema gate, then the record loop.
   * The parser's own schema exception is never raised, since the gate
   * throws before returning false.
   */
  function ActorParser(file: TextFile, references: JsonFiles, next: int): (r: Result<(seq<Actor>, int), Fault>)
    ensures file.lines.None? ==> r == Failure(IoFault)
    ensures r.Success? ==> file.lines.Some? && references.actors.lines == file.lines
    ensures r.Success? ==>
              |r.value.0| == |StringValues(file.lines.value, "Full Name")| &&
              ActorIdsFrom(r.value.0, next) && r.value.1 == next + |r.value.0|
    ensures file.lines.Some? && references.actors.lines.Some? && references.actors.lines != file.lines &&
            IntValues(file.lines.value, "Age").Success? ==>
              r == Failure(SchemaFault(SchemaMessage(file.name)))
    ensures r.Success? ==>
              var f := ActorFieldsOf(file.lines.value);
              f.Success? && forall k | 0 <= k < |r.value.0| :: ActorBuiltFrom(r.value.0[k], f.value, k)
    ensures r.Failure? ==>
              r.error == IoFault || r.error == IndexOutOfBounds || r.error.NumberFormat? ||
              r.error == SchemaFault(SchemaMessage(file.name))
  {
    if file.lines.None? then Failure(IoFault)
    else
      var f :- ActorFieldsOf(file.lines.value);
      var valid :- Compare(references.actors, file);
      BuildActors(f, 0, next)
  }

  // ----- Awards and Genres -----

  /**
   * `awardsParser`: institution and motive lists zipped by index; a motive
   * list shorter than the institution list throws IndexOutOfBounds.
   */
  function AwardsParser(file: TextFile, references: JsonFiles): (r: Result<seq<Award>, Fault>)
    ensures file.lines.None? ==> r == Failure(IoFault)
    ensures r.Success? ==> file.lines.Some? && references.awards.lines == file.lines
    ensures r.Success? ==>
              var institutions := StringValues(file.lines.value, "Award Institution");
              var motives := StringValues(file.lines.value, "Motive");
              |r.value| == |institutions| <= |motives| &&
              forall k | 0 <= k < |r.value| :: r.value[k] == Award(institutions[k], motives[k])
    ensures file.lines.Some? && references.awards.lines.Some? && references.awards.lines != file.lines ==>
              r == Failure(SchemaFault(SchemaMessage(file.name)))
    ensures r.Failure? ==> r.error == IoFault || r.error == IndexOutOfBounds || r.error == SchemaFault(SchemaMessage(file.name))
    ensures file.lines.Some? && references.awards.lines == file.lines &&
            |StringValues(file.lines.value, "Motive")| < |StringValues(file.lines.value, "Award Institution")| ==>
              r == Failure(IndexOutOfBounds)
  {
    if file.lines.None? then Failure(IoFault)
    else
      var institutions := StringValues(file.lines.value, "Award Institution");
      var motives := StringValues(file.lines.value, "Motive");
      var valid :- Compare(references.awards, file);
      if |motives| < |institutions| then Failure(IndexOutOfBounds)
      else Success(seq(|institutions|, k requires 0 <= k < |institutions| => Award(institutions[k], motives[k])))
  }

  /** `genreParser`: one genre per `Genre` line. */
  function GenreParser(file: TextFile, references: JsonFiles): (r: Result<seq<Genre>, Fault>)
    ensures file.lines.None? ==> r == Failure(IoFault)
    ensures r.Success? ==> file.lines.Some? && references.genres.lines == file.lines
    ensures r.Success? ==>
              var names := StringValues(file.lines.value, "Genre");
              |r.value| == |names| && forall k | 0 <= k < |r.value| :: r.value[k].genreName == names[k]
    ensures r.Failure? <==> file.lines.None? || references.genres.lines != file.lines || references.genres.lines.None?
    ensures r.Failure? ==> r.error == IoFault || r.error == SchemaFault(SchemaMessage(file.name))
  {
    if file.lines.None? then Failure(IoFault)
    else
      var names := StringValues(file.lines.value, "Genre");
      var valid :- Compare(references.genres, file);
      Success(seq(|names|, k requires 0 <= k < |names| => Genre(names[k])))
  }

  // ----- Ratings -----

  /**
   * `ratingsParser`: critic sources zipped with the rating texts. The
   * rating is read with the key's prefix deleted and nothing else; the
   * decimal conversion that follows in the code is not part of this model.
   */
  function RatingsParser(file: TextFile, references: JsonFiles): (r: Result<seq<Rating>, Fault>)
    ensures file.lines.None? ==> r == Failure(IoFault)
    ensures r.Success? ==> file.lines.Some? && references.ratings.lines == file.lines
    ensures r.Success? ==>
              var sources := StringValues(file.lines.value, "Critic Source");
              var scores := Extract(file.lines.value, "Rating");
              |r.value| == |sources| <= |scores| &&
              forall k | 0 <= k < |r.value| :: r.value[k] == Rating(sources[k], scores[k])
    ensures file.lines.Some? && references.ratings.lines.Some? && references.ratings.lines != file.lines ==>
              r == Failure(SchemaFault(SchemaMessage(file.name)))
    ensures r.Failure? ==> r.error == IoFault || r.error == IndexOutOfBounds || r.error == SchemaFault(SchemaMessage(file.name))
    ensures file.lines.Some? && references.ratings.lines == file.lines &&
            |Extract(file.lines.value, "Rating")| < |StringValues(file.lines.value, "Critic Source")| ==>
              r == Failure(IndexOutOfBounds)
  {
    if file.lines.None? then Failure(IoFault)
    else
      var sources := StringValues(file.lines.value, "Critic Source");
      var scores := Extract(file.lines.value, "Rating");
      var valid :- Compare(references.ratings, file);
      if |scores| < |sources| then Failure(IndexOutOfBounds)
      else Success(seq(|sources|, k requires 0 <= k < |sources| => Rating(sources[k], scores[k])))
  }

  // ----- Directors -----

  /** The lists `directorsParser` extracts, the award list already read as ID lists. */
  datatype DirectorFields = DirectorFields(
    names: seq<string>,
    movieCounts: seq<int>,
    awards: seq<Result<seq<int>, Fault>>)

  /** The three extractions of `directorsParser`; only `Movie Count` can throw. */
  function DirectorFieldsOf(lines: seq<string>): (r: Result<DirectorFields, Fault>)
    ensures r.Success? <==> IntValues(lines, "Movie Count").Success?
    ensures r.Success? ==>
              r.value.names == StringValues(lines, "Full Name") &&
              r.value.movieCounts == IntValues(lines, "Movie Count").value &&
              r.value.awards == ParseRelations(IdValues(lines, "Awards"), DirectorAwardDelimiter)
    ensures r.Failure? ==> r.error.NumberFormat?
  {
    var names := StringValues(lines, "Full Name");
    var counts :- IntValues(lines, "Movie Count");
    Success(DirectorFields(names, counts, ParseRelations(IdValues(lines, "Awards"), DirectorAwardDelimiter)))
  }

  predicate DirectorFieldsOk(f: DirectorFields, k: nat) {
    k < |f.names| && k < |f.movieCounts| && k < |f.awards| && f.awards[k].Success?
  }

  /** Row `k` is complete and director `d` holds element `k` of every list. */
  predicate DirectorBuiltFrom(d: Director, f: DirectorFields, k: nat) {
    DirectorFieldsOk(f, k) &&
    d.name == f.names[k] && d.movieCount == f.movieCounts[k] && d.awardIds == f.awards[k].value
  }

  /** Iteration `i` of the record loop of `directorsParser`: constructor, then the award field. */
  function DirectorAt(f: DirectorFields, i: nat, next: int): (r: Result<Director, Fault>)
    requires i < |f.names|
    ensures r.Success? <==> DirectorFieldsOk(f, i)
    ensures r.Success? ==> r.value.id == next && DirectorBuiltFrom(r.value, f, i)
    ensures r.Failure? ==> r.error == IndexOutOfBounds || (i < |f.awards| && f.awards[i] == Failure(r.error))
  {
    if i >= |f.movieCounts| then Failure(IndexOutOfBounds)
    else
      var (director, _) := NewDirector(next, f.names[i], f.movieCounts[i]);
      if i >= |f.awards| then Failure(IndexOutOfBounds)
      else
        var awardIds :- f.awards[i];
        Success(director.(awardIds := awardIds))
  }

  /** The record loop of `directorsParser` from index `i`, with the director counter at `next`. */
  function BuildDirectors(f: DirectorFields, i: nat, next: int): (r: Result<(seq<Director>, int), Fault>)
    requires i <= |f.names|
    ensures r.Success? <==> forall k | i <= k < |f.names| :: DirectorFieldsOk(f, k)
    ensures r.Success? ==> |r.value.0| == |f.names| - i && r.value.1 == next + |r.value.0|
    ensures r.Success? ==> DirectorIdsFrom(r.value.0, next)
    ensures r.Success? ==> forall k | 0 <= k < |r.value.0| :: DirectorBuiltFrom(r.value.0[k], f, i + k)
    ensures r.Failure? && FormatFaultsOnly(f.awards) ==> r.error == IndexOutOfBounds || r.error.NumberFormat?
    decreases |f.names| - i
  {
    if i == |f.names| then Success(([], next))
    else
      match DirectorAt(f, i, next)
      case Failure(e) => Failure(e)
      case Success(built) =>
        match BuildDirectors(f, i + 1, next + 1)
        case Failure(e) => Failure(e)
        case Success(rest) =>
          var records := [built] + rest.0;
          ConsIndex(built, rest.0);
          Success((records, rest.1))
  }

  /** `directorsParser`: extraction, then the schema gate, then the record loop. */
  function DirectorsParser(file: TextFile, references: JsonFiles, next: int): (r: Result<(seq<Director>, int), Fault>)
    ensures file.lines.None? ==> r == Failure(IoFault)
    ensures r.Success? ==> file.lines.Some? && references.directors.lines == file.lines
    ensures r.Success? ==>
              |r.value.0| == |StringValues(file.lines.value, "Full Name")| &&
              DirectorIdsFrom(r.value.0, next) && r.value.1 == next + |r.value.0|
    ensures file.lines.Some? && references.directors.lines.Some? && references.directors.lines != file.lines &&
            IntValues(file.lines.value, "Movie Count").Success? ==>
              r == Failure(SchemaFault(SchemaMessage(file.name)))
    ensures r.Success? ==>
              var f := DirectorFieldsOf(file.lines.value);
              f.Success? && forall k | 0 <= k < |r.value.0| :: DirectorBuiltFrom(r.value.0[k], f.value, k)
    ensures r.Failure? ==>
              r.error == IoFault || r.error == IndexOutOfBounds || r.error.NumberFormat? ||
              r.error == SchemaFault(SchemaMessage(file.name))
  {
    if file.lines.None? then Failure(IoFault)
    else
      var f :- DirectorFieldsOf(file.lines.value);
      var valid :- Compare(references.directors, file);
      BuildDirectors(f, 0, next)
  }

  // ----- Movies -----

  /**
   * The parallel lists `moviesParser` extracts, in extraction order, with the
   * three relationship lists already read as ID lists.
   */
  datatype MovieFields = MovieFields(
    titles: seq<string>,
    releaseDates: seq<string>,
    runningTimes: seq<string>,
    genres: seq<Result<seq<int>, Fault>>,
    plots: seq<string>,
    directors: seq<int>,
    awards: seq<Result<seq<int>, Fault>>,
    ratings: seq<Result<seq<int>, Fault>>)

  /** The eight extractions of `moviesParser`; only `Director` can throw. */
  function MovieFieldsOf(lines: seq<string>): (r: Result<MovieFields, Fault>)
    ensures r.Success? <==> IntValues(lines, "Director").Success?
    ensures r.Success? ==>
              r.value.titles == StringValues(lines, "Title") &&
              r.value.releaseDates == StringValues(lines, "Release Date") &&
              r.value.runningTimes == StringValues(lines, "Running Time") &&
              r.value.genres == ParseRelations(StringValues(lines, "Genre"), MovieGenreDelimiter) &&
              r.value.plots == StringValues(lines, "Plot Summary") &&
              r.value.directors == IntValues(lines, "Director").value &&
              r.value.awards == ParseRelations(IdValues(lines, "Awards"), MovieAwardDelimiter) &&
              r.value.ratings == ParseRelations(StringValues(lines, "Ratings"), MovieRatingDelimiter)
    ensures r.Failure? ==> r.error.NumberFormat?
  {
    var titles := StringValues(lines, "Title");
    var dates := StringValues(lines, "Release Date");
    var times := StringValues(lines, "Running Time");
    var genres := StringValues(lines, "Genre");
    var plots := StringValues(lines, "Plot Summary");
    var directors :- IntValues(lines, "Director");
    Success(MovieFields(titles, dates, times, ParseRelations(genres, MovieGenreDelimiter), plots, directors,
                        ParseRelations(IdValues(lines, "Awards"), MovieAwardDelimiter),
                        ParseRelations(StringValues(lines, "Ratings"), MovieRatingDelimiter)))
  }

  predicate MovieFieldsOk(f: MovieFields, k: nat) {
    k < |f.titles| && k < |f.releaseDates| && k < |f.runningTimes| &&
    k < |f.plots| && k < |f.directors| &&
    k < |f.awards| && f.awards[k].Success? &&
    k < |f.ratings| && f.ratings[k].Success? &&
    k < |f.genres| && f.genres[k].Success?
  }

  /** Row `k` is complete and movie `m` holds element `k` of every list. */
  predicate MovieBuiltFrom(m: Movie, f: MovieFields, k: nat) {
    MovieFieldsOk(f, k) &&
    m.title == f.titles[k] && m.releaseDate == f.releaseDates[k] &&
    m.runningTime == f.runningTimes[k] && m.plotSummary == f.plots[k] &&
    m.directorId == f.directors[k] &&
    m.awardIds == f.awards[k].value && m.ratingIds == f.ratings[k].value && m.genreIds == f.genres[k].value
  }

  /**
   * Iteration `i` of the record loop of `moviesParser`: the constructor
   * reads title, release date, running time, plot and director, then the
   * award, rating and genre fields are read in that order.
   */
  function MovieAt(f: MovieFields, i: nat, next: int): (r: Result<Movie, Fault>)
    requires i < |f.titles|
    ensures r.Success? <==> MovieFieldsOk(f, i)
    ensures r.Success? ==> r.value.id == next && MovieBuiltFrom(r.value, f, i)
    ensures r.Failure? ==>
              r.error == IndexOutOfBounds ||
              (i < |f.awards| && f.awards[i] == Failure(r.error)) ||
              (i < |f.ratings| && f.ratings[i] == Failure(r.error)) ||
              (i < |f.genres| && f.genres[i] == Failure(r.error))
  {
    if i >= |f.releaseDates| || i >= |f.runningTimes| || i >= |f.plots| || i >= |f.directors| then
      Failure(IndexOutOfBounds)
    else
      var (movie, _) := NewMovie(next, f.titles[i], f.releaseDates[i], f.runningTimes[i], f.plots[i], f.directors[i]);
      if i >= |f.awards| then Failure(IndexOutOfBounds)
      else
        var awardIds :- f.awards[i];
        if i >= |f.ratings| then Failure(IndexOutOfBounds)
        else
          var ratingIds :- f.ratings[i];
          if i >= |f.genres| then Failure(IndexOutOfBounds)
          else
            var genreIds :- f.genres[i];
            Success(movie.(awardIds := awardIds, ratingIds := ratingIds, genreIds := genreIds))
  }

  /** The record loop of `moviesParser` from index `i`, with the movie counter at `next`. */
  function BuildMovies(f: MovieFields, i: nat, next: int): (r: Result<(seq<Movie>, int), Fault>)
    requires i <= |f.titles|
    ensures r.Success? <==> forall k | i <= k < |f.titles| :: MovieFieldsOk(f, k)
    ensures r.Success? ==> |r.value.0| == |f.titles| - i && r.value.1 == next + |r.value.0|
    ensures r.Success? ==> MovieIdsFrom(r.value.0, next)
    ensures r.Success? ==> forall k | 0 <= k < |r.value.0| :: MovieBuiltFrom(r.value.0[k], f, i + k)
    ensures r.Failure? && FormatFaultsOnly(f.awards) && FormatFaultsOnly(f.ratings) && FormatFaultsOnly(f.genres) ==>
              r.error == IndexOutOfBounds || r.error.NumberFormat?
    decreases |f.titles| - i
  {
    if i == |f.titles| then Success(([], next))
    else
      match MovieAt(f, i, next)
      case Failure(e) => Failure(e)
      case Success(built) =>
        match BuildMovies(f, i + 1, next + 1)
        case Failure(e) => Failure(e)
        case Success(rest) =>
          var records := [built] + rest.0;
          ConsIndex(built, rest.0);
          Success((records, rest.1))
  }

  /** `moviesParser`: extraction, then the schema gate, then the record loop. */
  function MoviesParser(file: TextFile, references: JsonFiles, next: int): (r: Result<(seq<Movie>, int), Fault>)
    ensures file.lines.None? ==> r == Failure(IoFault)
    ensures r.Success? ==> file.lines.Some? && references.movies.lines == file.lines
    ensures r.Success? ==>
              |r.value.0| == |StringValues(file.lines.value, "Title")| &&
              MovieIdsFrom(r.value.0, next) && r.value.1 == next + |r.value.0|
    ensures file.lines.Some? && references.movies.lines.Some? && references.movies.lines != file.lines &&
            IntValues(file.lines.value, "Director").Success? ==>
              r == Failure(SchemaFault(SchemaMessage(file.name)))
    ensures r.Success? ==>
              var f := MovieFieldsOf(file.lines.value);
              f.Success? && forall k | 0 <= k < |r.value.0| :: MovieBuiltFrom(r.value.0[k], f.value, k)
    ensures r.Failure? ==>
              r.error == IoFault || r.error == IndexOutOfBounds || r.error.NumberFormat? ||
              r.error == SchemaFault(SchemaMessage(file.name))
  {
    if file.lines.None? then Failure(IoFault)
    else
      var f :- MovieFieldsOf(file.lines.value);
      var valid :- Compare(references.movies, file);
      BuildMovies(f, 0, next)
  }
}

=== FILE: populate_db.dfy ===
/**
 * PopulateDB: the population gate and the six population steps. Each step
 * prepares its entity table, parses its JSON file, inserts one entity row
 * per parsed record, then prepares and fills each of its junction tables.
 * The steps share one `Stage`: the store, the three ID counters, the
 * tables written so far, and the fault that stopped the run if any. Once
 * a fault is set, later steps do nothing, as the exception leaves the
 * sequence in `population`.
 */
module PopulateDb {
  import opened Wrappers
  import opened Faults
  import opened Entities
  import opened JsonTester
  import opened Parsers
  import opened Database
  import opened Junctions

  /** The messages `population` returns; `Text` gives each one's wording. */
  datatype Message = NotCreated | AlreadyPopulated | Populated | DriverProblem | SqlProblem | JsonProblem

  function Text(m: Message): string {
    match m
    case NotCreated => "The tables have not been created. Thus, it cannot be populated"
    case AlreadyPopulated => "The table was already populated. Nothing happened"
    case Populated => "The tables have been populated"
    case DriverProblem => "There is a problem with the drivers. Please check the SQLite Drivers"
    case SqlProblem => "There is an error with the SQL Code of the Population. Please check the SQL Code"
    case JsonProblem => "There has been a problem parsing through the JSON Files. Please check the JSON Files location or integrity"
  }

  datatype Stage = Stage(tables: Tables, counters: Counters, written: seq<string>, fault: Option<Fault>)

  /** The tables each step writes, in the order it writes them. */
  const AwardsLog: seq<string> := ["Awards"]
  const DirectorsLog: seq<string> := ["Director", "awardWinningDirector"]
  const GenresLog: seq<string> := ["Genres"]
  const RatingsLog: seq<string> := ["Ratings"]
  const MoviesLog: seq<string> := ["Movies", "awardWinningMovie", "MoviesWithRatings", "MoviesWithGenres"]
  const ActorsLog: seq<string> := ["Actors", "awardWinningActor", "Cast"]

  /** Every table a complete population writes, in order. */
  const WriteOrder: seq<string> := AwardsLog + DirectorsLog + GenresLog + RatingsLog + MoviesLog + ActorsLog

  /**
   * `preparation` followed by `prepareStatement` on `table`: the driver,
   * then the connection, then the table's existence.
   */
  function Open(env: Env, tables: Tables, table: string): (r: Option<Fault>)
    ensures r.None? <==> env.driverLoaded && env.connects && table in tables
    ensures r.Some? ==> r.value == DriverFault || r.value == SqlFault
    ensures env.driverLoaded ==> r != Some(DriverFault)
  {
    match Preparation(env.(db := Some(tables)))
    case Failure(e) => Some(e)
    case Success(current) => if table in current then None else Some(SqlFault)
  }

  /** The `executeUpdate` loop: the rows appended to `table`, which is recorded as written. */
  function Insert(s: Stage, table: string, rows: seq<Row>): (r: Stage)
    requires table in s.tables
    ensures r.tables == s.tables[table := s.tables[table] + rows]
    ensures r.written == s.written + [table] && r.counters == s.counters && r.fault == s.fault
  {
    s.(tables := s.tables[table := s.tables[table] + rows], written := s.written + [table])
  }

  /** A junction table: prepare its statement, then insert every row. */
  function Write(env: Env, s: Stage, table: string, rows: seq<Row>): (r: Stage)
    ensures s.fault.Some? ==> r == s
    ensures r.counters == s.counters
    ensures s.fault.None? && r.fault.None? ==>
              table in s.tables && r.tables == s.tables[table := s.tables[table] + rows] && r.written == s.written + [table]
    ensures s.fault.None? && r.fault.Some? ==>
              r.tables == s.tables && r.written == s.written && r.fault == Open(env, s.tables, table)
  {
    if s.fault.Some? then s
    else
      match Open(env, s.tables, table)
      case Some(e) => s.(fault := Some(e))
      case None => Insert(s, table, rows)
  }

  /**
   * The shape every step has: nothing happens after a fault; what is
   * written is a prefix of the step's tables, all of them when the step
   * ends without a fault; tables outside the step are untouched and no
   * table is created.
   */
  predicate StepShape(env: Env, s: Stage, r: Stage, log: seq<string>) {
    (s.fault.Some? ==> r == s) &&
    (s.fault.None? ==> |s.written| <= |r.written| <= |s.written| + |log| &&
                       r.written == s.written + log[..|r.written| - |s.written|]) &&
    (s.fault.None? && r.fault.None? ==> r.written == s.written + log) &&
    r.tables.Keys == s.tables.Keys &&
    (forall t | t in s.tables && t !in log :: r.tables[t] == s.tables[t])
  }

  /**
   * A step that stops the run stops it with what preparing one of its
   * statements throws, or, once the driver and the connection are there,
   * with what its parser threw; a step that completes had both.
   */
  predicate FaultFrom<T>(env: Env, parsed: Result<T, Fault>, s: Stage, r: Stage, log: seq<string>) {
    (s.fault.None? && r.fault.Some? ==>
      PrepareFault(env, s.tables, log, r.fault.value) ||
      (parsed.Failure? && r.fault.value == parsed.error && env.driverLoaded && env.connects)) &&
    (s.fault.None? && r.fault.None? ==> env.driverLoaded && env.connects)
  }

  /**
   * What preparing the statements of `log` can throw: the driver failure
   * when the driver is missing, otherwise an SQLException, and only when
   * the connection fails or one of those tables does not exist.
   */
  predicate PrepareFault(env: Env, tables: Tables, log: seq<string>, f: Fault) {
    if !env.driverLoaded then f == DriverFault
    else f == SqlFault && (!env.connects || Missing(tables, log))
  }

  /** Some table of `log` does not exist. */
  predicate Missing(tables: Tables, log: seq<string>) {
    exists t | t in log :: t !in tables
  }

  lemma DistinctLogs()
    ensures Distinct(DirectorsLog) && Distinct(MoviesLog) && Distinct(ActorsLog)
  {
  }

  /** No table name appears twice. */
  predicate Distinct(names: seq<string>) {
    forall i, j | 0 <= i < j < |names| :: names[i] != names[j]
  }

  /**
   * The junction tables of one step, each prepared and filled in turn with
   * its rows; the first table that cannot be prepared stops the rest.
   */
  function WriteEach(env: Env, s: Stage, names: seq<string>, rows: seq<seq<Row>>): (r: Stage)
    requires |names| == |rows|
    ensures StepShape(env, s, r, names)
    ensures r.counters == s.counters
    ensures s.fault.None? && r.fault.None? ==> forall k | 0 <= k < |names| :: names[k] in s.tables
    ensures s.fault.None? && r.fault.None? && Distinct(names) ==>
              forall k | 0 <= k < |names| :: r.tables[names[k]] == s.tables[names[k]] + rows[k]
    decreases |names|
  {
    if |names| == 0 then
      assert s.written + names[..0] == s.written;
      s
    else
      var s1 := Write(env, s, names[0], rows[0]);
      var r := WriteEach(env, s1, names[1..], rows[1..]);
      WriteFirstShape(env, s, s1, r, names, rows);
      WriteFirstTables(env, s, s1, r, names, rows);
      r
  }

  /**
   * `WriteEach` stops only with what preparing one of its tables throws,
   * and writes its tables only with the driver and the connection there.
   */
  lemma {:induction false} WriteEachFault(env: Env, s: Stage, names: seq<string>, rows: seq<seq<Row>>)
    requires |names| == |rows|
    ensures var r := WriteEach(env, s, names, rows);
            (s.fault.None? && r.fault.Some? ==> PrepareFault(env, s.tables, names, r.fault.value)) &&
            (s.fault.None? && r.fault.None? && |names| > 0 ==> env.driverLoaded && env.connects)
    decreases |names|
  {
    if |names| > 0 {
      var s1 := Write(env, s, names[0], rows[0]);
      WriteEachFault(env, s1, names[1..], rows[1..]);
      WriteFirstFault(env, s, s1, WriteEach(env, s1, names[1..], rows[1..]), names, rows);
    }
  }

  /** The fault `WriteEach` stops with, after its first table, from the fault of the rest. */
  lemma WriteFirstFault(env: Env, s: Stage, s1: Stage, r: Stage, names: seq<string>, rows: seq<seq<Row>>)
    requires |names| == |rows| > 0
    requires s1 == Write(env, s, names[0], rows[0])
    requires StepShape(env, s1, r, names[1..])
    requires s1.fault.None? && r.fault.Some? ==> PrepareFault(env, s1.tables, names[1..], r.fault.value)
    ensures s.fault.None? && r.fault.Some? ==> PrepareFault(env, s.tables, names, r.fault.value)
    ensures s.fault.None? && r.fault.None? ==> env.driverLoaded && env.connects
  {
    if s.fault.None? && s1.fault.Some? {
      assert r == s1 && s1.fault == Open(env, s.tables, names[0]);
      if env.driverLoaded && env.connects {
        assert names[0] in names && names[0] !in s.tables;
      }
    } else if s.fault.None? && r.fault.Some? && env.driverLoaded && env.connects {
      var t :| t in names[1..] && t !in s1.tables;
      assert t in names && t !in s.tables;
    }
  }

  /** The shape of `WriteEach` after its first table, from the shape of the rest. */
  lemma WriteFirstShape(env: Env, s: Stage, s1: Stage, r: Stage, names: seq<string>, rows: seq<seq<Row>>)
    requires |names| == |rows| > 0
    requires s1 == Write(env, s, names[0], rows[0])
    requires StepShape(env, s1, r, names[1..])
    ensures StepShape(env, s, r, names)
  {
    if s.fault.None? {
      if s1.fault.Some? {
        assert r == s1 && s1.tables == s.tables && s1.written == s.written;
        assert r.written == s.written + names[..0];
      } else {
        var n0 := names[0];
        assert s1.written == s.written + [n0];
        assert s1.tables == s.tables[n0 := s.tables[n0] + rows[0]];
        var m := |r.written| - |s1.written|;
        assert r.written == s.written + names[..m + 1] by {
          assert r.written == (s.written + [n0]) + names[1..][..m];
          assert [n0] + names[1..][..m] == names[..m + 1];
        }
        if r.fault.None? {
          assert r.written == (s.written + [n0]) + names[1..];
          assert [n0] + names[1..] == names;
        }
        forall t | t in s.tables && t !in names
          ensures r.tables[t] == s.tables[t]
        {
          assert t != n0 && t !in names[1..];
        }
      }
    }
  }

  /** What `WriteEach` appends after its first table, from what it appends to the rest. */
  lemma WriteFirstTables(env: Env, s: Stage, s1: Stage, r: Stage, names: seq<string>, rows: seq<seq<Row>>)
    requires |names| == |rows| > 0
    requires s1 == Write(env, s, names[0], rows[0])
    requires StepShape(env, s1, r, names[1..])
    requires s1.fault.None? && r.fault.None? ==> forall k | 0 <= k < |names[1..]| :: names[1..][k] in s1.tables
    requires s1.fault.None? && r.fault.None? && Distinct(names[1..]) ==>
               forall k | 0 <= k < |names[1..]| :: r.tables[names[1..][k]] == s1.tables[names[1..][k]] + rows[1..][k]
    ensures s.fault.None? && r.fault.None? ==> forall k | 0 <= k < |names| :: names[k] in s.tables
    ensures s.fault.None? && r.fault.None? && Distinct(names) ==>
              forall k | 0 <= k < |names| :: r.tables[names[k]] == s.tables[names[k]] + rows[k]
  {
    if s.fault.None? && r.fault.None? {
      assert s1.fault.None?;
      assert s1.tables == s.tables[names[0] := s.tables[names[0]] + rows[0]];
      forall k | 0 <= k < |names| ensures names[k] in s.tables {
        if k > 0 {
          assert names[1..][k - 1] == names[k];
        }
      }
      if Distinct(names) {
        assert Distinct(names[1..]) by {
          forall i, j | 0 <= i < j < |names[1..]| ensures names[1..][i] != names[1..][j] {
            assert names[1..][i] == names[i + 1] && names[1..][j] == names[j + 1];
          }
        }
        forall k | 0 <= k < |names| ensures r.tables[names[k]] == s.tables[names[k]] + rows[k] {
          if k == 0 {
            assert names[0] !in names[1..] by {
              forall i | 0 <= i < |names[1..]| ensures names[1..][i] != names[0] {
                assert names[1..][i] == names[i + 1];
              }
            }
          } else {
            assert names[1..][k - 1] == names[k] && rows[1..][k - 1] == rows[k];
            assert names[k] != names[0];
          }
        }
      }
    }
  }

  function AwardRows(awards: seq<Award>): (r: seq<Row>)
    ensures |r| == |awards|
    ensures forall k | 0 <= k < |r| :: r[k] == AwardRow(awards[k].institution, awards[k].motive)
  {
    seq(|awards|, k requires 0 <= k < |awards| => AwardRow(awards[k].institution, awards[k].motive))
  }

  function GenreRows(genres: seq<Genre>): (r: seq<Row>)
    ensures |r| == |genres|
    ensures forall k | 0 <= k < |r| :: r[k] == GenreRow(genres[k].genreName)
  {
    seq(|genres|, k requires 0 <= k < |genres| => GenreRow(genres[k].genreName))
  }

  function RatingRows(ratings: seq<Rating>): (r: seq<Row>)
    ensures |r| == |ratings|
    ensures forall k | 0 <= k < |r| :: r[k] == RatingRow(ratings[k].criticSource, ratings[k].rating)
  {
    seq(|ratings|, k requires 0 <= k < |ratings| => RatingRow(ratings[k].criticSource, ratings[k].rating))
  }

  function DirectorRows(directors: seq<Director>): (r: seq<Row>)
    ensures |r| == |directors|
    ensures forall k | 0 <= k < |r| :: r[k] == DirectorRow(directors[k].name, directors[k].movieCount)
  {
    seq(|directors|, k requires 0 <= k < |directors| => DirectorRow(directors[k].name, directors[k].movieCount))
  }

  /** Movie rows bind name, release date, plot, running time and director, in that column order. */
  function MovieRows(movies: seq<Movie>): (r: seq<Row>)
    ensures |r| == |movies|
    ensures forall k | 0 <= k < |r| ::
              r[k] == MovieRow(movies[k].title, movies[k].releaseDate, movies[k].plotSummary,
                               movies[k].runningTime, movies[k].directorId)
  {
    seq(|movies|, k requires 0 <= k < |movies| =>
      MovieRow(movies[k].title, movies[k].releaseDate, movies[k].plotSummary, movies[k].runningTime, movies[k].directorId))
  }

  function ActorRows(actors: seq<Actor>): (r: seq<Row>)
    ensures |r| == |actors|
    ensures forall k | 0 <= k < |r| :: r[k] == ActorRow(actors[k].name, actors[k].age, actors[k].birthday)
  {
    seq(|actors|, k requires 0 <= k < |actors| => ActorRow(actors[k].name, actors[k].age, actors[k].birthday))
  }

  /** Each record's in-memory ID paired with one of its ID lists. */
  function DirectorAwards(directors: seq<Director>): (r: seq<Relation>)
    ensures |r| == |directors|
    ensures forall k | 0 <= k < |r| :: r[k] == Relation(directors[k].id, directors[k].awardIds)
  {
    seq(|directors|, k requires 0 <= k < |directors| => Relation(directors[k].id, directors[k].awardIds))
  }

  function MovieAwards(movies: seq<Movie>): (r: seq<Relation>)
    ensures |r| == |movies|
    ensures forall k | 0 <= k < |r| :: r[k] == Relation(movies[k].id, movies[k].awardIds)
  {
    seq(|movies|, k requires 0 <= k < |movies| => Relation(movies[k].id, movies[k].awardIds))
  }

  function MovieRatings(movies: seq<Movie>): (r: seq<Relation>)
    ensures |r| == |movies|
    ensures forall k | 0 <= k < |r| :: r[k] == Relation(movies[k].id, movies[k].ratingIds)
  {
    seq(|movies|, k requires 0 <= k < |movies| => Relation(movies[k].id, movies[k].ratingIds))
  }

  function MovieGenres(movies: seq<Movie>): (r: seq<Relation>)
    ensures |r| == |movies|
    ensures forall k | 0 <= k < |r| :: r[k] == Relation(movies[k].id, movies[k].genreIds)
  {
    seq(|movies|, k requires 0 <= k < |movies| => Relation(movies[k].id, movies[k].genreIds))
  }

  function ActorAwards(actors: seq<Actor>): (r: seq<Relation>)
    ensures |r| == |actors|
    ensures forall k | 0 <= k < |r| :: r[k] == Relation(actors[k].id, actors[k].awardIds)
  {
    seq(|actors|, k requires 0 <= k < |actors| => Relation(actors[k].id, actors[k].awardIds))
  }

  function ActorMovies(actors: seq<Actor>): (r: seq<Relation>)
    ensures |r| == |actors|
    ensures forall k | 0 <= k < |r| :: r[k] == Relation(actors[k].id, actors[k].movieIds)
  {
    seq(|actors|, k requires 0 <= k < |actors| => Relation(actors[k].id, actors[k].movieIds))
  }

  /** The failure a parser reports, as the stage records it. */
  function Stopped(s: Stage, e: Fault): Stage {
    s.(fault := Some(e))
  }

  /** A step stopped by preparing its entity table stops with what `Open` throws. */
  lemma OpenFault<T>(env: Env, parsed: Result<T, Fault>, s: Stage, head: string, log: seq<string>)
    requires s.fault.None? && head in log && Open(env, s.tables, head).Some?
    ensures FaultFrom(env, parsed, s, Stopped(s, Open(env, s.tables, head).value), log)
  {
    if env.driverLoaded && env.connects {
      assert head !in s.tables;
    }
  }

  /** A step stopped by its parser stops after its entity table was prepared. */
  lemma ParseFault<T>(env: Env, parsed: Result<T, Fault>, s: Stage, head: string, log: seq<string>)
    requires s.fault.None? && Open(env, s.tables, head).None? && parsed.Failure?
    ensures FaultFrom(env, parsed, s, Stopped(s, parsed.error), log)
  {
  }

  /** A step that reaches its writes stops, if at all, where `WriteEach` stops. */
  lemma WriteFault<T>(env: Env, parsed: Result<T, Fault>, s: Stage, s': Stage, r: Stage,
                      head: string, log: seq<string>, rows: seq<seq<Row>>)
    requires s.fault.None? && Open(env, s.tables, head).None? && |log| == |rows|
    requires s'.fault.None? && s'.tables == s.tables && r == WriteEach(env, s', log, rows)
    ensures FaultFrom(env, parsed, s, r, log)
  {
    WriteEachFault(env, s', log, rows);
  }

  /** `populateAwards`. */
  function AwardsStep(env: Env, parsed: Result<seq<Award>, Fault>, s: Stage): (r: Stage)
    ensures StepShape(env, s, r, AwardsLog)
    ensures r.counters == s.counters
    ensures s.fault.None? && r.fault.None? ==>
              parsed.Success? && "Awards" in s.tables &&
              r.tables["Awards"] == s.tables["Awards"] + AwardRows(parsed.value)
  {
    if s.fault.Some? then s
    else
      match Open(env, s.tables, "Awards")
      case Some(e) => Stopped(s, e)
      case None =>
        match parsed
        case Failure(e) => Stopped(s, e)
        case Success(awards) =>
          WriteEach(env, s, AwardsLog, [AwardRows(awards)])
  }

  /** `populateAwards` stops only where preparing one of its statements or the award parser throws. */
  lemma AwardsStepFault(env: Env, parsed: Result<seq<Award>, Fault>, s: Stage)
    ensures FaultFrom(env, parsed, s, AwardsStep(env, parsed, s), AwardsLog)
  {
    if s.fault.None? && Open(env, s.tables, "Awards").None? && parsed.Success? {
      var awards := parsed.value;
      var rows := [AwardRows(awards)];
      WriteFault(env, parsed, s, s, WriteEach(env, s, AwardsLog, rows), "Awards", AwardsLog, rows);
    } else if s.fault.None? && Open(env, s.tables, "Awards").Some? {
      OpenFault(env, parsed, s, "Awards", AwardsLog);
    } else if s.fault.None? {
      ParseFault(env, parsed, s, "Awards", AwardsLog);
    }
  }

  /** `populateDirectors`: the Director rows, then awardWinningDirector. */
  function DirectorsStep(env: Env, parsed: Result<(seq<Director>, int), Fault>, s: Stage): (r: Stage)
    ensures StepShape(env, s, r, DirectorsLog)
    ensures r.counters.actor == s.counters.actor && r.counters.movie == s.counters.movie
    ensures s.fault.None? && r.fault.None? ==>
              parsed.Success? && r.counters.director == parsed.value.1 &&
              "Director" in s.tables && "awardWinningDirector" in s.tables &&
              r.tables["Director"] == s.tables["Director"] + DirectorRows(parsed.value.0) &&
              r.tables["awardWinningDirector"] == s.tables["awardWinningDirector"] + AllLinks(DirectorAwards(parsed.value.0))
  {
    if s.fault.Some? then s
    else
      match Open(env, s.tables, "Director")
      case Some(e) => Stopped(s, e)
      case None =>
        match parsed
        case Failure(e) => Stopped(s, e)
        case Success((directors, next)) =>
          DistinctLogs();
          var s' := s.(counters := s.counters.(director := next));
          var rows := [DirectorRows(directors), AllLinks(DirectorAwards(directors))];
          WriteEach(env, s', DirectorsLog, rows)
  }

  /** `populateDirectors` stops only where preparing one of its statements or the director parser throws. */
  lemma DirectorsStepFault(env: Env, parsed: Result<(seq<Director>, int), Fault>, s: Stage)
    ensures FaultFrom(env, parsed, s, DirectorsStep(env, parsed, s), DirectorsLog)
  {
    if s.fault.None? && Open(env, s.tables, "Director").None? && parsed.Success? {
      var (directors, next) := parsed.value;
      var s' := s.(counters := s.counters.(director := next));
      var rows := [DirectorRows(directors), AllLinks(DirectorAwards(directors))];
      WriteFault(env, parsed, s, s', WriteEach(env, s', DirectorsLog, rows), "Director", DirectorsLog, rows);
    } else if s.fault.None? && Open(env, s.tables, "Director").Some? {
      OpenFault(env, parsed, s, "Director", DirectorsLog);
    } else if s.fault.None? {
      ParseFault(env, parsed, s, "Director", DirectorsLog);
    }
  }

  /** `populateGenres`. */
  function GenresStep(env: Env, parsed: Result<seq<Genre>, Fault>, s: Stage): (r: Stage)
    ensures StepShape(env, s, r, GenresLog)
    ensures r.counters == s.counters
    ensures s.fault.None? && r.fault.None? ==>
              parsed.Success? && "Genres" in s.tables &&
              r.tables["Genres"] == s.tables["Genres"] + GenreRows(parsed.value)
  {
    if s.fault.Some? then s
    else
      match Open(env, s.tables, "Genres")
      case Some(e) => Stopped(s, e)
      case None =>
        match parsed
        case Failure(e) => Stopped(s, e)
        case Success(genres) =>
          WriteEach(env, s, GenresLog, [GenreRows(genres)])
  }

  /** `populateGenres` stops only where preparing one of its statements or the genre parser throws. */
  lemma GenresStepFault(env: Env, parsed: Result<seq<Genre>, Fault>, s: Stage)
    ensures FaultFrom(env, parsed, s, GenresStep(env, parsed, s), GenresLog)
  {
    if s.fault.None? && Open(env, s.tables, "Genres").None? && parsed.Success? {
      var genres := parsed.value;
      var rows := [GenreRows(genres)];
      WriteFault(env, parsed, s, s, WriteEach(env, s, GenresLog, rows), "Genres", GenresLog, rows);
    } else if s.fault.None? && Open(env, s.tables, "Genres").Some? {
      OpenFault(env, parsed, s, "Genres", GenresLog);
    } else if s.fault.None? {
      ParseFault(env, parsed, s, "Genres", GenresLog);
    }
  }

  /** `populateRatings`. */
  function RatingsStep(env: Env, parsed: Result<seq<Rating>, Fault>, s: Stage): (r: Stage)
    ensures StepShape(env, s, r, RatingsLog)
    ensures r.counters == s.counters
    ensures s.fault.None? && r.fault.None? ==>
              parsed.Success? && "Ratings" in s.tables &&
              r.tables["Ratings"] == s.tables["Ratings"] + RatingRows(parsed.value)
  {
    if s.fault.Some? then s
    else
      match Open(env, s.tables, "Ratings")
      case Some(e) => Stopped(s, e)
      case None =>
        match parsed
        case Failure(e) => Stopped(s, e)
        case Success(ratings) =>
          WriteEach(env, s, RatingsLog, [RatingRows(ratings)])
  }

  /** `populateRatings` stops only where preparing one of its statements or the rating parser throws. */
  lemma RatingsStepFault(env: Env, parsed: Result<seq<Rating>, Fault>, s: Stage)
    ensures FaultFrom(env, parsed, s, RatingsStep(env, parsed, s), RatingsLog)
  {
    if s.fault.None? && Open(env, s.tables, "Ratings").None? && parsed.Success? {
      var ratings := parsed.value;
      var rows := [RatingRows(ratings)];
      WriteFault(env, parsed, s, s, WriteEach(env, s, RatingsLog, rows), "Ratings", RatingsLog, rows);
    } else if s.fault.None? && Open(env, s.tables, "Ratings").Some? {
      OpenFault(env, parsed, s, "Ratings", RatingsLog);
    } else if s.fault.None? {
      ParseFault(env, parsed, s, "Ratings", RatingsLog);
    }
  }

  /** `populateMovies`: the Movies rows, then awardWinningMovie, MoviesWithRatings and MoviesWithGenres. */
  function MoviesStep(env: Env, parsed: Result<(seq<Movie>, int), Fault>, s: Stage): (r: Stage)
    ensures StepShape(env, s, r, MoviesLog)
    ensures r.counters.actor == s.counters.actor && r.counters.director == s.counters.director
    ensures s.fault.None? && r.fault.None? ==>
              parsed.Success? && r.counters.movie == parsed.value.1 &&
              "Movies" in s.tables && "awardWinningMovie" in s.tables &&
              "MoviesWithRatings" in s.tables && "MoviesWithGenres" in s.tables &&
              r.tables["Movies"] == s.tables["Movies"] + MovieRows(parsed.value.0) &&
              r.tables["awardWinningMovie"] == s.tables["awardWinningMovie"] + AllLinks(MovieAwards(parsed.value.0)) &&
              r.tables["MoviesWithRatings"] == s.tables["MoviesWithRatings"] + AllLinks(MovieRatings(parsed.value.0)) &&
              r.tables["MoviesWithGenres"] == s.tables["MoviesWithGenres"] + AllLinks(MovieGenres(parsed.value.0))
  {
    if s.fault.Some? then s
    else
      match Open(env, s.tables, "Movies")
      case Some(e) => Stopped(s, e)
      case None =>
        match parsed
        case Failure(e) => Stopped(s, e)
        case Success((movies, next)) => FillMovies(env, s.(counters := s.counters.(movie := next)), movies)
  }

  /** The four statements of `populateMovies` once the Movies table is prepared. */
  function FillMovies(env: Env, s: Stage, movies: seq<Movie>): (r: Stage)
    ensures r == WriteEach(env, s, MoviesLog, MovieTables(movies))
    ensures StepShape(env, s, r, MoviesLog) && r.counters == s.counters
    ensures s.fault.None? && r.fault.None? ==>
              "Movies" in s.tables && "awardWinningMovie" in s.tables &&
              "MoviesWithRatings" in s.tables && "MoviesWithGenres" in s.tables &&
              r.tables["Movies"] == s.tables["Movies"] + MovieRows(movies) &&
              r.tables["awardWinningMovie"] == s.tables["awardWinningMovie"] + AllLinks(MovieAwards(movies)) &&
              r.tables["MoviesWithRatings"] == s.tables["MoviesWithRatings"] + AllLinks(MovieRatings(movies)) &&
              r.tables["MoviesWithGenres"] == s.tables["MoviesWithGenres"] + AllLinks(MovieGenres(movies))
  {
    var rows := MovieTables(movies);
    var r := WriteEach(env, s, MoviesLog, rows);
    DistinctLogs();
    assert MoviesLog[0] == "Movies" && MoviesLog[1] == "awardWinningMovie" &&
           MoviesLog[2] == "MoviesWithRatings" && MoviesLog[3] == "MoviesWithGenres";
    assert rows[1] == AllLinks(MovieAwards(movies));
    r
  }

  /** The rows of the four tables `populateMovies` writes, in order. */
  function MovieTables(movies: seq<Movie>): seq<seq<Row>> {
    [MovieRows(movies), AllMovieAwardLinks(MovieAwards(movies)),
     AllLinks(MovieRatings(movies)), AllLinks(MovieGenres(movies))]
  }

  /** `populateMovies` stops only where preparing one of its statements or the movie parser throws. */
  lemma MoviesStepFault(env: Env, parsed: Result<(seq<Movie>, int), Fault>, s: Stage)
    ensures FaultFrom(env, parsed, s, MoviesStep(env, parsed, s), MoviesLog)
  {
    if s.fault.None? && Open(env, s.tables, "Movies").None? && parsed.Success? {
      var (movies, next) := parsed.value;
      var s' := s.(counters := s.counters.(movie := next));
      var rows := MovieTables(movies);
      WriteFault(env, parsed, s, s', WriteEach(env, s', MoviesLog, rows), "Movies", MoviesLog, rows);
    } else if s.fault.None? && Open(env, s.tables, "Movies").Some? {
      OpenFault(env, parsed, s, "Movies", MoviesLog);
    } else if s.fault.None? {
      ParseFault(env, parsed, s, "Movies", MoviesLog);
    }
  }

  /** `populateActors`: the Actors rows, then awardWinningActor and Cast. */
  function ActorsStep(env: Env, parsed: Result<(seq<Actor>, int), Fault>, s: Stage): (r: Stage)
    ensures StepShape(env, s, r, ActorsLog)
    ensures r.counters.movie == s.counters.movie && r.counters.director == s.counters.director
    ensures s.fault.None? && r.fault.None? ==>
              parsed.Success? && r.counters.actor == parsed.value.1 &&
              "Actors" in s.tables && "awardWinningActor" in s.tables && "Cast" in s.tables &&
              r.tables["Actors"] == s.tables["Actors"] + ActorRows(parsed.value.0) &&
              r.tables["awardWinningActor"] == s.tables["awardWinningActor"] + AllLinks(ActorAwards(parsed.value.0)) &&
              r.tables["Cast"] == s.tables["Cast"] + AllLinks(ActorMovies(parsed.value.0))
  {
    if s.fault.Some? then s
    else
      match Open(env, s.tables, "Actors")
      case Some(e) => Stopped(s, e)
      case None =>
        match parsed
        case Failure(e) => Stopped(s, e)
        case Success((actors, next)) =>
          DistinctLogs();
          var s' := s.(counters := s.counters.(actor := next));
          var rows := [ActorRows(actors), AllLinks(ActorAwards(actors)), AllLinks(ActorMovies(actors))];
          WriteEach(env, s', ActorsLog, rows)
  }

  /** `populateActors` stops only where preparing one of its statements or the actor parser throws. */
  lemma ActorsStepFault(env: Env, parsed: Result<(seq<Actor>, int), Fault>, s: Stage)
    ensures FaultFrom(env, parsed, s, ActorsStep(env, parsed, s), ActorsLog)
  {
    if s.fault.None? && Open(env, s.tables, "Actors").None? && parsed.Success? {
      var (actors, next) := parsed.value;
      var s' := s.(counters := s.counters.(actor := next));
      var rows := [ActorRows(actors), AllLinks(ActorAwards(actors)), AllLinks(ActorMovies(actors))];
      WriteFault(env, parsed, s, s', WriteEach(env, s', ActorsLog, rows), "Actors", ActorsLog, rows);
    } else if s.fault.None? && Open(env, s.tables, "Actors").Some? {
      OpenFault(env, parsed, s, "Actors", ActorsLog);
    } else if s.fault.None? {
      ParseFault(env, parsed, s, "Actors", ActorsLog);
    }
  }

  /** What the six parsers return. */
  datatype Parses = Parses(
    awards: Result<seq<Award>, Fault>,
    directors: Result<(seq<Director>, int), Fault>,
    genres: Result<seq<Genre>, Fault>,
    ratings: Result<seq<Rating>, Fault>,
    movies: Result<(seq<Movie>, int), Fault>,
    actors: Result<(seq<Actor>, int), Fault>)

  /**
   * The parsers run on the six files, each from its own counter. Parsing
   * reads nothing the steps write, and each step moves only its own counter
   * (`CountersSeenByParsers`), so each parser sees its counter as it was
   * when the run began.
   */
  function ParseFiles(files: JsonFiles, refs: JsonFiles, counters: Counters): Parses {
    Parses(AwardsParser(files.awards, refs),
           DirectorsParser(files.directors, refs, counters.director),
           GenreParser(files.genres, refs),
           RatingsParser(files.ratings, refs),
           MoviesParser(files.movies, refs, counters.movie),
           ActorParser(files.actors, refs, counters.actor))
  }

  /**
   * The six steps in the order `population` calls them. A step looks at its
   * parse only once its entity table is prepared.
   */
  function Run(env: Env, p: Parses, s: Stage): Stage {
    var s1 := AwardsStep(env, p.awards, s);
    var s2 := DirectorsStep(env, p.directors, s1);
    var s3 := GenresStep(env, p.genres, s2);
    var s4 := RatingsStep(env, p.ratings, s3);
    var s5 := MoviesStep(env, p.movies, s4);
    ActorsStep(env, p.actors, s5)
  }

  /**
   * The counter each parser reads when its step begins is the one the run
   * started with, and the run moves each counter only by its own step.
   */
  lemma CountersSeenByParsers(env: Env, p: Parses, s: Stage)
    ensures var s1 := AwardsStep(env, p.awards, s);
            var s2 := DirectorsStep(env, p.directors, s1);
            var s4 := RatingsStep(env, p.ratings, GenresStep(env, p.genres, s2));
            var s5 := MoviesStep(env, p.movies, s4);
            s1.counters.director == s.counters.director &&
            s4.counters.movie == s.counters.movie &&
            s5.counters.actor == s.counters.actor
  {
  }

  /** What `population` does with the outcome: a returned message, or an exception it does not catch. */
  datatype Outcome = Returned(message: Message) | Threw(fault: Fault)

  /** The three caught exception kinds become messages; the rest escape. */
  function Caught(e: Fault): (r: Outcome)
    ensures r.Threw? <==> !(e == DriverFault || e == SqlFault || e == IoFault)
    ensures r.Returned? ==> r.message == DriverProblem || r.message == SqlProblem || r.message == JsonProblem
    ensures r == Returned(DriverProblem) <==> e == DriverFault
    ensures e == SqlFault ==> r == Returned(SqlProblem)
    ensures e == IoFault ==> r == Returned(JsonProblem)
    ensures r.Threw? ==> r.fault == e
  {
    match e
    case DriverFault => Returned(DriverProblem)
    case SqlFault => Returned(SqlProblem)
    case IoFault => Returned(JsonProblem)
    case _ => Threw(e)
  }

  /** The outcome, the store afterwards, the counters afterwards and the tables written, in order. */
  datatype PopulationRun = PopulationRun(outcome: Outcome, env: Env, counters: Counters, written: seq<string>)

  /**
   * `population`: the store must have tables and exist; the Actors table
   * must be empty; then the six steps run in order until one fails. `p` is
   * what the parsers return on the six files (`PopulationOfFiles`); a step
   * looks at its parse only when it is reached.
   */
  function Population(env: Env, p: Parses, counters: Counters): (r: PopulationRun)
    ensures r.outcome == Returned(NotCreated) <==> EmptyDbChecker(env)
    ensures r.outcome == Returned(AlreadyPopulated) <==>
              !EmptyDbChecker(env) && PopulatedTableChecker(env) == Success(true)
    ensures r.outcome == Returned(Populated) ==>
              !EmptyDbChecker(env) && PopulatedTableChecker(env) == Success(false)
    ensures r.outcome == Returned(NotCreated) || r.outcome == Returned(AlreadyPopulated) ==>
              r.env == env && r.counters == counters && r.written == []
    ensures r.env.driverLoaded == env.driverLoaded && r.env.connects == env.connects
    ensures r.written != [] ==> env.db.Some? && r.env.db.Some? && r.env.db.value.Keys == env.db.value.Keys
    ensures r.env.db.Some? <==> env.db.Some?
    ensures env.db.Some? ==> r.env.db.value.Keys == env.db.value.Keys
    ensures !EmptyDbChecker(env) && PopulatedTableChecker(env) == Success(false) ==>
              r == Finish(env, Run(env, p, Stage(env.db.value, counters, [], None)))
    ensures !EmptyDbChecker(env) && PopulatedTableChecker(env).Failure? ==>
              r.outcome == Caught(PopulatedTableChecker(env).error) && r.env == env && r.written == []
  {
    if !EmptyDbChecker(env) && env.db.Some? then
      match PopulatedTableChecker(env)
      case Failure(e) => PopulationRun(Caught(e), env, counters, [])
      case Success(populated) =>
        if populated then PopulationRun(Returned(AlreadyPopulated), env, counters, [])
        else Finish(env, Run(env, p, Stage(env.db.value, counters, [], None)))
    else PopulationRun(Returned(NotCreated), env, counters, [])
  }

  /** The end of a run that got past the gates: the store holds what the steps wrote. */
  function Finish(env: Env, s: Stage): (r: PopulationRun)
    ensures r.outcome == Returned(Populated) <==> s.fault.None?
    ensures r.env == env.(db := Some(s.tables)) && r.counters == s.counters && r.written == s.written
    ensures s.fault.Some? ==> r.outcome == Caught(s.fault.value)
  {
    var outcome := if s.fault.None? then Returned(Populated) else Caught(s.fault.value);
    PopulationRun(outcome, env.(db := Some(s.tables)), s.counters, s.written)
  }

  /** `population` on the six JSON files, checked against the reference files. */
  function PopulationOfFiles(env: Env, files: JsonFiles, refs: JsonFiles, counters: Counters): PopulationRun {
    Population(env, ParseFiles(files, refs, counters), counters)
  }

  /** `written` is a prefix of `done`, and all of it while no fault has stopped the run. */
  predicate Progress(st: Stage, done: seq<string>) {
    |st.written| <= |done| && st.written == done[..|st.written|] &&
    (st.fault.None? ==> st.written == done)
  }

  /** A step extends the progress of the run by its own tables. */
  lemma {:induction false} StepProgress(env: Env, s: Stage, r: Stage, done: seq<string>, log: seq<string>)
    requires Progress(s, done) && StepShape(env, s, r, log)
    ensures Progress(r, done + log)
  {
    if s.fault.None? {
      assert (done + log)[..|r.written|] == done + log[..|r.written| - |s.written|];
    } else {
      assert (done + log)[..|r.written|] == done[..|r.written|];
    }
  }

  /** The six steps write a prefix of `WriteOrder`, and all of it when none fails. */
  lemma RunProgress(env: Env, p: Parses, s: Stage)
    requires s.fault.None? && s.written == []
    ensures Progress(Run(env, p, s), WriteOrder)
  {
    var s1 := AwardsStep(env, p.awards, s);
    var s2 := DirectorsStep(env, p.directors, s1);
    var s3 := GenresStep(env, p.genres, s2);
    var s4 := RatingsStep(env, p.ratings, s3);
    var s5 := MoviesStep(env, p.movies, s4);
    var s6 := ActorsStep(env, p.actors, s5);
    StepProgress(env, s, s1, [], AwardsLog);
    assert [] + AwardsLog == AwardsLog;
    StepProgress(env, s1, s2, AwardsLog, DirectorsLog);
    StepProgress(env, s2, s3, AwardsLog + DirectorsLog, GenresLog);
    StepProgress(env, s3, s4, AwardsLog + DirectorsLog + GenresLog, RatingsLog);
    StepProgress(env, s4, s5, AwardsLog + DirectorsLog + GenresLog + RatingsLog, MoviesLog);
    StepProgress(env, s5, s6, AwardsLog + DirectorsLog + GenresLog + RatingsLog + MoviesLog, ActorsLog);
  }

  /**
   * The tables a population writes are a prefix of `WriteOrder`, all of it
   * when it reports success, and none when it stops at a gate.
   */
  lemma PopulationWritesInOrder(env: Env, p: Parses, counters: Counters)
    ensures var r := Population(env, p, counters);
            |r.written| <= |WriteOrder| && r.written == WriteOrder[..|r.written|] &&
            (r.outcome == Returned(Populated) ==> r.written == WriteOrder)
  {
    var r := Population(env, p, counters);
    if !EmptyDbChecker(env) && env.db.Some? && PopulatedTableChecker(env) == Success(false) {
      var start := Stage(env.db.value, counters, [], None);
      RunProgress(env, p, start);
      assert r == Finish(env, Run(env, p, start));
    } else {
      assert r.written == [];
    }
  }

  /** Every parser returned its records. */
  predicate AllParsed(p: Parses) {
    p.awards.Success? && p.directors.Success? && p.genres.Success? &&
    p.ratings.Success? && p.movies.Success? && p.actors.Success?
  }

  /** Every table of `log` exists. */
  predicate Present(tables: Tables, log: seq<string>) {
    forall t | t in log :: t in tables
  }

  lemma WriteOrderPresent(tables: Tables)
    ensures Present(tables, WriteOrder) <==>
              Present(tables, AwardsLog) && Present(tables, DirectorsLog) && Present(tables, GenresLog) &&
              Present(tables, RatingsLog) && Present(tables, MoviesLog) && Present(tables, ActorsLog)
  {
    assert WriteOrder == ["Awards", "Director", "awardWinningDirector", "Genres", "Ratings", "Movies",
                          "awardWinningMovie", "MoviesWithRatings", "MoviesWithGenres",
                          "Actors", "awardWinningActor", "Cast"];
  }

  /**
   * A step that starts without a fault, with the driver and the connection
   * there, all of its tables present and its parse successful completes,
   * and leaves the table set as it was.
   */
  lemma StepCompletes<T>(env: Env, parsed: Result<T, Fault>, s: Stage, r: Stage, log: seq<string>)
    requires s.fault.None? && env.driverLoaded && env.connects && Present(s.tables, log) && parsed.Success?
    requires StepShape(env, s, r, log) && FaultFrom(env, parsed, s, r, log)
    ensures r.fault.None? && r.tables.Keys == s.tables.Keys
  {
  }

  /** The six steps complete when every table of `WriteOrder` exists and every parse succeeds. */
  lemma RunCompletes(env: Env, p: Parses, s: Stage)
    requires s.fault.None? && env.driverLoaded && env.connects && AllParsed(p)
    requires Present(s.tables, WriteOrder)
    ensures Run(env, p, s).fault.None?
  {
    WriteOrderPresent(s.tables);
    var s1 := AwardsStep(env, p.awards, s);
    AwardsStepFault(env, p.awards, s);
    StepCompletes(env, p.awards, s, s1, AwardsLog);
    var s2 := DirectorsStep(env, p.directors, s1);
    DirectorsStepFault(env, p.directors, s1);
    StepCompletes(env, p.directors, s1, s2, DirectorsLog);
    var s3 := GenresStep(env, p.genres, s2);
    GenresStepFault(env, p.genres, s2);
    StepCompletes(env, p.genres, s2, s3, GenresLog);
    var s4 := RatingsStep(env, p.ratings, s3);
    RatingsStepFault(env, p.ratings, s3);
    StepCompletes(env, p.ratings, s3, s4, RatingsLog);
    var s5 := MoviesStep(env, p.movies, s4);
    MoviesStepFault(env, p.movies, s4);
    StepCompletes(env, p.movies, s4, s5, MoviesLog);
    ActorsStepFault(env, p.actors, s5);
    StepCompletes(env, p.actors, s5, ActorsStep(env, p.actors, s5), ActorsLog);
  }

  /** The six steps complete only when every table of `WriteOrder` exists and every parse succeeds. */
  lemma RunNeeds(env: Env, p: Parses, s: Stage)
    requires s.fault.None?
    ensures Run(env, p, s).fault.None? ==>
              env.driverLoaded && env.connects && AllParsed(p) && Present(s.tables, WriteOrder)
  {
    var s1 := AwardsStep(env, p.awards, s);
    var s2 := DirectorsStep(env, p.directors, s1);
    var s3 := GenresStep(env, p.genres, s2);
    var s4 := RatingsStep(env, p.ratings, s3);
    var s5 := MoviesStep(env, p.movies, s4);
    if ActorsStep(env, p.actors, s5).fault.Some? {
      return;
    }
    assert s5.fault.None? && s4.fault.None? && s3.fault.None? && s2.fault.None? && s1.fault.None?;
    assert s5.tables.Keys == s4.tables.Keys == s3.tables.Keys == s2.tables.Keys == s1.tables.Keys == s.tables.Keys;
    AwardsStepFault(env, p.awards, s);
    WriteOrderPresent(s.tables);
  }

  /**
   * A population reports success exactly when the gates pass (tables
   * exist, Actors is empty), every parse succeeds and every table the run
   * writes exists.
   */
  lemma PopulatedExactly(env: Env, p: Parses, counters: Counters)
    ensures Population(env, p, counters).outcome == Returned(Populated) <==>
              !EmptyDbChecker(env) && PopulatedTableChecker(env) == Success(false) &&
              AllParsed(p) && Present(env.db.value, WriteOrder)
  {
    if !EmptyDbChecker(env) && PopulatedTableChecker(env) == Success(false) {
      var start := Stage(env.db.value, counters, [], None);
      if AllParsed(p) && Present(env.db.value, WriteOrder) {
        RunCompletes(env, p, start);
      }
      RunNeeds(env, p, start);
    }
  }

  /** No parse result is the driver failure. */
  predicate NoDriverFault(p: Parses) {
    (p.awards.Failure? ==> p.awards.error != DriverFault) &&
    (p.directors.Failure? ==> p.directors.error != DriverFault) &&
    (p.genres.Failure? ==> p.genres.error != DriverFault) &&
    (p.ratings.Failure? ==> p.ratings.error != DriverFault) &&
    (p.movies.Failure? ==> p.movies.error != DriverFault) &&
    (p.actors.Failure? ==> p.actors.error != DriverFault)
  }

  /** The parsers throw only IO, format, index and schema failures. */
  lemma ParsersNeverDriverFault(files: JsonFiles, refs: JsonFiles, counters: Counters)
    ensures NoDriverFault(ParseFiles(files, refs, counters))
  {
    var p := ParseFiles(files, refs, counters);
    assert p.awards == AwardsParser(files.awards, refs);
    assert p.directors == DirectorsParser(files.directors, refs, counters.director);
    assert p.genres == GenreParser(files.genres, refs);
    assert p.ratings == RatingsParser(files.ratings, refs);
    assert p.movies == MoviesParser(files.movies, refs, counters.movie);
    assert p.actors == ActorParser(files.actors, refs, counters.actor);
  }

  /** With the driver loaded, no step fails for want of it. */
  lemma RunKeepsDriver(env: Env, p: Parses, s: Stage)
    requires env.driverLoaded && s.fault.None? && NoDriverFault(p)
    ensures Run(env, p, s).fault != Some(DriverFault)
  {
    var s1 := AwardsStep(env, p.awards, s);
    AwardsStepFault(env, p.awards, s);
    var s2 := DirectorsStep(env, p.directors, s1);
    DirectorsStepFault(env, p.directors, s1);
    var s3 := GenresStep(env, p.genres, s2);
    GenresStepFault(env, p.genres, s2);
    var s4 := RatingsStep(env, p.ratings, s3);
    RatingsStepFault(env, p.ratings, s3);
    var s5 := MoviesStep(env, p.movies, s4);
    MoviesStepFault(env, p.movies, s4);
    ActorsStepFault(env, p.actors, s5);
  }

  /**
   * The driver message of `population` is never returned when no parse
   * failed for want of the driver: a missing driver makes `emptyDBChecker`
   * answer true first, so the run stops at the not-created gate.
   */
  lemma DriverMessageNeedsDriverFault(env: Env, p: Parses, counters: Counters)
    requires NoDriverFault(p)
    ensures Population(env, p, counters).outcome != Returned(DriverProblem)
  {
    var r := Population(env, p, counters);
    if !EmptyDbChecker(env) {
      assert env.driverLoaded && env.db.Some?;
      match PopulatedTableChecker(env)
      case Failure(e) =>
        assert r.outcome == Caught(e);
      case Success(populated) =>
        if !populated {
          var s := Run(env, p, Stage(env.db.value, counters, [], None));
          RunKeepsDriver(env, p, Stage(env.db.value, counters, [], None));
          assert r.outcome == if s.fault.None? then Returned(Populated) else Caught(s.fault.value);
        }
    }
  }

  /** On the six files the driver message of `population` is never returned. */
  lemma DriverMessageUnreachable(env: Env, files: JsonFiles, refs: JsonFiles, counters: Counters)
    ensures PopulationOfFiles(env, files, refs, counters).outcome != Returned(DriverProblem)
  {
    ParsersNeverDriverFault(files, refs, counters);
    DriverMessageNeedsDriverFault(env, ParseFiles(files, refs, counters), counters);
  }

  /** A store whose tables all exist and hold no rows, as the DDL leaves it. */
  predicate EmptyStore(env: Env) {
    env.db.Some? && forall t | t in env.db.value :: env.db.value[t] == []
  }

  /**
   * `junction` links the records `rels` and nothing else: `entity` holds
   * exactly `rows`, one per record in order, so the record at index `k`
   * gets the ID `FirstId + k` from SQLite; every row of `junction` pairs
   * such an ID with an ID that record lists, and every ID each record
   * lists is linked to it.
   */
  predicate Wired(tables: Tables, junction: string, entity: string, rows: seq<Row>, rels: seq<Relation>) {
    junction in tables && entity in tables && tables[entity] == rows && |rows| == |rels| &&
    LinksSound(tables[junction], rels, FirstId) && LinksComplete(tables[junction], rels, FirstId)
  }

  /** Every parsed record's ID counts from `FirstId`. */
  predicate IdsFromFirst(p: Parses) {
    (p.directors.Success? ==> DirectorIdsFrom(p.directors.value.0, FirstId)) &&
    (p.movies.Success? ==> MovieIdsFrom(p.movies.value.0, FirstId)) &&
    (p.actors.Success? ==> ActorIdsFrom(p.actors.value.0, FirstId))
  }

  lemma ParsedIdsFromFirst(files: JsonFiles, refs: JsonFiles)
    ensures IdsFromFirst(ParseFiles(files, refs, InitialCounters))
  {
  }

  /** awardWinningDirector links the Director rows to the directors' award IDs. */
  predicate DirectorLinksWired(tables: Tables, directors: seq<Director>) {
    Wired(tables, "awardWinningDirector", "Director", DirectorRows(directors), DirectorAwards(directors))
  }

  /** The three Movies junction tables link the Movies rows to the movies' award, rating and genre IDs. */
  predicate MovieLinksWired(tables: Tables, movies: seq<Movie>) {
    Wired(tables, "awardWinningMovie", "Movies", MovieRows(movies), MovieAwards(movies)) &&
    Wired(tables, "MoviesWithRatings", "Movies", MovieRows(movies), MovieRatings(movies)) &&
    Wired(tables, "MoviesWithGenres", "Movies", MovieRows(movies), MovieGenres(movies))
  }

  /** awardWinningActor and Cast link the Actors rows to the actors' award and movie IDs. */
  predicate ActorLinksWired(tables: Tables, actors: seq<Actor>) {
    Wired(tables, "awardWinningActor", "Actors", ActorRows(actors), ActorAwards(actors)) &&
    Wired(tables, "Cast", "Actors", ActorRows(actors), ActorMovies(actors))
  }

  /** Awards keeps the later steps' tables empty. */
  lemma AwardsKeepEmpty(env: Env, p: Parses, s: Stage)
    requires EmptyTables(s.tables, DirectorsLog) && EmptyTables(s.tables, MoviesLog) && EmptyTables(s.tables, ActorsLog)
    ensures var r := AwardsStep(env, p.awards, s);
            EmptyTables(r.tables, DirectorsLog) && EmptyTables(r.tables, MoviesLog) && EmptyTables(r.tables, ActorsLog)
  {
    var r := AwardsStep(env, p.awards, s);
    StepKeepsEmpty(env, s, r, AwardsLog, DirectorsLog);
    StepKeepsEmpty(env, s, r, AwardsLog, MoviesLog);
    StepKeepsEmpty(env, s, r, AwardsLog, ActorsLog);
  }

  /** Directors keeps the Movies and Actors tables empty. */
  lemma DirectorsKeepEmpty(env: Env, p: Parses, s: Stage)
    requires EmptyTables(s.tables, MoviesLog) && EmptyTables(s.tables, ActorsLog)
    ensures var r := DirectorsStep(env, p.directors, s);
            EmptyTables(r.tables, MoviesLog) && EmptyTables(r.tables, ActorsLog)
  {
    var r := DirectorsStep(env, p.directors, s);
    StepKeepsEmpty(env, s, r, DirectorsLog, MoviesLog);
    StepKeepsEmpty(env, s, r, DirectorsLog, ActorsLog);
  }

  /** Genres then Ratings touch none of the Director, Movies and Actors tables. */
  lemma MiddleStepsKeep(env: Env, p: Parses, s: Stage, directors: seq<Director>)
    requires DirectorLinksWired(s.tables, directors) && EmptyTables(s.tables, MoviesLog) && EmptyTables(s.tables, ActorsLog)
    ensures var r := RatingsStep(env, p.ratings, GenresStep(env, p.genres, s));
            DirectorLinksWired(r.tables, directors) && EmptyTables(r.tables, MoviesLog) && EmptyTables(r.tables, ActorsLog)
  {
    var s1 := GenresStep(env, p.genres, s);
    var r := RatingsStep(env, p.ratings, s1);
    WiredKept(env, s, s1, GenresLog, "awardWinningDirector", "Director", DirectorRows(directors), DirectorAwards(directors));
    WiredKept(env, s1, r, RatingsLog, "awardWinningDirector", "Director", DirectorRows(directors), DirectorAwards(directors));
    StepKeepsEmpty(env, s, s1, GenresLog, MoviesLog);
    StepKeepsEmpty(env, s, s1, GenresLog, ActorsLog);
    StepKeepsEmpty(env, s1, r, RatingsLog, MoviesLog);
    StepKeepsEmpty(env, s1, r, RatingsLog, ActorsLog);
  }

  /** Movies keeps the director links and the empty Actors tables. */
  lemma MoviesKeep(env: Env, p: Parses, s: Stage, directors: seq<Director>)
    requires DirectorLinksWired(s.tables, directors) && EmptyTables(s.tables, ActorsLog)
    ensures var r := MoviesStep(env, p.movies, s);
            DirectorLinksWired(r.tables, directors) && EmptyTables(r.tables, ActorsLog)
  {
    var r := MoviesStep(env, p.movies, s);
    WiredKept(env, s, r, MoviesLog, "awardWinningDirector", "Director", DirectorRows(directors), DirectorAwards(directors));
    StepKeepsEmpty(env, s, r, MoviesLog, ActorsLog);
  }

  /** Actors keeps the director and movie links. */
  lemma ActorsKeep(env: Env, p: Parses, s: Stage, directors: seq<Director>, movies: seq<Movie>)
    requires DirectorLinksWired(s.tables, directors) && MovieLinksWired(s.tables, movies)
    ensures var r := ActorsStep(env, p.actors, s);
            DirectorLinksWired(r.tables, directors) && MovieLinksWired(r.tables, movies)
  {
    var r := ActorsStep(env, p.actors, s);
    WiredKept(env, s, r, ActorsLog, "awardWinningDirector", "Director", DirectorRows(directors), DirectorAwards(directors));
    WiredKept(env, s, r, ActorsLog, "awardWinningMovie", "Movies", MovieRows(movies), MovieAwards(movies));
    WiredKept(env, s, r, ActorsLog, "MoviesWithRatings", "Movies", MovieRows(movies), MovieRatings(movies));
    WiredKept(env, s, r, ActorsLog, "MoviesWithGenres", "Movies", MovieRows(movies), MovieGenres(movies));
  }

  /**
   * A run without a fault on tables that are all empty wires every junction
   * table to the records it was parsed from, when every record's ID counts
   * from `FirstId`.
   */
  lemma RunWiresRecords(env: Env, p: Parses, s: Stage)
    requires s.fault.None? && IdsFromFirst(p)
    requires EmptyTables(s.tables, DirectorsLog) && EmptyTables(s.tables, MoviesLog) && EmptyTables(s.tables, ActorsLog)
    requires Run(env, p, s).fault.None?
    ensures p.directors.Success? && p.movies.Success? && p.actors.Success?
    ensures var tables := Run(env, p, s).tables;
            DirectorLinksWired(tables, p.directors.value.0) && MovieLinksWired(tables, p.movies.value.0) &&
            ActorLinksWired(tables, p.actors.value.0)
  {
    var s1 := AwardsStep(env, p.awards, s);
    var s2 := DirectorsStep(env, p.directors, s1);
    var s4 := RatingsStep(env, p.ratings, GenresStep(env, p.genres, s2));
    var s5 := MoviesStep(env, p.movies, s4);
    assert s5.fault.None? && s4.fault.None? && s2.fault.None? && s1.fault.None?;
    AwardsKeepEmpty(env, p, s);
    DirectorsWired(env, s1, p.directors);
    var directors := p.directors.value.0;
    DirectorsKeepEmpty(env, p, s1);
    MiddleStepsKeep(env, p, s2, directors);
    MoviesWired(env, s4, p.movies);
    var movies := p.movies.value.0;
    MoviesKeep(env, p, s4, directors);
    ActorsWired(env, s5, p.actors);
    ActorsKeep(env, p, s5, directors, movies);
  }

  /** The tables of `names` that exist hold no rows. */
  predicate EmptyTables(tables: Tables, names: seq<string>) {
    forall t | t in tables && t in names :: tables[t] == []
  }

  /** A step leaves empty the empty tables it does not write. */
  lemma StepKeepsEmpty(env: Env, s: Stage, r: Stage, log: seq<string>, names: seq<string>)
    requires StepShape(env, s, r, log) && EmptyTables(s.tables, names)
    requires forall t | t in names :: t !in log
    ensures EmptyTables(r.tables, names)
  {
  }

  /** A step that writes neither the junction table nor its entity table keeps them wired. */
  lemma WiredKept(env: Env, s: Stage, r: Stage, log: seq<string>, junction: string, entity: string,
                  rows: seq<Row>, rels: seq<Relation>)
    requires StepShape(env, s, r, log) && Wired(s.tables, junction, entity, rows, rels)
    requires junction !in log && entity !in log
    ensures Wired(r.tables, junction, entity, rows, rels)
  {
    assert r.tables[junction] == s.tables[junction] && r.tables[entity] == s.tables[entity];
  }

  /**
   * A successful population of an empty store, when every parsed record's
   * ID counts from `FirstId`, wires every junction table to its records:
   * each row of awardWinningActor and Cast pairs the ID of an Actors row
   * with an award or movie ID that actor lists, and every such ID is
   * linked, and so on for the Director and Movies junction tables, because
   * the in-memory IDs and SQLite's AUTOINCREMENT IDs both count from 1 in
   * insertion order.
   */
  lemma PopulationWiresRecords(env: Env, p: Parses, counters: Counters)
    requires EmptyStore(env) && IdsFromFirst(p)
    requires Population(env, p, counters).outcome == Returned(Populated)
    ensures p.directors.Success? && p.movies.Success? && p.actors.Success?
    ensures var r := Population(env, p, counters);
            r.env.db.Some? &&
            DirectorLinksWired(r.env.db.value, p.directors.value.0) &&
            MovieLinksWired(r.env.db.value, p.movies.value.0) &&
            ActorLinksWired(r.env.db.value, p.actors.value.0)
  {
    var r := Population(env, p, counters);
    var start := Stage(env.db.value, counters, [], None);
    var s := Run(env, p, start);
    assert s.fault.None? && r.env.db == Some(s.tables);
    RunWiresRecords(env, p, start);
  }

  /** The same for the six files parsed from the initial counters. */
  lemma FreshPopulationWiresRecords(env: Env, files: JsonFiles, refs: JsonFiles)
    requires EmptyStore(env)
    requires PopulationOfFiles(env, files, refs, InitialCounters).outcome == Returned(Populated)
    ensures var p := ParseFiles(files, refs, InitialCounters);
            p.directors.Success? && p.movies.Success? && p.actors.Success?
    ensures var p := ParseFiles(files, refs, InitialCounters);
            var r := PopulationOfFiles(env, files, refs, InitialCounters);
            r.env.db.Some? &&
            DirectorLinksWired(r.env.db.value, p.directors.value.0) &&
            MovieLinksWired(r.env.db.value, p.movies.value.0) &&
            ActorLinksWired(r.env.db.value, p.actors.value.0)
  {
    ParsedIdsFromFirst(files, refs);
    PopulationWiresRecords(env, ParseFiles(files, refs, InitialCounters), InitialCounters);
  }

  /** A junction table holding exactly the records' links, next to their entity rows, is wired. */
  lemma WiredFromLinks(tables: Tables, junction: string, entity: string, rows: seq<Row>, rels: seq<Relation>)
    requires junction in tables && entity in tables && tables[entity] == rows && |rows| == |rels|
    requires tables[junction] == AllLinks(rels)
    requires forall i | 0 <= i < |rels| :: rels[i].owner == FirstId + i
    ensures Wired(tables, junction, entity, rows, rels)
  {
    LinksSoundRecords(rels, FirstId);
    LinksCompleteRecords(rels, FirstId);
  }

  /** Tables holding exactly the actors' rows and links are wired. */
  lemma ActorTablesWired(tables: Tables, actors: seq<Actor>)
    requires ActorIdsFrom(actors, FirstId)
    requires "Actors" in tables && tables["Actors"] == ActorRows(actors)
    requires "awardWinningActor" in tables && tables["awardWinningActor"] == AllLinks(ActorAwards(actors))
    requires "Cast" in tables && tables["Cast"] == AllLinks(ActorMovies(actors))
    ensures ActorLinksWired(tables, actors)
  {
    WiredFromLinks(tables, "awardWinningActor", "Actors", ActorRows(actors), ActorAwards(actors));
    WiredFromLinks(tables, "Cast", "Actors", ActorRows(actors), ActorMovies(actors));
  }

  /** Tables holding exactly the movies' rows and links are wired. */
  lemma MovieTablesWired(tables: Tables, movies: seq<Movie>)
    requires MovieIdsFrom(movies, FirstId)
    requires "Movies" in tables && tables["Movies"] == MovieRows(movies)
    requires "awardWinningMovie" in tables && tables["awardWinningMovie"] == AllLinks(MovieAwards(movies))
    requires "MoviesWithRatings" in tables && tables["MoviesWithRatings"] == AllLinks(MovieRatings(movies))
    requires "MoviesWithGenres" in tables && tables["MoviesWithGenres"] == AllLinks(MovieGenres(movies))
    ensures MovieLinksWired(tables, movies)
  {
    MovieAwardsWired(tables, movies);
    MovieRatingsWired(tables, movies);
    MovieGenresWired(tables, movies);
  }

  lemma MovieAwardsWired(tables: Tables, movies: seq<Movie>)
    requires MovieIdsFrom(movies, FirstId)
    requires "Movies" in tables && tables["Movies"] == MovieRows(movies)
    requires "awardWinningMovie" in tables && tables["awardWinningMovie"] == AllLinks(MovieAwards(movies))
    ensures Wired(tables, "awardWinningMovie", "Movies", MovieRows(movies), MovieAwards(movies))
  {
    WiredFromLinks(tables, "awardWinningMovie", "Movies", MovieRows(movies), MovieAwards(movies));
  }

  lemma MovieRatingsWired(tables: Tables, movies: seq<Movie>)
    requires MovieIdsFrom(movies, FirstId)
    requires "Movies" in tables && tables["Movies"] == MovieRows(movies)
    requires "MoviesWithRatings" in tables && tables["MoviesWithRatings"] == AllLinks(MovieRatings(movies))
    ensures Wired(tables, "MoviesWithRatings", "Movies", MovieRows(movies), MovieRatings(movies))
  {
    WiredFromLinks(tables, "MoviesWithRatings", "Movies", MovieRows(movies), MovieRatings(movies));
  }

  lemma MovieGenresWired(tables: Tables, movies: seq<Movie>)
    requires MovieIdsFrom(movies, FirstId)
    requires "Movies" in tables && tables["Movies"] == MovieRows(movies)
    requires "MoviesWithGenres" in tables && tables["MoviesWithGenres"] == AllLinks(MovieGenres(movies))
    ensures Wired(tables, "MoviesWithGenres", "Movies", MovieRows(movies), MovieGenres(movies))
  {
    WiredFromLinks(tables, "MoviesWithGenres", "Movies", MovieRows(movies), MovieGenres(movies));
  }

  /** The Actors step on tables whose Actors, awardWinningActor and Cast are empty. */
  lemma ActorsWired(env: Env, s: Stage, parsed: Result<(seq<Actor>, int), Fault>)
    requires s.fault.None? && ActorsStep(env, parsed, s).fault.None?
    requires parsed.Success? ==> ActorIdsFrom(parsed.value.0, FirstId)
    requires EmptyTables(s.tables, ActorsLog)
    ensures parsed.Success? && ActorLinksWired(ActorsStep(env, parsed, s).tables, parsed.value.0)
  {
    var r := ActorsStep(env, parsed, s);
    var actors := parsed.value.0;
    assert ActorsLog[0] == "Actors" && ActorsLog[1] == "awardWinningActor" && ActorsLog[2] == "Cast";
    assert s.tables["Actors"] == [] && s.tables["awardWinningActor"] == [] && s.tables["Cast"] == [];
    ActorTablesWired(r.tables, actors);
  }

  /** The Movies step on tables whose Movies and movie junction tables are empty. */
  lemma MoviesWired(env: Env, s: Stage, parsed: Result<(seq<Movie>, int), Fault>)
    requires s.fault.None? && MoviesStep(env, parsed, s).fault.None?
    requires parsed.Success? ==> MovieIdsFrom(parsed.value.0, FirstId)
    requires EmptyTables(s.tables, MoviesLog)
    ensures parsed.Success? && MovieLinksWired(MoviesStep(env, parsed, s).tables, parsed.value.0)
  {
    var r := MoviesStep(env, parsed, s);
    var movies := parsed.value.0;
    assert MoviesLog[0] == "Movies" && MoviesLog[1] == "awardWinningMovie" &&
           MoviesLog[2] == "MoviesWithRatings" && MoviesLog[3] == "MoviesWithGenres";
    assert s.tables["Movies"] == [] && s.tables["awardWinningMovie"] == [] &&
           s.tables["MoviesWithRatings"] == [] && s.tables["MoviesWithGenres"] == [];
    MovieTablesWired(r.tables, movies);
  }

  /** The Directors step on tables whose Director and awardWinningDirector are empty. */
  lemma DirectorsWired(env: Env, s: Stage, parsed: Result<(seq<Director>, int), Fault>)
    requires s.fault.None? && DirectorsStep(env, parsed, s).fault.None?
    requires parsed.Success? ==> DirectorIdsFrom(parsed.value.0, FirstId)
    requires EmptyTables(s.tables, DirectorsLog)
    ensures parsed.Success? && DirectorLinksWired(DirectorsStep(env, parsed, s).tables, parsed.value.0)
  {
    var r := DirectorsStep(env, parsed, s);
    var directors := parsed.value.0;
    assert DirectorsLog[0] == "Director" && DirectorsLog[1] == "awardWinningDirector";
    assert s.tables["Director"] == [] && s.tables["awardWinningDirector"] == [];
    assert r.tables["awardWinningDirector"] == AllLinks(DirectorAwards(directors));
    WiredFromLinks(r.tables, "awardWinningDirector", "Director", DirectorRows(directors), DirectorAwards(directors));
  }
}

=== FILE: population_order.dfy ===
/**
 * The order in which PopulateDB fills the tables, set against the schema's
 * foreign keys.
 */
module PopulationOrder {
  import opened DdlTester
  import PopulateDb

  /** Where each schema table comes in `PopulateDb.WriteOrder`. */
  function WrittenAt(t: Table): nat {
    match t
    case Awards => 0
    case Director => 1
    case AwardWinningDirector => 2
    case Genres => 3
    case Ratings => 4
    case Movies => 5
    case AwardWinningMovie => 6
    case MoviesWithRatings => 7
    case MoviesWithGenres => 8
    case Actors => 9
    case AwardWinningActor => 10
    case Cast => 11
  }

  /** A complete population writes every schema table once, at its position. */
  lemma WriteOrderCoversSchema(t: Table)
    ensures |PopulateDb.WriteOrder| == 12
    ensures WrittenAt(t) < 12 && PopulateDb.WriteOrder[WrittenAt(t)] == Name(t)
  {
  }

  /**
   * Population fills every table a foreign key references before the table
   * that references it, so a junction row is never inserted before the
   * entity rows it names.
   */
  lemma ParentsWrittenFirst(t: Table, k: nat)
    requires k < |Ddl(t).keys|
    ensures WrittenAt(Ddl(t).keys[k].parent) < WrittenAt(t)
  {
  }
}

=== FILE: query_db.dfy ===
/**
 * QueryDB: the populated gate, the selector parse, the per-selector
 * argument count and `printer`'s numbered output. What a query returns is
 * the store's business and is a parameter here; the model says which query
 * runs, with which bound values, and what is printed of its result.
 */
module QueryDb {
  import opened Wrappers
  import opened Faults
  import opened JavaText
  import opened Database

  const NotANumberMessage := "The first parameter of the args array is not a number. Please try again"

  /** The critic source query 5 always binds. */
  const RottenTomatoes := "Rotten Tomatoes"

  /** The six queries, each with the values bound to its `?` placeholders. */
  datatype Query =
    | MovieNames                                          // executeQuery1
    | ActorsIn(movie: string)                             // executeQuery2
    | Plots(actor: string, director: string)              // executeQuery3
    | DirectorsOf(actor: string)                          // executeQuery4
    | RatedInGenre(criticSource: string, genre: string)   // executeQuery5
    | AwardAges                                           // executeQuery6

  /** The selector that picks a query. */
  function Number(q: Query): nat {
    match q
    case MovieNames => 1
    case ActorsIn(_) => 2
    case Plots(_, _) => 3
    case DirectorsOf(_) => 4
    case RatedInGenre(_, _) => 5
    case AwardAges => 6
  }

  /** The values bound to the placeholders, in placeholder order. */
  function Bound(q: Query): seq<string> {
    match q
    case MovieNames => []
    case ActorsIn(movie) => [movie]
    case Plots(actor, director) => [actor, director]
    case DirectorsOf(actor) => [actor]
    case RatedInGenre(source, genre) => [source, genre]
    case AwardAges => []
  }

  /** A query result: column names and, per row, one value per column. */
  datatype Grid = Grid(columns: seq<string>, rows: seq<seq<string>>)

  type ResultSet = g: Grid | forall k | 0 <= k < |g.rows| :: |g.rows[k]| == |g.columns|
    witness Grid([], [])

  /**
   * The answers of the store: the result of a query over the tables, or
   * `None` when the statement raises an SQLException.
   */
  type Answers = (Tables, Query) -> Option<ResultSet>

  /** One printed line. */
  datatype Report =
    | NotPopulated
    | NoArgs
    | NotRecognised
    | WrongArity
    | SqlError
    | DriverError
    | NoMatches
    | Entry(number: nat)
    | Field(column: string, value: string)

  /** The text printed for a line. */
  function Text(r: Report): string {
    match r
    case NotPopulated => "The table has not been populated. Please try again"
    case NoArgs => "There is no args parameter. Please try again"
    case NotRecognised => "The value is not recognised. Please try with a number between 1-6"
    case WrongArity => "Incorrect number of arguments"
    case SqlError => "SQL Code Error has been detected. Please try again with fixed code"
    case DriverError => "There has been a problem loading the drivers. Please try again"
    case NoMatches => "Based on the inputted data, there are no matches. Please try again"
    case Entry(k) => "Entry " + NatToString(k)
    case Field(column, value) => column + ": " + value
  }

  // ----- printer -----

  /** The lines of row `k`: its entry number, counted from 1, then one line per column. */
  function Block(rs: ResultSet, k: nat): (r: seq<Report>)
    requires k < |rs.rows|
    ensures |r| == |rs.columns| + 1
  {
    [Entry(k + 1)] + Fields(rs, k)
  }

  function Fields(rs: ResultSet, k: nat): (r: seq<Report>)
    requires k < |rs.rows|
    ensures |r| == |rs.columns|
  {
    seq(|rs.columns|, c requires 0 <= c < |rs.columns| => Field(rs.columns[c], rs.rows[k][c]))
  }

  /** The blocks of the first `n` rows. */
  function Blocks(rs: ResultSet, n: nat): (r: seq<Report>)
    requires n <= |rs.rows|
    ensures forall i | 0 <= i < |r| :: r[i].Entry? || r[i].Field?
  {
    if n == 0 then [] else Blocks(rs, n - 1) + Block(rs, n - 1)
  }

  /** What `printer` prints for a result. */
  function PrinterLines(rs: ResultSet): seq<Report> {
    if ResultSetChecker(Opened(|rs.rows|)) then Blocks(rs, |rs.rows|) else [NoMatches]
  }

  /** Where row `k`'s entry line is printed. */
  function EntryAt(rs: ResultSet, k: nat): (i: nat)
    requires k < |rs.rows|
    ensures i + |rs.columns| < |rs.rows| * (|rs.columns| + 1)
  {
    BlockFits(k, |rs.rows|, |rs.columns| + 1);
    k * (|rs.columns| + 1)
  }

  /** Where row `k`'s value of column `c` is printed. */
  function FieldAt(rs: ResultSet, k: nat, c: nat): (i: nat)
    requires k < |rs.rows| && c < |rs.columns|
    ensures i < |rs.rows| * (|rs.columns| + 1)
  {
    EntryAt(rs, k) + 1 + c
  }

  lemma BlockFits(k: nat, n: nat, w: nat)
    requires k < n
    ensures k * w + w <= n * w
  {
    assert (k + 1) * w <= n * w by {
      MulMonotone(k + 1, n, w);
    }
  }

  lemma MulMonotone(a: nat, b: nat, w: nat)
    requires a <= b
    ensures a * w <= b * w
  {
    assert b * w == a * w + (b - a) * w;
  }

  /**
   * `printer`: on a result with rows, every row gets an entry line numbered
   * 1, 2, 3, … in order, followed by a `column: value` line per column, and
   * nothing else is printed; on an empty result the "no matches" line alone.
   */
  lemma {:induction false} PrinterNumbering(rs: ResultSet)
    ensures |rs.rows| == 0 ==> PrinterLines(rs) == [NoMatches]
    ensures |rs.rows| > 0 ==> |PrinterLines(rs)| == |rs.rows| * (|rs.columns| + 1)
    ensures forall k | 0 <= k < |rs.rows| :: PrinterLines(rs)[EntryAt(rs, k)] == Entry(k + 1)
    ensures forall k, c | 0 <= k < |rs.rows| && 0 <= c < |rs.columns| ::
              PrinterLines(rs)[FieldAt(rs, k, c)] == Field(rs.columns[c], rs.rows[k][c])
  {
    ResultSetCheckerMeaning(|rs.rows|, Opened(|rs.rows|));
    BlocksLayout(rs, |rs.rows|);
  }

  lemma {:induction false} BlocksLayout(rs: ResultSet, n: nat)
    requires n <= |rs.rows|
    ensures |Blocks(rs, n)| == n * (|rs.columns| + 1)
    ensures forall k | 0 <= k < n :: EntryAt(rs, k) < |Blocks(rs, n)| && Blocks(rs, n)[EntryAt(rs, k)] == Entry(k + 1)
    ensures forall k, c | 0 <= k < n && 0 <= c < |rs.columns| ::
              FieldAt(rs, k, c) < |Blocks(rs, n)| && Blocks(rs, n)[FieldAt(rs, k, c)] == Field(rs.columns[c], rs.rows[k][c])
  {
    var w := |rs.columns| + 1;
    if n > 0 {
      BlocksLayout(rs, n - 1);
      var prefix := Blocks(rs, n - 1);
      var last := Block(rs, n - 1);
      assert Blocks(rs, n) == prefix + last;
      assert |Blocks(rs, n)| == n * w by {
        assert (n - 1) * w + w == n * w;
      }
      forall k | 0 <= k < n
        ensures EntryAt(rs, k) < |Blocks(rs, n)| && Blocks(rs, n)[EntryAt(rs, k)] == Entry(k + 1)
      {
        if k == n - 1 {
          assert EntryAt(rs, k) == |prefix|;
        }
      }
      forall k, c | 0 <= k < n && 0 <= c < |rs.columns|
        ensures FieldAt(rs, k, c) < |Blocks(rs, n)| && Blocks(rs, n)[FieldAt(rs, k, c)] == Field(rs.columns[c], rs.rows[k][c])
      {
        if k == n - 1 {
          assert EntryAt(rs, k) == |prefix|;
          assert Blocks(rs, n)[FieldAt(rs, k, c)] == last[1 + c];
        }
      }
    }
  }

  /**
   * `printer`, over a result-set cursor: when `resultSetChecker` accepts the
   * fresh cursor, step with `next` and print each row's block; otherwise
   * print the "no matches" line.
   */
  method Printer(rs: ResultSet) returns (out: seq<Report>)
    ensures out == PrinterLines(rs)
    ensures |rs.rows| == 0 ==> out == [NoMatches]
    ensures |rs.rows| > 0 ==> |out| == |rs.rows| * (|rs.columns| + 1)
    ensures forall k | 0 <= k < |rs.rows| :: out[EntryAt(rs, k)] == Entry(k + 1)
  {
    var cursor := Opened(|rs.rows|);
    var count := 1;
    if ResultSetChecker(cursor) {
      out := [];
      var onRow: bool;
      cursor, onRow := Next(cursor).0, Next(cursor).1;
      while onRow
        invariant cursor.rowCount == |rs.rows| && cursor.position == count
        invariant 1 <= count <= |rs.rows| + 1
        invariant onRow <==> count <= |rs.rows|
        invariant out == Blocks(rs, count - 1)
        decreases |rs.rows| + 1 - count
      {
        out := out + [Entry(count)];
        var i := 1;
        while i < |rs.columns| + 1
          invariant 1 <= i <= |rs.columns| + 1
          invariant out == Blocks(rs, count - 1) + [Entry(count)] + Fields(rs, count - 1)[..i - 1]
        {
          out := out + [Field(rs.columns[i - 1], rs.rows[count - 1][i - 1])];
          i := i + 1;
        }
        assert Fields(rs, count - 1)[..i - 1] == Fields(rs, count - 1);
        count := count + 1;
        cursor, onRow := Next(cursor).0, Next(cursor).1;
      }
    } else {
      out := [NoMatches];
    }
    PrinterNumbering(rs);
  }

  // ----- querying -----

  /** How many arguments, the selector included, each selector needs; `None` for an unknown selector. */
  function Arity(selector: int): (r: Option<nat>)
    ensures r.Some? <==> 1 <= selector <= 6
  {
    if selector == 1 || selector == 6 then Some(1)
    else if selector == 2 || selector == 4 || selector == 5 then Some(2)
    else if selector == 3 then Some(3)
    else None
  }

  /**
   * The query a selector runs: the arguments after the selector are bound in
   * order, and query 5 binds "Rotten Tomatoes" before its one argument.
   */
  function QueryFor(selector: int, args: seq<string>): (q: Query)
    requires Arity(selector) == Some(|args|)
    ensures Number(q) == selector
    ensures Bound(q) == (if selector == 5 then [RottenTomatoes] else []) + args[1..]
    ensures |Bound(q)| == Arity(selector).value - 1 + (if selector == 5 then 1 else 0)
  {
    if selector == 1 then MovieNames
    else if selector == 2 then ActorsIn(args[1])
    else if selector == 3 then Plots(args[1], args[2])
    else if selector == 4 then DirectorsOf(args[1])
    else if selector == 5 then RatedInGenre(RottenTomatoes, args[1])
    else AwardAges
  }

  /**
   * `executeQueryN`: `preparation`, then the statement. The driver failure
   * comes first; a failed connection or statement is an SQLException.
   */
  function Execute(env: Env, q: Query, answers: Answers): (r: Result<ResultSet, Fault>)
    ensures r.Failure? ==> r.error == DriverFault || r.error == SqlFault
    ensures r == Failure(DriverFault) <==> !env.driverLoaded
    ensures r.Success? <==> env.driverLoaded && env.connects && answers(Contents(env), q).Some?
    ensures r.Success? ==> r.value == answers(Contents(env), q).value
  {
    var tables :- Preparation(env);
    match answers(tables, q)
    case None => Failure(SqlFault)
    case Some(rs) => Success(rs)
  }

  /** One `case` of the switch: the argument count, then the query and `printer`. */
  function Dispatch(env: Env, selector: int, args: seq<string>, answers: Answers): (r: (seq<Report>, Option<Query>))
    ensures NotPopulated !in r.0 && NoArgs !in r.0
    ensures r.1.Some? <==> Arity(selector) == Some(|args|)
  {
    if Arity(selector).None? then ([NotRecognised], None)
    else if |args| != Arity(selector).value then ([WrongArity], None)
    else
      var q := QueryFor(selector, args);
      match Execute(env, q, answers)
      case Failure(e) => (if e == DriverFault then [DriverError] else [SqlError], Some(q))
      case Success(rs) => (PrinterLines(rs), Some(q))
  }

  /** What `querying` ends in: the lines it printed, or the exception it threw. */
  datatype Outcome = Printed(lines: seq<Report>) | Threw(fault: Fault)

  /** A `querying` call: its outcome and the query it sent to the store, if any. */
  datatype Session = Session(outcome: Outcome, executed: Option<Query>)

  /** Both gates pass: the store has tables and the Actors table has rows. */
  predicate Populated(env: Env) {
    !EmptyDbChecker(env) && PopulatedTableChecker(env) == Success(true)
  }

  /** The selector the arguments name, when there is one and it is an int. */
  function Selector(args: seq<string>): Option<int> {
    if |args| == 0 then None else ParseInt(args[0])
  }

  /**
   * `querying`. The populated gate comes first; without arguments the
   * selector stays 0, so the not-recognised line follows the no-arguments
   * line; a selector that is not an int throws.
   */
  function Querying(env: Env, args: seq<string>, answers: Answers): (r: Session)
    ensures r.outcome == Printed([NotPopulated]) <==>
              EmptyDbChecker(env) || PopulatedTableChecker(env) == Success(false)
    ensures r.outcome.Threw? <==>
              (!EmptyDbChecker(env) && PopulatedTableChecker(env).Failure?) ||
              (Populated(env) && |args| > 0 && ParseInt(args[0]).None?)
    ensures r.outcome.Threw? ==> r.outcome.fault == SqlFault || r.outcome.fault == NumberFormat(NotANumberMessage)
    ensures Populated(env) && |args| == 0 ==> r.outcome == Printed([NoArgs, NotRecognised])
    ensures r.executed.Some? <==>
              Populated(env) && Selector(args).Some? && Arity(Selector(args).value) == Some(|args|)
  {
    if EmptyDbChecker(env) then Session(Printed([NotPopulated]), None)
    else
      match PopulatedTableChecker(env)
      case Failure(e) => Session(Threw(e), None)
      case Success(populated) =>
        if !populated then Session(Printed([NotPopulated]), None)
        else if |args| == 0 then
          var (lines, q) := Dispatch(env, 0, args, answers);
          Session(Printed([NoArgs] + lines), q)
        else
          match ParseInt(args[0])
          case None => Session(Threw(NumberFormat(NotANumberMessage)), None)
          case Some(selector) =>
            var (lines, q) := Dispatch(env, selector, args, answers);
            Session(Printed(lines), q)
  }

  /**
   * With both gates passed and an int selector: an unknown selector and a
   * wrong argument count each print their one line and run nothing; a
   * matching count runs the selected query with the remaining arguments
   * bound in order, and prints the driver line, the SQL line or the result.
   */
  lemma SelectorDecides(env: Env, args: seq<string>, answers: Answers, selector: int)
    requires Populated(env) && Selector(args) == Some(selector)
    ensures var r := Querying(env, args, answers);
            (Arity(selector).None? ==> r == Session(Printed([NotRecognised]), None)) &&
            (Arity(selector).Some? && Arity(selector).value != |args| ==> r == Session(Printed([WrongArity]), None)) &&
            (r.executed.Some? ==>
               var q := r.executed.value;
               Number(q) == selector &&
               Bound(q) == (if selector == 5 then [RottenTomatoes] else []) + args[1..] &&
               match Execute(env, q, answers)
               case Failure(e) => r.outcome == Printed(if e == DriverFault then [DriverError] else [SqlError])
               case Success(rs) => r.outcome == Printed(PrinterLines(rs)))
  {
  }

  /**
   * Once both gates pass the store is reachable, so no query can report a
   * driver failure; only an unknown table or a failing statement reaches
   * the SQL line.
   */
  lemma NoDriverErrorAfterGate(env: Env, args: seq<string>, answers: Answers)
    requires Populated(env)
    ensures var r := Querying(env, args, answers);
            r.outcome.Printed? ==> DriverError !in r.outcome.lines
    ensures var r := Querying(env, args, answers);
            r.executed.Some? && answers(Contents(env), r.executed.value).Some? ==>
              r.outcome.Printed? && SqlError !in r.outcome.lines
  {
  }
}

=== FILE: wrappers.dfy ===
/** Failure-compatible wrappers used throughout the model. */
module Wrappers {

  /** An optional value. */
  datatype Option<+T> = None | Some(value: T) {
    predicate IsFailure() { None? }

    function PropagateFailure<U>(): Option<U>
      requires None?
    {
      None
    }

    function Extract(): T
      requires Some?
    {
      value
    }
  }

  /** Either a value or the error that stopped the computation. */
  datatype Result<+R, +E> = Success(value: R) | Failure(error: E) {
    predicate IsFailure() { Failure? }

    function PropagateFailure<U>(): Result<U, E>
      requires Failure?
    {
      Failure(error)
    }

    function Extract(): R
      requires Success?
    {
      value
    }
  }
}
